=== FILE: README.md ===
# Omnia ↔ WooCommerce sync — a Dafny model

The service keeps a WooCommerce storefront in step with the Omnia ERP.

- **Hourly pass.** `SyncService.syncProducts` runs every hour. It loads four lists:
  - the storefront's products
  - the ERP's products, stock rows and price rows

  It then splits them into three lists:
  - products to create (an ERP code with no storefront SKU)
  - products to update (an ERP code with a storefront SKU)
  - storefront products to withdraw (a SKU with no ERP code)

  Each list goes through `processBatch` in chunks of ten, and each item's write goes through
  `retry` (3 attempts, waits of 1 s and 2 s).
- **Two revisions.** The TypeScript source (`src/`) and the compiled JavaScript (`dist/`) differ.
  In `dist`:
  - keys go through `normalizeSku`
  - a creation the storefront refuses as a duplicate SKU becomes an update of the existing
    product
  - SKUs that could not be resolved are remembered in `failedSkus`

  Both revisions are modelled, as `SyncSrc` and `SyncDist`.
- **Order webhook.** `processNewOrder` checks the order webhook's body and HMAC signature, then
  turns the storefront order into the ERP's customer and order records (`formatClient`,
  `formatOrder`).
- **Loaders.** The model covers:
  - the ERP loader's paged fetch, with per-page retry (`fetchAllPagesConcurrent`)
  - the storefront catalogue fetch with id de-duplication (`getAllProductsConcurrent`)
  - the request bodies for creation and update
  - the two delete variants and the lookup by SKU
  - the customer report built from orders (`getAllCustomersFromOrders`)
  - the card-brand table (`proccessPaymentMethod`)

## How the model is built

- **Remote systems are parameters.** Every remote system is a pure function supplied by the
  caller.
  - The ERP's page answers are a function of page and attempt number.
  - The storefront is a `Storefront`: its answer to a call depends on every call the pass made
    before it.
  - The HMAC, `JSON.parse` and the postcode lookup are plain functions.
- **Calls are recorded.** A pass records every storefront call it makes in a log. The log is
  what the contracts talk about:
  - which items ran
  - how often they were tried
  - what was sent
  - in which order
- **`retry` carries state.** `retry` is modelled once, generically, with a state threaded
  through its attempts (`RetryExecutor`). The dist create handler needs this: an attempt can
  fill `wcProductMap` for the next attempt.
- **Numbers.** Prices are integer cents, so `toFixed(2)` is exact. Stock quantities are exact
  rationals (`real`), so `Math.floor` is visible. ERP product codes are natural numbers, and
  `String(codprod)` is their decimal rendering. Where the source turns text into a number
  (`Number(item.sku)`, `Number(product.comprimento_cm)`) or a number back into text
  (`String(Number(...))`), `JsNumber` models ECMAScript's `StringToNumber` and
  `Number::toString` on exact decimals: white space trimmed, signs, fractions, exponents,
  `0x`/`0o`/`0b` integers, `Infinity`, and `NaN` as `None`.
- **Batches run in order.** `processBatch` is modelled chunk by chunk. Inside a chunk, items run
  one after another in list order. Each handler's skip checks run in list order in JavaScript
  too, because they are synchronous before the first `await`.
- **Sync batches fold over items.** The create and update batches of `SyncSrc` and `SyncDist`
  are folds over the item list. They do not call `BatchRunner.Chunks` or
  `BatchRunner.ProcessBatch`. The link between the two is `SyncCommon.HandlerNeverRejects`: a
  handler that never rejects is handed every item once, in order. That lemma is stated for a
  stateless handler. The sync handlers thread the call log and the caches through the items,
  so the fold's item-by-item order is the model's own reading of `processBatch` for them.

Files (one module each):
- `outcomes.dfy`, `seqs.dfy`, `jsstring.dfy`, `jsnumber.dfy`: shared value types, sequence
  helpers, JavaScript string primitives, JavaScript number conversions.
- `sku.dfy`, `retry.dfy`, `batch.dfy`, `payment.dfy`: the four utilities.
- `omnia_fetch.dfy`, `woo_catalog.dfy`, `woo_payload.dfy`, `woo_customers.dfy`: the two API
  services.
- `catalog.dfy`, `orders.dfy`: the entities.
- `sync_common.dfy`, `sync_src.dfy`, `sync_dist.dfy`, `webhook.dfy`: the sync service.

## Model

| member | source | states |
|---|---|---|
| `JsNumber.ToNumber` | src/modules/sync/sync.service.ts:304 | text that is empty or only white space reads as 0 |
| `JsNumber.NumberStringRoundTrip` | src/modules/woocommerce/woocommerce.service.ts:34 | `Number(String(n))` is `n` for every number in lowest terms, finite or infinite, negative or not; these are all the numbers `Number` gives |
| `JsNumber.NumberTextRoundTrip` | src/modules/woocommerce/woocommerce.service.ts:33-38 | the text of a decimal measure reads back as the value it denotes |
| `JsNumber.NumberOfDecimal` | src/modules/woocommerce/woocommerce.service.ts:48 | `Number(String(n))` is `n` for a natural number |
| `JsNumber.ToNumberStable` | src/modules/sync/sync.service.ts:304 | every number `Number` gives is in lowest terms, and printing and reading it back gives the same number |
| `JsNumber.SignedRead` | src/modules/sync/sync.service.ts:304 | illustration: `"-3"` reads as -3 |
| `JsNumber.FractionRead` | src/modules/sync/sync.service.ts:304 | illustration: `"1.5"` reads as 1.5 |
| `JsNumber.ExponentRead` | src/modules/sync/sync.service.ts:304 | illustration: `"1e3"` reads as 1000 |
| `JsNumber.HexRead` | src/modules/sync/sync.service.ts:304 | illustration: `"0x1A"` reads as 26 |
| `JsNumber.LetterIsNaN` | src/modules/sync/sync.service.ts:304 | illustration: `"A1"` is `NaN` |
| `JsNumber.FractionText` | src/modules/woocommerce/woocommerce.service.ts:34 | illustration: 15.5 prints as `"15.5"` |
| `JsNumber.TrailingZerosDropped` | src/modules/woocommerce/woocommerce.service.ts:34 | illustration: 15.00 prints as `"15"` |
| `JsNumber.SmallNegativeText` | src/modules/woocommerce/woocommerce.service.ts:34 | illustration: -0.005 prints as `"-0.005"` |
| `SkuNormalizer.NormalizeSku` | src/shared/utils/normalizeSku.utils.ts:1-10 | a falsy SKU gives `''`; otherwise the result is exactly the `\w` characters of the input, in their original order, and nothing else |
| `SkuNormalizer.StripComposition` | src/shared/utils/normalizeSku.utils.ts:8-9 | removing non-word, non-space characters and then all white space keeps exactly the word characters |
| `SkuNormalizer.TrimKeepsWordChars` | src/shared/utils/normalizeSku.utils.ts:7 | `trim()` removes no word character |
| `SkuNormalizer.Idempotent` | src/shared/utils/normalizeSku.utils.ts:1-10 | normalising a normalised SKU changes nothing |
| `SkuNormalizer.FixedPoint` | src/shared/utils/normalizeSku.utils.ts:5-9 | a string is left unchanged if and only if it consists of word characters only |
| `SkuNormalizer.TrimRedundant` | src/shared/utils/normalizeSku.utils.ts:7 | trimming first gives the same key, so the leading `trim` does not change the result |
| `SkuNormalizer.DecimalCodeIsNormal` | src/shared/utils/normalizeSku.utils.ts:1-10 | the decimal rendering of a product code is its own normal form and its own trim |
| `SkuNormalizer.KeepsCaseAndUnderscore` | src/shared/utils/normalizeSku.utils.ts:8 | illustration: `"ab-C_1 "` normalises to `"abC_1"`: case and `_` survive, the dash and the space go |
| `RetryExecutor.Loop` | src/shared/utils/retry.utils.ts:2-9 | from attempt `k`: calls stop at the first success or after attempt `retries`; every earlier call failed; the wait after the failure of attempt `k + i` is `delay * (k + i)`; the final state is the state the last call left |
| `RetryExecutor.Retry` | src/shared/utils/retry.utils.ts:1-10 | settles with the value of the first successful call, or rethrows the error of call number `retries` after exactly `retries` calls; it gives `undefined` only when `retries < 1`; the waits are `delay, 2*delay, ...`, one per failed call but the last |
| `RetryExecutor.FirstSuccessWins` | src/shared/utils/retry.utils.ts:4 | if call `m` is the first to succeed, `retry` returns its value after exactly `m` calls |
| `RetryExecutor.AllFailRethrowsLast` | src/shared/utils/retry.utils.ts:6 | when every call fails, the last call's error is rethrown after `retries` calls |
| `RetryExecutor.LinearWaitsTotal` | src/shared/utils/retry.utils.ts:7 | linearly growing waits `d, 2d, ..., nd` add up to `d*n*(n+1)/2` |
| `RetryExecutor.TotalWaitOnSuccess` | src/shared/utils/retry.utils.ts:2-7 | a first success at call `m` has cost `delay*m*(m-1)/2` ms of waiting |
| `RetryExecutor.StatesFollowSteps` | src/shared/utils/retry.utils.ts:2-4 | when each call appends the same entries to a log, call `k` sees the starting log plus `k-1` copies of them |
| `RetryExecutor.RetryAppends` | src/shared/utils/retry.utils.ts:2-9 | a `retry` whose calls each append the same entries leaves one copy of them per call made |
| `RetryExecutor.RetryPreserves` | src/shared/utils/retry.utils.ts:2-9 | a property of the state that every call preserves still holds when `retry` settles |
| `BatchRunner.ChunksFrom` | src/shared/utils/proccessBatch.utils.ts:6-7 | the slices from `start` on concatenate back to the remaining items; each holds 1 to `n` items, and all but the last hold exactly `n` |
| `BatchRunner.Chunks` | src/shared/utils/proccessBatch.utils.ts:6-7 | the chunks concatenate back to the input; all but the last hold exactly `n` items; there are `ceil(len/n)` of them |
| `BatchRunner.ChunkSizesExample` | src/shared/utils/proccessBatch.utils.ts:6-7 | illustration: 25 items with chunk size 10 run as chunks of 10, 10 and 5 |
| `BatchRunner.FirstError` | src/shared/utils/proccessBatch.utils.ts:8 | a chunk reports an error if and only if some item of it rejects, and the error reported is one of those items' errors |
| `BatchRunner.RunChunks` | src/shared/utils/proccessBatch.utils.ts:6-9 | chunks run in order up to and including the first chunk with a rejection, whose error ends the run; otherwise every chunk runs and the run fulfils |
| `BatchRunner.ProcessBatch` | src/shared/utils/proccessBatch.utils.ts:1-10 | fulfils if and only if the handler fulfils for every item; the items handed to it are a prefix of the input, the whole input when it fulfils |
| `BatchRunner.RunChunksOverItems` | src/shared/utils/proccessBatch.utils.ts:6-9 | the chunk-level account restated on the flattened item list |
| `BatchRunner.EmptyInputDoesNothing` | src/shared/utils/proccessBatch.utils.ts:6 | an empty list fulfils without calling the handler |
| `PaymentMethod.ProcessPaymentMethod` | src/shared/utils/proccessPaymentMethod.utils.ts:1-24 | a name whose lower-case form is in the brand table gives that brand's three-letter `CC…` code; any other name comes back unchanged |
| `PaymentMethod.SixMappings` | src/shared/utils/proccessPaymentMethod.utils.ts:3-19 | each of the six brand names maps to its own code |
| `PaymentMethod.CaseInsensitive` | src/shared/utils/proccessPaymentMethod.utils.ts:2 | two spellings of a known brand that lower-case alike give the same code |
| `PaymentMethod.UpperCaseVisa` | src/shared/utils/proccessPaymentMethod.utils.ts:2-4 | illustration: `"VISA"` gives `"CCV"` |
| `PaymentMethod.MixedCaseDiners` | src/shared/utils/proccessPaymentMethod.utils.ts:2-19 | illustration: `"Diners Club"` gives `"CCD"` |
| `PaymentMethod.UnknownKeepsCasing` | src/shared/utils/proccessPaymentMethod.utils.ts:21-22 | illustration: an unknown method, `"Pix"`, comes back with its casing intact |
| `OmniaFetch.FetchPageIsRetry` | src/modules/omnia/omnia.service.ts:116-139 | the page fetch makes the same calls, with the same waits, as `retry` given `maxRetries + 1` attempts; it yields `[]` exactly where `retry` would rethrow |
| `OmniaFetch.FetchPage` | src/modules/omnia/omnia.service.ts:116-139 | a later page is tried 1 to `maxRetries + 1` times, waiting `1000*k` ms after failed attempt `k`; it yields the rows of the first successful attempt, or `[]` once every attempt has failed |
| `OmniaFetch.FetchWave` | src/modules/omnia/omnia.service.ts:151-154 | a wave yields one page result per page, in page order |
| `OmniaFetch.RunWaves` | src/modules/omnia/omnia.service.ts:150-156 | the waves together fetch every page of the flattened wave list once, in order |
| `OmniaFetch.FetchAllPagesConcurrent` | src/modules/omnia/omnia.service.ts:108-159 | a failed first request rejects the whole fetch with its error. Otherwise pages `2..totalpages` are fetched in waves of at most `concurrency`, each page once, and the rows are page 1's rows followed by each later page's rows in page order |
| `OmniaFetch.SinglePage` | src/modules/omnia/omnia.service.ts:146-148 | with `totalpages <= 1` no later page is requested and the result is page 1's rows |
| `OmniaFetch.DefaultRetryBudget` | src/modules/omnia/omnia.service.ts:111-112 | with the defaults a later page is tried at most four times; a page that gives up has waited 1, 2 and 3 s |
| `WooCatalog.TotalPages` | src/modules/woocommerce/woocommerce.service.ts:363 | a missing, non-numeric or zero page-count header reads as 1 page; any other number is taken as given |
| `WooCatalog.DedupById` | src/modules/woocommerce/woocommerce.service.ts:391-397 | one product per id, and exactly the ids seen. Each id holds the last product listed with it, and ids come in the order they first appear |
| `Seqs.FirstAppearanceOrder` | src/modules/woocommerce/woocommerce.service.ts:392-397 | a `Map`'s keys come out in the order they were first inserted |
| `WooCatalog.FulfilledRows` | src/modules/woocommerce/woocommerce.service.ts:379-389 | a product is kept exactly when some later page whose request was fulfilled lists it |
| `WooCatalog.FulfilledRowsInPageOrder` | src/modules/woocommerce/woocommerce.service.ts:379-389 | the kept products are each fulfilled page's products, rejected pages contributing none, concatenated in request order (`filter` then `flatMap`) |
| `WooCatalog.GetAllProductsConcurrent` | src/modules/woocommerce/woocommerce.service.ts:351-398 | a failed first page rejects with its error. Otherwise pages `2..totalPages` are requested, and the result is page 1's products followed by each fulfilled later page's products in page order, de-duplicated by id |
| `WooCatalog.OverlappingPagesKeepOne` | src/modules/woocommerce/woocommerce.service.ts:391-397 | a product listed on two pages is kept once, in its later version |
| `WooCatalog.GetProductBySku` | src/modules/woocommerce/woocommerce.service.ts:400-422 | no request for an empty SKU. A product is found if and only if the request succeeds with a non-empty list, and it is the first one listed |
| `WooCatalog.DeleteProduct` | src/modules/woocommerce/woocommerce.service.ts:140-150 | the withdrawal never rejects, whatever the storefront answers |
| `WooCatalog.DeleteProductPermanently` | src/modules/woocommerce/woocommerce.service.ts:424-443 | the permanent delete rejects if and only if the request fails |
| `WooPayload.Dimension` | src/modules/woocommerce/woocommerce.service.ts:33-38 | a dimension, fractional or whole, is sent if and only if it is positive, as `String` of it, which `Number` reads back as the same value |
| `WooPayload.FractionalDimension` | src/modules/woocommerce/woocommerce.service.ts:33-34 | illustration: 15.5 cm is sent as `"15.5"`; a negative length is left out |
| `WooPayload.DimensionsOf` | src/modules/woocommerce/woocommerce.service.ts:32-42 | the dimensions object is omitted if and only if none of the three is positive; otherwise it holds each dimension's text |
| `WooPayload.StockQuantity` | src/modules/woocommerce/woocommerce.service.ts:51 | the quantity sent is the floor of the ERP stock (0 when absent) |
| `WooPayload.PriceRules` | src/modules/woocommerce/woocommerce.service.ts:63-71 | a single rule, keyed by text that `Number` reads back as the minimum quantity (which may be fractional), with the wholesale price, when that quantity exceeds 1; no rule otherwise |
| `WooPayload.FractionalWholesaleMinimum` | src/modules/woocommerce/woocommerce.service.ts:63-71 | illustration: a minimum of 1.5 gives one rule keyed `"1.5"`; a minimum of 1.0 gives none |
| `WooPayload.PriceRulesRoundTrip` | src/modules/woocommerce/woocommerce.service.ts:63-71 | reading the rule map back recovers the wholesale tier if and only if its minimum quantity exceeds 1 |
| `WooPayload.CreatePayload` | src/modules/woocommerce/woocommerce.service.ts:44-74 | without a price row creation throws before posting. Otherwise the body carries: the SKU (which reads back as the product code), the dimensions, the unit price, the floored stock, `instock` exactly for a positive stock, the e-commerce name falling back to the description, the long and short descriptions (empty when missing), managed stock, `simple`, `publish`, the `fixed` rules type and the wholesale price rules of the price row |
| `WooPayload.UpdatePayload` | src/modules/woocommerce/woocommerce.service.ts:96-123 | the update body has no SKU or dimensions. It carries the unit price, the floored stock and the stock status, is managed, `simple` and `publish`. It has the e-commerce name falling back to the description, the long and short descriptions (empty when missing), the `fixed` rules type and the wholesale price rules of the price row |
| `WooPayload.CreateAndUpdateAgree` | src/modules/woocommerce/woocommerce.service.ts:96-105 | creation and update send the same body apart from the SKU and the dimensions |
| `WooPayload.StockFields` | src/modules/woocommerce/woocommerce.service.ts:51-52 | a non-negative stock gives a non-negative quantity; a product is advertised `instock` with quantity 0 exactly when its stock is strictly between 0 and 1 |
| `WooPayload.HalfUnitInStockWithNone` | src/modules/woocommerce/woocommerce.service.ts:51-52 | illustration: a stock of 0.5 is sent as quantity 0 and `instock` |
| `WooCustomers.Profile` | src/modules/woocommerce/woocommerce.service.ts:300-311 | a new report entry carries the order's billing e-mail and starts at one order |
| `WooCustomers.CustomersSummarise` | src/modules/woocommerce/woocommerce.service.ts:293-317 | the entries built from a list of orders are one per e-mail of a qualifying order, in first-appearance order. Each has the profile of its e-mail's first qualifying order and counts that e-mail's qualifying orders |
| `WooCustomers.AddOrderStep` | src/modules/woocommerce/woocommerce.service.ts:297-316 | one more order keeps the report a faithful summary of the orders read |
| `WooCustomers.AddSkipped` | src/modules/woocommerce/woocommerce.service.ts:297-298 | an order that does not qualify leaves the entries a summary of the longer list |
| `WooCustomers.AddNew` | src/modules/woocommerce/woocommerce.service.ts:300-311 | a qualifying order with an e-mail not yet seen appends an entry, and the entries then summarise the longer list |
| `WooCustomers.AddRepeat` | src/modules/woocommerce/woocommerce.service.ts:312-315 | a qualifying order with a known e-mail adds one to that entry's count, and the entries then summarise the longer list |
| `WooCustomers.ScanFrom` | src/modules/woocommerce/woocommerce.service.ts:282-326 | a failed page request rejects with the error of the first page whose request failed, and the scan went on after every page before it. Otherwise the scan requests consecutive pages, reads all their orders, and goes on after a page exactly while all three hold: that page had orders, fewer customers than `page*perPage` are known, and the header does not say it was the last page |
| `WooCustomers.PageCount` | src/modules/woocommerce/woocommerce.service.ts:332 | the page count is the ceiling of records over page size |
| `WooCustomers.GetAllCustomersFromOrders` | src/modules/woocommerce/woocommerce.service.ts:277-349 | rejects if and only if the scan does. Otherwise the data is the requested window of the entries built from every order read, at most `perPage` of them. The pagination echoes the page and page size asked for, counts every entry, gives the ceiling of entries over page size as the page count, and sets the next/previous flags from it |
| `WooCustomers.EarlyStopFillsWindow` | src/modules/woocommerce/woocommerce.service.ts:320 | when the scan has found enough customers for the requested page, that page is full |
| `WooCustomers.UnregisteredOrderIgnored` | src/modules/woocommerce/woocommerce.service.ts:297-298 | an order without a billing e-mail or without a positive customer id changes nothing |
| `WooCustomers.RepeatOrderCounts` | src/modules/woocommerce/woocommerce.service.ts:312-315 | a further order with a known e-mail adds no entry and adds one to that e-mail's order count |
| `Catalog.LastWins` | src/modules/sync/sync.service.ts:98-106 | a map filled in list order holds exactly the keys of the list, each with the last element carrying it |
| `Catalog.StockMap` | src/modules/sync/sync.service.ts:114-118 | the stock map holds exactly the codes with stock rows, each with the sum of its rows' quantities (an absent quantity counting 0) |
| `Catalog.StockRowsAreSummed` | src/modules/sync/sync.service.ts:114-118 | illustration: rows of 5 and 3 units for one code give 8 |
| `Catalog.PriceMap` | src/modules/sync/sync.service.ts:113 | the price map holds exactly the codes with price rows, each with its last row |
| `Catalog.LaterPriceWins` | src/modules/sync/sync.service.ts:113 | illustration: of two price rows for one code the later is used |
| `SyncCommon.WriteOne` | src/modules/sync/sync.service.ts:214-226 | a retried write is sent 1 to 3 times. Every attempt but the last was refused; the result is a success exactly when the last attempt was accepted; the log gains one copy of the write per attempt |
| `SyncCommon.DeleteOne` | src/modules/sync/sync.service.ts:234-240 | a withdrawal is sent exactly once and never retried, because `deleteProduct` swallows its failure |
| `SyncCommon.DeleteBatch` | src/modules/sync/sync.service.ts:233-242 | the delete batch sends one delete per product, in list order, each tried once |
| `SyncCommon.HandlerNeverRejects` | src/modules/sync/sync.service.ts:173-180 | since each item's `retry` failure is caught, `processBatch` hands every item to the handler, once, in order, and fulfils |
| `SyncCommon.PhasedLog` | src/modules/sync/sync.service.ts:136-148 | batches awaited one after another leave creations, then updates, then deletions in the call log |
| `SyncCommon.UpdateConverges` | src/modules/sync/sync.service.ts:193-207 | with the floored comparison, applying an update body leaves nothing to update. It changes the product if and only if a change was detected |
| `SyncSrc.ErpKeyIsTrimmed` | src/modules/sync/sync.service.ts:162 | the trimmed ERP code is the code itself |
| `SyncSrc.WcMap` | src/modules/sync/sync.service.ts:95-106 | the storefront map holds exactly the trimmed SKUs of the products that have a SKU |
| `SyncSrc.PlanSync` | src/modules/sync/sync.service.ts:121-129 | products to create have no storefront SKU and products to update have one. Products to withdraw have a SKU that is no ERP code |
| `SyncSrc.PlanPartitions` | src/modules/sync/sync.service.ts:121-126 | every ERP product lands in exactly one of the create and update lists |
| `SyncSrc.PlanKeepsOrder` | src/modules/sync/sync.service.ts:121-129 | the three lists keep the order of the lists they are drawn from |
| `SyncSrc.PlanMembership` | src/modules/sync/sync.service.ts:121-126 | an ERP product is created if and only if its code is no storefront SKU, and updated if and only if it is one |
| `SyncSrc.DeleteMembership` | src/modules/sync/sync.service.ts:127-129 | a storefront product is withdrawn if and only if it has a SKU that, trimmed, is no ERP code |
| `SyncSrc.CreateOne` | src/modules/sync/sync.service.ts:173-180 | with a price row, creation is a retried create call. Without one, every attempt throws before any request: three attempts, waits of 1 and 2 s, nothing sent |
| `SyncSrc.MissingPriceNeverPosts` | src/modules/woocommerce/woocommerce.service.ts:49 | a product without a price row never reaches the storefront |
| `SyncSrc.CreateItem` | src/modules/sync/sync.service.ts:161-181 | an item runs if and only if its code is neither a storefront SKU nor already seen. A run adds the code to `seenSkus`, is tried 1 to 3 times, and adds only create calls |
| `SyncSrc.CreateBatch` | src/modules/sync/sync.service.ts:154-182 | one record per item, and only create calls added to the log |
| `SyncSrc.CreateBatchDecides` | src/modules/sync/sync.service.ts:160-164 | item `i` runs if and only if its code is no storefront SKU and no earlier item's code. `seenSkus` ends as the codes that are no storefront SKU |
| `SyncSrc.CreatesEachKeyOnce` | src/modules/sync/sync.service.ts:163-164 | two items that both ran have different codes: a code is created at most once per pass |
| `SyncSrc.UpdateItem` | src/modules/sync/sync.service.ts:190-230 | an item is updated if and only if its code has a storefront product and a price row, and the floored stock or the price differs. The update is retried 1 to 3 times and the log gains exactly those update calls |
| `SyncSrc.UpdateBatch` | src/modules/sync/sync.service.ts:184-231 | one record per item, and only update calls added to the log |
| `SyncSrc.UpdateBatchDecides` | src/modules/sync/sync.service.ts:196-209 | item `i` of the update batch ran if and only if it needed an update |
| `SyncSrc.SyncProducts` | src/modules/sync/sync.service.ts:76-152 | the pass handles every planned item once. The log holds its creations, then its updates, then one delete per withdrawn product, each sent once |
| `SyncDist.ErpKeyIsNormalized` | dist/modules/sync/sync.service.js:117 | the normalised ERP code, and the trimmed one the update batch uses, are both the code itself |
| `SyncDist.WcMap` | dist/modules/sync/sync.service.js:70-78 | the storefront map holds exactly the normalised SKUs of the products that have a SKU |
| `SyncDist.PlanSync` | dist/modules/sync/sync.service.js:89-101 | products to create have no normalised storefront SKU and products to update have one. Products to withdraw have a SKU whose normalised form is no ERP code |
| `SyncDist.PlanMembership` | dist/modules/sync/sync.service.js:89-101 | create, update and withdraw membership, each as an if-and-only-if |
| `SyncDist.PlanPartitions` | dist/modules/sync/sync.service.js:89-99 | every ERP product lands in exactly one of the create and update lists |
| `SyncDist.Resolve` | dist/modules/sync/sync.service.js:137-143 | after a conflict a cached product is used without a request. Otherwise a lookup by `unique_sku` is made only when that field is non-empty; the product found is the first one the lookup lists; it is cached under the SKU, and nothing else in the cache changes |
| `SyncDist.CreateAttempt` | dist/modules/sync/sync.service.js:127-156 | one attempt posts the creation first. Acceptance ends it; a non-conflict refusal is rethrown to `retry`; no delete is ever sent. On a conflict: a cached product, or else the first product a `unique_sku` lookup lists, receives the update body, and the update decides the outcome. With no `unique_sku`, a failed lookup or an empty one, the SKU is added to `failedSkus` and the attempt succeeds |
| `SyncDist.ConflictRedirects` | dist/modules/sync/sync.service.js:133-152 | a conflict with the product cached sends the update body to it, and the attempt succeeds exactly when that update does. Otherwise, with a `unique_sku`, the lookup follows the creation; if it lists a product, the first one is cached and updated, and the update decides the outcome. With no `unique_sku` or no product found, the SKU is marked failed and the attempt succeeds |
| `SyncDist.CreateRun` | dist/modules/sync/sync.service.js:127-157 | `retry` over the handler's attempts: 1 to 3 attempts, every one before the last refused, and the run returns exactly when its last attempt does. It rethrows the third refusal, and waits 1000 ms then 2000 ms between attempts. The first call sent is the creation. After that only the creation again, lookups and updates carrying the update body are sent, and no delete. The cache and `failedSkus` gain at most the item's SKU |
| `SyncDist.FailedSkuEndsRun` | dist/modules/sync/sync.service.js:127-149 | an attempt that adds the SKU to `failedSkus` returns, so the run ends there and the SKU is not retried |
| `SyncDist.UnresolvedConflictNotRetried` | dist/modules/sync/sync.service.js:133-149 | a first creation refused as a duplicate, with no cached product and no `unique_sku`, is the whole run: one attempt, returned, the SKU failed, only the creation sent |
| `SyncDist.RunItem` | dist/modules/sync/sync.service.js:120-127 | an item that runs is marked seen and recorded with its 1 to 3 attempts. Its first call is the item's creation, and it sends nothing but its creation, lookups and its update body |
| `SyncDist.CreateProduct` | dist/modules/sync/sync.service.js:121-151 | the creation posts `CreatePayload` with the stock `omniaStockMap.get(sku) ?? 0` and the price row: the item's SKU, the floored stock and the unit price. A redirected update carries `UpdatePayload` with that same stock and price |
| `SyncDist.CreateItem` | dist/modules/sync/sync.service.js:116-157 | an item runs if and only if its code is not a storefront SKU, not seen and not failed, and has a price row. A priced or unpriced new code is marked seen |
| `SyncDist.CreateBatch` | dist/modules/sync/sync.service.js:113-159 | one record per item; the batch sends no delete |
| `SyncDist.CreateBatchDecides` | dist/modules/sync/sync.service.js:118-126 | item `i` runs if and only if its code is no storefront SKU, no earlier item's code, and has a price row. `seenSkus` ends as the non-storefront codes, `failedSkus` stays inside it, and the map still holds every storefront product |
| `SyncDist.FailedAreSeen` | dist/modules/sync/sync.service.js:118-147 | every failed SKU was seen first |
| `SyncDist.FractionalStockNeverSettles` | dist/modules/sync/sync.service.js:164-170 | as written, a fractional ERP stock is found changed both before and after the update is applied |
| `SyncDist.HalfUnitStockUpdatesForever` | dist/modules/sync/sync.service.js:164-170 | illustration: a stock of 2.5 is stored as 2 and found changed again on the next pass |
| `SyncDist.UpdateConvergesCorrected` | dist/modules/sync/sync.service.js:164-177 | with the floored comparison, applying the dist update body leaves nothing to update. It changes the product if and only if a change was detected |
| `SyncDist.UpdateItem` | dist/modules/sync/sync.service.js:161-181 | an item is updated if and only if it has a product in the map and a price row, and the floored stock or the price differs. The update is retried 1 to 3 times and the log gains exactly those update calls |
| `SyncDist.UpdateBatch` | dist/modules/sync/sync.service.js:160-183 | one record per item, and only update calls added |
| `SyncDist.UpdateBatchDecides` | dist/modules/sync/sync.service.js:166-175 | item `i` of the update batch ran if and only if it needed an update, where "needed" is the corrected, floored stock test (see Left out) |
| `SyncDist.SyncProducts` | dist/modules/sync/sync.service.js:58-108 | the pass handles every planned item once. The create batch sends no delete and the update batch only updates; one delete per withdrawn product comes last, each sent once |
| `SyncDist.UpdateSeesStorefrontMap` | dist/modules/sync/sync.service.js:103-104 | the update batch reads the map the create batch may have filled in, yet decides every planned update as if it read the storefront's own map |
| `Webhook.Document` | src/modules/sync/sync.service.ts:247-250 | the tax document is the CPF for a natural person (`persontype` `F`), the CNPJ otherwise |
| `Webhook.FullName` | src/modules/sync/sync.service.ts:252 | the customer name is the first name, one space, the last name |
| `Webhook.Cep` | src/modules/sync/sync.service.ts:262 | a postcode without a dash is unchanged; with one, exactly one character goes |
| `Webhook.DashedPostcode` | src/modules/sync/sync.service.ts:262 | in `a-b` the first dash is the one removed, giving `ab` |
| `Webhook.FormatClient` | src/modules/sync/sync.service.ts:244-268 | fails if and only if the order has no billing data. The record carries the document, the name, the postcode without dash, the trade name or `''`, both telephones as the digits of `phone`, branch `4` and `ISENTO` |
| `Webhook.PhoneDigits` | src/modules/sync/sync.service.ts:263-264 | the telephone fields hold exactly the digits of the numbers they come from |
| `Webhook.Items` | src/modules/sync/sync.service.ts:302-311 | one ERP line per order line, in order. `codprod` is `Number` of the SKU (`NaN` for text that is no number); name, quantity and totals are copied; nothing is a gift |
| `Webhook.ItemCodesReadBack` | src/modules/sync/sync.service.ts:304 | a line whose SKU is the decimal code the storefront product was created with (src/modules/woocommerce/woocommerce.service.ts:48) carries exactly that code back to the ERP |
| `Webhook.FormatOrder` | src/modules/sync/sync.service.ts:270-326 | fails if and only if the order has no billing data. The record carries `PED-` plus the order number, one line per order line, the digits of the cell phone, the city code given, one payment with the raw method name, the order's total and shipping, and the billing CNPJ whatever the person type |
| `Webhook.OrderNumberRoundTrip` | src/modules/sync/sync.service.ts:277 | the order number can be read back from `numpedweb` |
| `Webhook.ClientAndOrderAgree` | src/modules/sync/sync.service.ts:252-264 | the customer and order records agree on name, trade name, e-mail, address, postcode and telephone |
| `Webhook.ProcessNewOrder` | src/modules/sync/sync.service.ts:27-74 | checks run in order: missing body (400), missing signature (400), wrong signature (401). The request succeeds if and only if the signature matches, the body parses to an order with billing data, and the ERP's client lookup for the customer's non-empty document succeeds; a failed lookup rejects with the lookup's message. The client record gets no city code; the order record gets the code looked up by dash-less postcode; the "new client" warning is raised exactly when the ERP has no client under the document |
| `Webhook.ClientLookup` | src/modules/omnia/omnia.service.ts:80-106 | an empty document throws `CPF/CNPJ não informado` before any request. Otherwise the lookup succeeds exactly when the request does, with its answer, and a failed request rethrows its message prefixed with `Falha ao buscar cliente: ` |
| `Webhook.EmptyDocumentRejected` | src/modules/sync/sync.service.ts:60-64 | a correctly signed order whose document is empty is rejected with the lookup's `CPF/CNPJ não informado`, whatever the ERP would answer |
| `Webhook.SignatureCheckedBeforeParsing` | src/modules/sync/sync.service.ts:45-50 | with a wrong signature the same 401 comes back whatever the body would parse to |

## Left out

- **Network calls.** HTTP, the ERP's login and bearer token, and timers are not modelled. Remote
  answers enter as parameters (scripted per page, attempt or call log). The waits `retry` and
  the page fetch make are recorded, not slept.
- **Concurrency.** `Promise.all` chunks and page waves run their items one after another in list
  order. When a chunk holds two rejections, which one `Promise.all` reports depends on timing.
  The model reports the first by position (`BatchRunner.FirstError`).
- **Loaders.** `getProducts`, `getStock`, `getPrices` and the four-way `Promise.all` that starts
  a pass are not modelled. The pass takes their results as inputs.
- **Outside code.** Three things are parameters, not modelled:
  - the HMAC-SHA256 signature and `JSON.parse` (the body's bytes enter as they are)
  - `getIbgeCodeByCep` (the ViaCEP request)
  - the request inside `getClientByCpfOrCnpj` (token fetch and GET). The ERP's answer enters
    as the number of clients under the document, or the failed request's message; the client
    rows themselves are not modelled.
- **Floating point.** The product weight, `vlprodutos` (a sum of line totals), `total_spent` in
  the customer report, and the exact `toFixed(2)` text are not modelled. Prices are integer
  cents.
- **Logging.** Logging, `formatAxiosError`, the NestJS modules, the controllers and the hourly
  cron trigger are not modelled.
- **ERP codes.** `codprod` is a natural number, so `String(codprod)` never holds white space or
  special characters. ERP codes that are strings of another shape are not modelled.
- **Stock quantity.** `Number(stock_quantity)` is modelled as an integer field. A storefront
  product whose stock is `null` reads as 0 in JavaScript, and its integer here stands for that.
- **`JsNumber.ToNumber`.** It reads the exact decimal value of the text. Rounding to the
  nearest binary64 double is not modelled, so text beyond double range or precision (`"1e400"`,
  20 significant digits) keeps its exact value instead of becoming `Infinity` or a rounded
  value. Negative zero is not told apart from zero. `JsNumber.NumberString` prints that exact
  value; for a double this is `Number::toString` whenever the value has at most 15 significant
  digits and lies inside the range of normal doubles.
- **Dimension fields.** The ERP product's type is not part of the source. The three dimension
  fields are modelled by the value `Number` gives them, as an exact decimal. A field that
  `Number` reads as `NaN` is not represented; it compares false with 0 and is left out, like a
  non-positive value.
- **`OmniaFetch.FetchAllPagesConcurrent`.** It requires `concurrency >= 1`. With 0 or a negative
  value, `i += concurrency` (src/modules/omnia/omnia.service.ts:150) never ends the wave loop.
- **Page size.** `WooCustomers.GetAllCustomersFromOrders` requires `perPage >= 1`. With 0 the
  page count is a division by zero in JavaScript.
- **Order listing past the last page.** `WooCustomers.ScanFrom` treats pages past the scripted
  responses as empty. A storefront that never returns an empty page with a `NaN` page header
  would keep the real loop going forever.
- **Storefront SKU lookup.** `WooCatalog.GetProductBySku` takes the request's outcome as given.
  Its `status` filter is the storefront's business.
- SyncDist.UpdateItem: decides with the floored stock comparison, which is the corrected
  behaviour; dist/modules/sync/sync.service.js:166 compares the unfloored stock. The code as written
  is kept separately as `SyncDist.NeedsUpdateAsWritten` (see Findings).
- SyncDist.UpdateBatch: built on the corrected `SyncDist.UpdateItem`, so it uses the floored
  comparison too.
- SyncDist.UpdateBatchDecides: "needed an update" is the corrected, floored test
  (`WantsUpdate`), not the unfloored one dist makes.
- **`SyncDist.SyncProducts`.** It states no phase order between creations and updates, because
  the dist create batch may itself send updates.
- **Choices the code makes.** The model keeps these behaviours of the code as written:
  - the storefront SKU map keeps the last product with a key (`Map.set`), not the first
  - `normalizeSku` keeps `_`
  - the update comparison never looks at the wholesale tier
  - the ERP page fetch makes `maxRetries + 1` attempts, not `maxRetries`

## Findings

| source | as written | input that shows it | evidently intended | confidence | as-written member | corrected member |
|---|---|---|---|---|---|---|
| dist/modules/sync/sync.service.js:164-170 | the update batch compares the storefront's stock with the ERP stock before flooring, but the update body stores the floored quantity | an ERP stock of 2.5 units: the update stores 2, and every later pass finds 2 ≠ 2.5 and updates again | compare with the floored stock, as the src revision does (`Math.floor` at src/modules/sync/sync.service.ts:193), so an applied update settles | medium, not executed | `SyncDist.FractionalStockNeverSettles` | `SyncDist.UpdateConvergesCorrected` |

=== FILE: batch.dfy ===
/** `processBatch` (src/shared/utils/proccessBatch.utils.ts): the items in consecutive chunks of
    `concurrency`, each chunk awaited with `Promise.all` before the next one starts. */
module BatchRunner {
  import opened Outcomes
  import opened Seqs

  /** The chunks `items.slice(i, i + n)` for `i = start, start + n, ...` while `i < items.length`. */
  function ChunksFrom<T>(items: seq<T>, n: nat, start: nat): (r: seq<seq<T>>)
    requires n >= 1 && start <= |items|
    ensures Flatten(r) == items[start..]
    ensures forall k :: 0 <= k < |r| ==> 1 <= |r[k]| <= n
    ensures forall k :: 0 <= k < |r| - 1 ==> |r[k]| == n
    ensures |r| * n >= |items| - start > (|r| - 1) * n
    decreases |items| - start
  {
    if start >= |items| then []
    else
      var c := JsSlice(items, start, start + n);
      var next := if start + n < |items| then start + n else |items|;
      assert c == items[start..next];
      var rest := ChunksFrom(items, n, next);
      assert items[start..] == c + items[next..];
      Distributes(|rest|, n);
      [c] + rest
  }

  lemma Distributes(q: int, n: int)
    ensures (q + 1) * n == q * n + n && (q - 1) * n == q * n - n
  {
  }

  /** The chunks of `processBatch(items, fn, n)`; `n` must be at least 1, otherwise the index
      never advances and the loop does not end. */
  function Chunks<T>(items: seq<T>, n: nat): (r: seq<seq<T>>)
    requires n >= 1
    ensures Flatten(r) == items
    ensures forall k :: 0 <= k < |r| ==> 1 <= |r[k]| <= n
    ensures forall k :: 0 <= k < |r| - 1 ==> |r[k]| == n
    ensures |r| == (|items| + n - 1) / n
  {
    var r := ChunksFrom(items, n, 0);
    CeilDiv(|items|, n, |r|);
    r
  }

  /** `c` chunks of at most `n` that hold `len` items with the last one non-empty: `c == ceil(len / n)`. */
  lemma CeilDiv(len: nat, n: nat, c: nat)
    requires n >= 1 && c * n >= len > (c - 1) * n
    ensures c == (len + n - 1) / n
  {
    var q := (len + n - 1) / n;
    assert q * n <= len + n - 1 < (q + 1) * n;
    MulMonotone(c, q, n);
    MulMonotone(q, c, n);
  }

  lemma MulMonotone(a: int, b: int, n: nat)
    ensures a < b ==> a * n + n <= b * n
  {
    if a < b {
      var d := b - a;
      assert b * n == a * n + d * n;
      AtLeastOnce(d, n);
    }
  }

  lemma {:induction false} AtLeastOnce(d: int, n: nat)
    requires d >= 1
    ensures d * n >= n
    decreases d
  {
    if d > 1 {
      AtLeastOnce(d - 1, n);
      assert d * n == (d - 1) * n + n;
    }
  }

  /** `processBatch([1..25], fn, 10)` runs chunks of 10, 10 and 5. */
  lemma ChunkSizesExample(items: seq<int>)
    requires |items| == 25
    ensures |Chunks(items, 10)| == 3
    ensures |Chunks(items, 10)[0]| == 10 && |Chunks(items, 10)[1]| == 10 && |Chunks(items, 10)[2]| == 5
  {
    var r := Chunks(items, 10);
    assert |Flatten(r)| == 25;
    assert Flatten(r) == r[0] + Flatten(r[1..]);
    assert Flatten(r[1..]) == r[1] + Flatten(r[2..]);
    assert Flatten(r[2..]) == r[2] + Flatten(r[3..]);
    assert r[3..] == [];
  }

  /** Whether some item of `chunk` rejects. */
  predicate HasRejection<T, E>(chunk: seq<T>, fn: T -> Outcome<(), E>) {
    exists j :: 0 <= j < |chunk| && fn(chunk[j]).Err?
  }

  /** The error of the first item of `chunk`, by position, that rejects. */
  function FirstError<T, E>(chunk: seq<T>, fn: T -> Outcome<(), E>): (r: Option<E>)
    ensures r.None? <==> !HasRejection(chunk, fn)
    ensures r.Some? ==> exists j :: 0 <= j < |chunk| && fn(chunk[j]) == Err(r.value)
    decreases |chunk|
  {
    if |chunk| == 0 then None
    else match fn(chunk[0])
      case Err(e) => Some(e)
      case Ok(_) =>
        var r := FirstError(chunk[1..], fn);
        assert forall j :: 1 <= j < |chunk| ==> chunk[j] == chunk[1..][j - 1];
        r
  }

  /** The index of the first chunk holding a rejection (`|cs|` when none does). */
  function FirstRejecting<T, E>(cs: seq<seq<T>>, fn: T -> Outcome<(), E>): (k: nat)
    ensures k <= |cs|
    ensures forall i :: 0 <= i < k ==> !HasRejection(cs[i], fn)
    ensures k < |cs| ==> HasRejection(cs[k], fn)
    decreases |cs|
  {
    if |cs| == 0 then 0
    else if HasRejection(cs[0], fn) then 0
    else 1 + FirstRejecting(cs[1..], fn)
  }

  /** What a run did: the items passed to `fn`, in order, and how `processBatch` settled. */
  datatype BatchRun<T, E> = BatchRun(invoked: seq<T>, result: Outcome<(), E>)

  /** The loop over the chunks: a chunk with a rejection ends the run (the awaited `Promise.all`
      rejects), after every item of that chunk has been started. */
  function RunChunks<T, E>(cs: seq<seq<T>>, fn: T -> Outcome<(), E>): (r: BatchRun<T, E>)
    ensures var k := FirstRejecting(cs, fn);
      && r.invoked == Flatten(cs[..if k < |cs| then k + 1 else k])
      && (r.result.Err? <==> k < |cs|)
      && (k < |cs| ==> FirstError(cs[k], fn) == Some(r.result.error))
    decreases |cs|
  {
    if |cs| == 0 then BatchRun([], Ok(()))
    else match FirstError(cs[0], fn)
      case Some(e) =>
        assert cs[..1] == [cs[0]];
        BatchRun(cs[0], Err(e))
      case None =>
        var rest := RunChunks(cs[1..], fn);
        var k := FirstRejecting(cs[1..], fn);
        var m := if k < |cs| - 1 then k + 1 else k;
        assert cs[..m + 1] == [cs[0]] + cs[1..][..m];
        BatchRun(cs[0] + rest.invoked, rest.result)
  }

  /** `processBatch(items, fn, n)`. */
  function ProcessBatch<T, E>(items: seq<T>, fn: T -> Outcome<(), E>, n: nat): (r: BatchRun<T, E>)
    requires n >= 1
    ensures r.result.Ok? <==> forall i :: 0 <= i < |items| ==> fn(items[i]).Ok?
    ensures r.result.Ok? ==> r.invoked == items
    ensures |r.invoked| <= |items| && r.invoked == items[..|r.invoked|]
  {
    var cs := Chunks(items, n);
    RunChunksOverItems(cs, fn);
    RunChunks(cs, fn)
  }

  /** The chunk-level account of `RunChunks` read back on the flattened items. */
  lemma RunChunksOverItems<T, E>(cs: seq<seq<T>>, fn: T -> Outcome<(), E>)
    ensures var r := RunChunks(cs, fn);
      && (r.result.Ok? <==> forall i :: 0 <= i < |Flatten(cs)| ==> fn(Flatten(cs)[i]).Ok?)
      && (r.result.Ok? ==> r.invoked == Flatten(cs))
      && |r.invoked| <= |Flatten(cs)| && r.invoked == Flatten(cs)[..|r.invoked|]
  {
    var k := FirstRejecting(cs, fn);
    var m := if k < |cs| then k + 1 else k;
    assert cs == cs[..m] + cs[m..];
    FlattenConcat(cs[..m], cs[m..]);
    if k < |cs| {
      var j :| 0 <= j < |cs[k]| && fn(cs[k][j]).Err?;
      RejectionIsAnItem(cs, k, j);
    } else {
      NoRejectionNoItem(cs, fn);
    }
  }

  /** An item of chunk `k` is an item of the flattened chunks. */
  lemma {:induction false} RejectionIsAnItem<T>(cs: seq<seq<T>>, k: nat, j: nat)
    requires k < |cs| && j < |cs[k]|
    ensures exists i :: 0 <= i < |Flatten(cs)| && Flatten(cs)[i] == cs[k][j]
    decreases k
  {
    if k == 0 {
      assert Flatten(cs)[j] == cs[0][j];
    } else {
      RejectionIsAnItem(cs[1..], k - 1, j);
      var i :| 0 <= i < |Flatten(cs[1..])| && Flatten(cs[1..])[i] == cs[k][j];
      assert Flatten(cs)[|cs[0]| + i] == cs[k][j];
    }
  }

  /** Without a rejecting chunk, every item of the flattened chunks is fulfilled. */
  lemma {:induction false} NoRejectionNoItem<T, E>(cs: seq<seq<T>>, fn: T -> Outcome<(), E>)
    requires forall k :: 0 <= k < |cs| ==> !HasRejection(cs[k], fn)
    ensures forall i :: 0 <= i < |Flatten(cs)| ==> fn(Flatten(cs)[i]).Ok?
    decreases |cs|
  {
    if |cs| > 0 {
      NoRejectionNoItem(cs[1..], fn);
      forall i | 0 <= i < |Flatten(cs)| ensures fn(Flatten(cs)[i]).Ok? {
        if i < |cs[0]| {
          assert Flatten(cs)[i] == cs[0][i];
        } else {
          assert Flatten(cs)[i] == Flatten(cs[1..])[i - |cs[0]|];
        }
      }
    }
  }

  /** An empty input completes at once without calling `fn`. */
  lemma EmptyInputDoesNothing<T, E>(fn: T -> Outcome<(), E>, n: nat)
    requires n >= 1
    ensures ProcessBatch([], fn, n) == BatchRun([], Ok(()))
  {
  }
}

=== FILE: catalog.dfy ===
/** The catalogue entities both sides exchange, and the lookup maps a sync pass builds from them
    (src/modules/sync/sync.service.ts and its compiled revision). Prices are integer cents;
    stock quantities are exact rationals so that `Math.floor` is visible. */
module Catalog {
  import opened Outcomes
  import opened Seqs
  import opened JsString
  import opened JsNumber

  /** An ERP product row. `codprod` is the numeric product code. Each dimension is the value
      `Number(...)` gives the field, as an exact decimal; a missing dimension is 0. */
  datatype ErpProduct = ErpProduct(
    codprod: nat,
    nomeecommerce: Option<string>,
    descricao: Option<string>,
    descricaolonga: Option<string>,
    descricaocurta: Option<string>,
    comprimentoCm: Numeral,
    larguraCm: Numeral,
    alturaCm: Numeral)

  /** An ERP stock row; a product may have several (one per warehouse). */
  datatype StockRow = StockRow(codprod: nat, estoque: Option<real>)

  /** An ERP price row: the unit price and the wholesale tier, the minimum quantity (an exact
      decimal, which may be fractional) and its unit price. Prices are in cents. */
  datatype PriceRow = PriceRow(codprod: nat, pvenda: int, qtminimaatacado: Numeral, pvendaatacado: int)

  /** A storefront product: its id, its SKU (possibly missing), `Number(stock_quantity)` and its
      regular price in cents. */
  datatype WcProduct = WcProduct(id: int, sku: Option<string>, stockQuantity: int, regularPrice: int)

  /** `String(p.codprod)`: the ERP side's key for every lookup map. */
  function CodeKey(codprod: nat): string {
    Decimal(codprod)
  }

  /** `!p.sku` is false: the storefront product has a non-empty SKU. */
  predicate HasSku(p: WcProduct) {
    Truthy(p.sku)
  }

  /** The keys of `xs`, element by element. */
  function KeysOf<K, T>(xs: seq<T>, key: T -> K): (r: seq<K>)
    ensures |r| == |xs| && forall i :: 0 <= i < |xs| ==> r[i] == key(xs[i])
  {
    seq(|xs|, i requires 0 <= i < |xs| => key(xs[i]))
  }

  lemma KeysOfAppend<K, T>(xs: seq<T>, x: T, key: T -> K)
    ensures KeysOf(xs + [x], key) == KeysOf(xs, key) + [key(x)]
  {
  }

  /** A `Map` filled with `set(key(x), x)` for each `x` in order: each key ends up holding the
      last element that has it. */
  function LastWins<K(!new), T>(xs: seq<T>, key: T -> K): (m: map<K, T>)
    ensures forall k :: k in m <==> k in KeysOf(xs, key)
    ensures forall i :: 0 <= i < |xs| && (forall j :: i < j < |xs| ==> key(xs[j]) != key(xs[i])) ==>
      m[key(xs[i])] == xs[i]
    decreases |xs|
  {
    if |xs| == 0 then map[]
    else
      var n := |xs| - 1;
      var m := LastWins(xs[..n], key);
      assert xs == xs[..n] + [xs[n]];
      KeysOfAppend(xs[..n], xs[n], key);
      var r := m[key(xs[n]) := xs[n]];
      forall i | 0 <= i < n && (forall j :: i < j < |xs| ==> key(xs[j]) != key(xs[i]))
        ensures r[key(xs[i])] == xs[i]
      {
        assert xs[..n][i] == xs[i] && key(xs[n]) != key(xs[i]);
        assert forall j :: i < j < n ==> key(xs[..n][j]) != key(xs[..n][i]);
      }
      r
  }

  /** `Number(s.estoque ?? 0)`. */
  function Quantity(row: StockRow): real {
    row.estoque.GetOr(0.0)
  }

  /** Reference total: the quantities of every row with key `k`, added up. */
  function StockOf(rows: seq<StockRow>, k: string): real
    decreases |rows|
  {
    if |rows| == 0 then 0.0
    else (if CodeKey(rows[0].codprod) == k then Quantity(rows[0]) else 0.0) + StockOf(rows[1..], k)
  }

  lemma {:induction false} StockOfAppend(rows: seq<StockRow>, x: StockRow, k: string)
    ensures StockOf(rows + [x], k) == StockOf(rows, k) + (if CodeKey(x.codprod) == k then Quantity(x) else 0.0)
    decreases |rows|
  {
    if |rows| > 0 {
      assert (rows + [x])[1..] == rows[1..] + [x];
      StockOfAppend(rows[1..], x, k);
    } else {
      assert rows + [x] == [x];
    }
  }

  /** The stock map: `current + Number(s.estoque ?? 0)` per row, so rows of one code are summed. */
  function StockMap(rows: seq<StockRow>): (m: map<string, real>)
    ensures forall k :: k in m <==> k in KeysOf(rows, StockKey)
    ensures forall k :: k in m ==> m[k] == StockOf(rows, k)
    decreases |rows|
  {
    if |rows| == 0 then map[]
    else
      var n := |rows| - 1;
      var m := StockMap(rows[..n]);
      assert rows == rows[..n] + [rows[n]];
      StockMapStep(rows[..n], rows[n], m);
      AddStock(m, rows[n])
  }

  /** `stockMap.set(key, current + quantity)` for one row. */
  function AddStock(m: map<string, real>, x: StockRow): map<string, real> {
    var k := StockKey(x);
    m[k := (if k in m then m[k] else 0.0) + Quantity(x)]
  }

  function StockKey(row: StockRow): string {
    CodeKey(row.codprod)
  }

  /** One more row adds its quantity to its own code and to no other. */
  lemma StockMapStep(rows: seq<StockRow>, x: StockRow, m: map<string, real>)
    requires forall k :: k in m <==> k in KeysOf(rows, StockKey)
    requires forall k :: k in m ==> m[k] == StockOf(rows, k)
    ensures forall k :: k in AddStock(m, x) <==> k in KeysOf(rows + [x], StockKey)
    ensures forall k :: k in AddStock(m, x) ==> AddStock(m, x)[k] == StockOf(rows + [x], k)
  {
    var k := StockKey(x);
    KeysOfAppend(rows, x, StockKey);
    forall k' ensures StockOf(rows + [x], k') == StockOf(rows, k') + (if k == k' then Quantity(x) else 0.0) {
      StockOfAppend(rows, x, k');
    }
    if k !in m {
      StockOfAbsent(rows, k);
    }
  }

  /** A code with no row has no stock. */
  lemma {:induction false} StockOfAbsent(rows: seq<StockRow>, k: string)
    requires k !in KeysOf(rows, StockKey)
    ensures StockOf(rows, k) == 0.0
    decreases |rows|
  {
    if |rows| > 0 {
      assert KeysOf(rows, StockKey) == [StockKey(rows[0])] + KeysOf(rows[1..], StockKey);
      StockOfAbsent(rows[1..], k);
    }
  }

  function PriceKey(row: PriceRow): string {
    CodeKey(row.codprod)
  }

  /** The price map: one entry per code, the last row of that code winning. */
  function PriceMap(rows: seq<PriceRow>): (m: map<string, PriceRow>)
    ensures forall k :: k in m <==> k in KeysOf(rows, PriceKey)
    ensures forall i :: 0 <= i < |rows| && (forall j :: i < j < |rows| ==> rows[j].codprod != rows[i].codprod) ==>
      m[CodeKey(rows[i].codprod)] == rows[i]
  {
    var m := LastWins(rows, PriceKey);
    assert forall i, j :: 0 <= i < |rows| && 0 <= j < |rows| && rows[j].codprod != rows[i].codprod ==>
      PriceKey(rows[j]) != PriceKey(rows[i]) by {
      forall i, j | 0 <= i < |rows| && 0 <= j < |rows| && rows[j].codprod != rows[i].codprod
        ensures PriceKey(rows[j]) != PriceKey(rows[i]) {
        DecimalRoundTrip(rows[i].codprod);
        DecimalRoundTrip(rows[j].codprod);
      }
    }
    m
  }

  /** Two stock rows of one code add up: `{A: 5}` and `{A: 3}` give 8 for `A`. */
  lemma StockRowsAreSummed(a: nat)
    ensures StockMap([StockRow(a, Some(5.0)), StockRow(a, Some(3.0))])[CodeKey(a)] == 8.0
  {
    var rows := [StockRow(a, Some(5.0)), StockRow(a, Some(3.0))];
    assert rows[1..][1..] == [];
    assert StockOf(rows[1..], CodeKey(a)) == 3.0;
    assert StockOf(rows, CodeKey(a)) == 8.0;
    assert CodeKey(a) in KeysOf(rows, StockKey);
  }

  /** Of two price rows for one code, the later one is used. */
  lemma LaterPriceWins(b: nat, p1: int, p2: int)
    ensures PriceMap([PriceRow(b, p1, Numeral(0, 0), 0), PriceRow(b, p2, Numeral(0, 0), 0)])[CodeKey(b)].pvenda == p2
  {
  }
}

=== FILE: jsnumber.dfy ===
/** JavaScript's conversions between text and numbers as the source uses them: `Number(text)`
    (StringToNumber, section 7.1.4.1.1 of ECMA-262) and `String(n)` (Number::toString, section
    6.1.6.1.20 of ECMA-262). Values are exact: rounding to binary64 is not modelled. */
module JsNumber {
  import opened Outcomes
  import opened JsString

  /** A JavaScript number other than NaN (where NaN can arise the result is `None`).
      `Finite(m, e)` is `m × 10^e` in lowest terms, as `Exact` builds it: `m` has no trailing
      zero digit, and zero is `Finite(0, 0)`. So two finite numbers are equal exactly when their
      values are. Negative zero is not told apart from zero. */
  datatype Number = Finite(mantissa: int, exponent: int) | Infinite(negative: bool)

  /** A terminating decimal `mantissa / 10^scale`: a measure as a record writes it. */
  datatype Numeral = Numeral(mantissa: int, scale: nat)

  function Abs(m: int): nat {
    if m < 0 then -m else m
  }

  /** `m × 10^e` in lowest terms. */
  function Exact(m: int, e: int): (r: Number)
    ensures r.Finite?
    ensures m == 0 <==> r == Finite(0, 0)
    ensures m != 0 ==> r.mantissa % 10 != 0
    ensures m > 0 <==> r.mantissa > 0
    ensures m < 0 <==> r.mantissa < 0
    decreases Abs(m)
  {
    if m == 0 then Finite(0, 0) else if m % 10 == 0 then Exact(m / 10, e + 1) else Finite(m, e)
  }

  /** The number a numeral denotes. */
  function NumeralNumber(x: Numeral): Number {
    Exact(x.mantissa, -(x.scale as int))
  }

  function Pow10(n: nat): (r: nat)
    ensures r >= 1
  {
    if n == 0 then 1 else 10 * Pow10(n - 1)
  }

  predicate AllDigits(s: string) {
    forall i :: 0 <= i < |s| ==> IsDigit(s[i])
  }

  /** `n` zero digits. */
  function Zeros(n: nat): (r: string)
    ensures |r| == n && AllDigits(r)
    ensures forall i :: 0 <= i < n ==> r[i] == '0'
  {
    seq(n, i => '0')
  }

  /** The position of the first character of `s` that is in `cs`, or `|s|` when there is none. */
  function FirstIn(s: string, cs: set<char>): (i: nat)
    ensures i <= |s|
    ensures forall j :: 0 <= j < i ==> s[j] !in cs
    ensures i < |s| ==> s[i] in cs
    decreases |s|
  {
    if |s| == 0 || s[0] in cs then 0 else 1 + FirstIn(s[1..], cs)
  }

  /** The value of `c` as a hexadecimal digit, or 16 when it is not one. */
  function HexDigitValue(c: char): (d: nat)
    ensures d <= 16
  {
    if '0' <= c <= '9' then c as int - '0' as int
    else if 'a' <= c <= 'f' then c as int - 'a' as int + 10
    else if 'A' <= c <= 'F' then c as int - 'A' as int + 10
    else 16
  }

  predicate AllRadixDigits(s: string, base: nat) {
    forall i :: 0 <= i < |s| ==> HexDigitValue(s[i]) < base
  }

  /** The value of a string of digits of the given base. */
  function RadixValue(s: string, base: nat): nat
    requires AllRadixDigits(s, base)
    decreases |s|
  {
    if |s| == 0 then 0 else RadixValue(s[..|s| - 1], base) * base + HexDigitValue(s[|s| - 1])
  }

  /** The base a `0x`, `0o` or `0b` prefix introduces, from its letter; 0 for any other letter. */
  function RadixOf(c: char): nat {
    if c == 'x' || c == 'X' then 16 else if c == 'o' || c == 'O' then 8 else if c == 'b' || c == 'B' then 2 else 0
  }

  /** SignedInteger of an ExponentPart: an optional sign, then at least one decimal digit. */
  function SignedInteger(s: string): (r: Option<int>)
    ensures r.Some? ==> |s| > 0
  {
    if |s| > 0 && (s[0] == '+' || s[0] == '-') then
      var d := s[1..];
      var v: int := if |d| > 0 && AllDigits(d) then DigitsValue(d) else 0;
      if |d| > 0 && AllDigits(d) then Some(if s[0] == '-' then -v else v) else None
    else if |s| > 0 && AllDigits(s) then Some(DigitsValue(s))
    else None
  }

  /** The digits of `a.f` (or of `a`) read together, with the length of `f`: `None` unless the
      text is decimal digits with at most one point and at least one digit. */
  function ReadMantissa(m: string): (r: Option<(nat, nat)>)
  {
    var j := FirstIn(m, {'.'});
    var whole := m[..j];
    var frac := if j < |m| then m[j + 1..] else "";
    if AllDigits(whole) && AllDigits(frac) && |whole| + |frac| > 0 then
      DigitsConcat(whole, frac);
      Some((DigitsValue(whole + frac), |frac|))
    else None
  }

  /** StrUnsignedDecimalLiteral: `Infinity`, or a mantissa and an optional exponent. The value of
      `a.f e x` is `af × 10^(x - |f|)`. */
  function UnsignedDecimal(u: string): (r: Option<Number>)
  {
    if u == "Infinity" then Some(Infinite(false))
    else
      var i := FirstIn(u, {'e', 'E'});
      var exp := if i < |u| then SignedInteger(u[i + 1..]) else Some(0);
      var mant := ReadMantissa(u[..i]);
      if exp.Some? && mant.Some? then Some(Exact(mant.value.0, exp.value - mant.value.1)) else None
  }

  function Negate(r: Option<Number>): Option<Number> {
    match r
    case None => None
    case Some(Finite(m, e)) => Some(Finite(-m, e))
    case Some(Infinite(neg)) => Some(Infinite(!neg))
  }

  /** `Number(s)`: StringToNumber on the text without its surrounding white space. */
  function ToNumber(s: string): (r: Option<Number>)
    ensures Trim(s) == "" ==> r == Some(Finite(0, 0))
  {
    NumericLiteral(Trim(s))
  }

  /** StringNumericLiteral on trimmed text: nothing reads as 0; `0x`, `0o` and `0b` introduce
      unsigned hexadecimal, octal and binary integers; otherwise an optionally signed decimal
      literal. Any other text is NaN, here `None`. */
  function NumericLiteral(t: string): (r: Option<Number>)
  {
    if t == "" then Some(Finite(0, 0))
    else if |t| >= 2 && t[0] == '0' && RadixOf(t[1]) > 0 then
      var base := RadixOf(t[1]);
      var d := t[2..];
      if |d| > 0 && AllRadixDigits(d, base) then Some(Exact(RadixValue(d, base), 0)) else None
    else if t[0] == '-' then Negate(UnsignedDecimal(t[1..]))
    else if t[0] == '+' then UnsignedDecimal(t[1..])
    else UnsignedDecimal(t)
  }

  /** The characters a number's text is made of. */
  predicate NumeralChar(c: char) {
    IsDigit(c) || c == '.' || c == 'e' || c == '+' || c == '-'
  }

  /** The mantissa part of the exponent form: one digit, or one digit, a point and the rest. */
  function ExponentMantissa(s: string): (r: string)
    requires |s| > 0
  {
    if |s| == 1 then s else s[..1] + "." + s[1..]
  }

  /** The exponent after `e`: its sign, always written, and its magnitude in decimal. */
  function ExponentText(x: int): (r: string)
    ensures |r| > 1 && (r[0] == '+' || r[0] == '-')
    ensures forall i :: 0 <= i < |r| ==> NumeralChar(r[i])
  {
    if x >= 0 then "+" + Decimal(x) else "-" + Decimal(-x)
  }

  /** The text of `d × 10^x` for positive `d`: its digits placed by `PlaceDigits`. */
  function DigitsText(d: nat, x: int): (r: string)
    requires d > 0
    ensures |r| > 0 && IsDigit(r[0])
    ensures forall i :: 0 <= i < |r| ==> NumeralChar(r[i])
  {
    PlaceDigits(Decimal(d), x)
  }

  /** The digits `s` of a number worth `s × 10^x`: with `k` digits and `n = k + x` the position of
      the decimal point, plain digits up to 21 integer places, a leading `0.` down to six zeros
      after the point, and the exponent form beyond. */
  function PlaceDigits(s: string, x: int): (r: string)
    requires |s| > 0 && AllDigits(s)
    ensures |r| > 0 && IsDigit(r[0])
    ensures forall i :: 0 <= i < |r| ==> NumeralChar(r[i])
  {
    var k := |s|;
    var n := k + x;
    if k <= n <= 21 then s + Zeros(n - k)
    else if 0 < n <= 21 then s[..n] + "." + s[n..]
    else if -6 < n <= 0 then "0." + Zeros(-n) + s
    else ExponentMantissa(s) + "e" + ExponentText(n - 1)
  }

  /** A number as `Exact` builds it: zero is `Finite(0, 0)` and no other mantissa ends in 0. */
  predicate Canonical(n: Number) {
    n.Finite? ==> (if n.mantissa == 0 then n.exponent == 0 else n.mantissa % 10 != 0)
  }

  /** Number::toString: `0`, the digits of a positive number, `-` and the digits of the magnitude
      of a negative one, or `Infinity` with its sign. */
  function NumberString(n: Number): (r: string)
    ensures |r| > 0
    ensures n.Finite? ==> forall i :: 0 <= i < |r| ==> NumeralChar(r[i])
    ensures n.Finite? && n.mantissa >= 0 ==> IsDigit(r[0])
    ensures n.Finite? && n.mantissa < 0 ==> r[0] == '-'
  {
    match n
    case Infinite(negative) => if negative then "-Infinity" else "Infinity"
    case Finite(m, e) => if m == 0 then "0" else if m > 0 then DigitsText(m, e) else "-" + DigitsText(-m, e)
  }

  /** `String(x)` for a numeral: the text of the number it denotes, so trailing zeros of its
      scale are not written. */
  function NumberText(x: Numeral): (r: string)
  {
    NumberString(NumeralNumber(x))
  }

  // Lowest terms.

  /** One more trailing zero in the digits is one more in the exponent. */
  lemma ExactShift(q: int, e: int)
    requires q != 0
    ensures Exact(q * 10, e) == Exact(q, e + 1)
  {
    assert (q * 10) % 10 == 0 && (q * 10) / 10 == q;
  }

  /** Digits without a trailing zero are already in lowest terms. */
  lemma ExactCanonical(m: int, e: int)
    requires m % 10 != 0
    ensures Exact(m, e) == Finite(m, e)
  {
  }

  /** `Exact` builds canonical numbers. */
  lemma ExactIsCanonical(m: int, e: int)
    ensures Canonical(Exact(m, e))
  {
  }

  /** Negation keeps a number canonical. */
  lemma NegateCanonical(n: Number)
    requires Canonical(n)
    ensures Negate(Some(n)).Some? && Canonical(Negate(Some(n)).value)
  {
  }

  // Reading digits.

  /** Reading digits `a` followed by digits `b`: `a` is shifted by the length of `b`. */
  lemma {:induction false} DigitsConcat(a: string, b: string)
    requires AllDigits(a) && AllDigits(b)
    ensures AllDigits(a + b)
    ensures DigitsValue(a + b) == DigitsValue(a) * Pow10(|b|) + DigitsValue(b)
    decreases |b|
  {
    if |b| == 0 {
      assert a + b == a;
    } else {
      var b' := b[..|b| - 1];
      assert (a + b)[..|a + b| - 1] == a + b';
      DigitsConcat(a, b');
      ShiftDigit(DigitsValue(a), Pow10(|b'|), DigitsValue(b'), b[|b| - 1] as int - '0' as int);
    }
  }

  lemma ShiftDigit(a: int, p: nat, b: nat, c: int)
    ensures (a * p + b) * 10 + c == a * (10 * p) + (b * 10 + c)
  {
  }

  lemma ZerosValue(n: nat)
    ensures DigitsValue(Zeros(n)) == 0
  {
    if n > 0 {
      assert Zeros(n)[..n - 1] == Zeros(n - 1);
      ZerosValue(n - 1);
    }
  }

  /** Zeros in front of digits do not change their value. */
  lemma LeadingZeros(z: nat, s: string)
    requires AllDigits(s)
    ensures AllDigits(Zeros(z) + s) && AllDigits("0" + (Zeros(z) + s))
    ensures DigitsValue("0" + (Zeros(z) + s)) == DigitsValue(s)
  {
    assert "0" + (Zeros(z) + s) == Zeros(z + 1) + s;
    DigitsConcat(Zeros(z), s);
    DigitsConcat(Zeros(z + 1), s);
    ZerosValue(z + 1);
  }

  // Reading the parts of a decimal literal.

  /** `s` has no `e` or `E`, so all of it is mantissa. */
  predicate NoExponentMark(s: string) {
    forall i :: 0 <= i < |s| ==> s[i] != 'e' && s[i] != 'E'
  }

  lemma PointedNoMark(w: string, f: string)
    requires AllDigits(w) && AllDigits(f)
    ensures NoExponentMark(w + "." + f)
  {
    var t := w + "." + f;
    forall i | 0 <= i < |t| ensures t[i] != 'e' && t[i] != 'E' {
      if i < |w| { assert t[i] == w[i]; } else if i > |w| { assert t[i] == f[i - |w| - 1]; }
    }
  }

  lemma FirstInNone(s: string, cs: set<char>)
    requires forall i :: 0 <= i < |s| ==> s[i] !in cs
    ensures FirstIn(s, cs) == |s|
  {
  }

  lemma FirstInAt(s: string, cs: set<char>, k: nat)
    requires k < |s| && s[k] in cs
    requires forall i :: 0 <= i < k ==> s[i] !in cs
    ensures FirstIn(s, cs) == k
  {
  }

  lemma MantissaDigits(w: string)
    requires |w| > 0 && AllDigits(w)
    ensures ReadMantissa(w) == Some((DigitsValue(w), 0))
  {
    FirstInNone(w, {'.'});
    assert w[..|w|] == w && w + "" == w;
  }

  lemma MantissaPointed(w: string, f: string)
    requires |w| > 0 && AllDigits(w) && AllDigits(f)
    ensures ReadMantissa(w + "." + f) == Some((DigitsValue(w + f), |f|))
  {
    var m := w + "." + f;
    FirstInAt(m, {'.'}, |w|);
    assert m[..|w|] == w && m[|w| + 1..] == f;
  }

  /** A text that does not start with `I` and has no exponent mark reads as its mantissa. */
  lemma ReadPlain(m: string, v: nat, k: nat, x: int)
    requires |m| > 0 && m[0] != 'I' && NoExponentMark(m)
    requires ReadMantissa(m) == Some((v, k)) && x + k == 0
    ensures UnsignedDecimal(m) == Some(Exact(v, x))
  {
    assert m != "Infinity" by { assert "Infinity"[0] == 'I'; }
    FirstInNone(m, {'e', 'E'});
    assert m[..|m|] == m;
  }

  /** A mantissa, `e` and a signed integer: the mantissa moved by the exponent. */
  lemma ReadExponent(m: string, tail: string, ex: int, v: nat, k: nat, x: int)
    requires |m| > 0 && m[0] != 'I' && NoExponentMark(m)
    requires SignedInteger(tail) == Some(ex) && ReadMantissa(m) == Some((v, k)) && x == ex - k
    ensures UnsignedDecimal(m + "e" + tail) == Some(Exact(v, x))
  {
    var u := m + "e" + tail;
    ExponentSplit(m, tail);
    assert UnsignedDecimal(u) == Some(Exact(v, ex - k));
  }

  /** Where the exponent mark of a mantissa, `e` and a tail is, and what lies either side. */
  lemma ExponentSplit(m: string, tail: string)
    requires |m| > 0 && m[0] != 'I' && NoExponentMark(m)
    ensures var u := m + "e" + tail;
      u != "Infinity" && FirstIn(u, {'e', 'E'}) == |m| && u[..|m|] == m && u[|m| + 1..] == tail
  {
    var u := m + "e" + tail;
    assert u != "Infinity" by { assert "Infinity"[0] == 'I'; }
    FirstInAt(u, {'e', 'E'}, |m|);
    assert u[..|m|] == m && u[|m| + 1..] == tail;
  }

  lemma ReadExponentText(x: int)
    ensures SignedInteger(ExponentText(x)) == Some(x)
  {
    var t := ExponentText(x);
    var a: nat := if x >= 0 then x else -x;
    assert t[1..] == Decimal(a);
    DecimalRoundTrip(a);
  }

  /** Digits, a point and digits whose digits together are worth `v`. */
  lemma ReadPointedValue(w: string, f: string, v: nat, x: int)
    requires |w| > 0 && AllDigits(w) && AllDigits(f)
    requires AllDigits(w + f) && DigitsValue(w + f) == v && x == -|f|
    ensures UnsignedDecimal(w + "." + f) == Some(Exact(v, x))
  {
    MantissaPointed(w, f);
    PointedNoMark(w, f);
    ReadPlain(w + "." + f, v, |f|, x);
  }

  lemma ExponentMantissaReads(s: string, d: nat)
    requires |s| > 0 && AllDigits(s) && DigitsValue(s) == d
    ensures var m := ExponentMantissa(s); |m| > 0 && m[0] != 'I' && NoExponentMark(m)
    ensures ReadMantissa(ExponentMantissa(s)) == Some((d, |s| - 1))
  {
    if |s| == 1 {
      MantissaDigits(s);
    } else {
      assert s[..1] + s[1..] == s;
      MantissaPointed(s[..1], s[1..]);
      PointedNoMark(s[..1], s[1..]);
    }
  }

  /** Digits `s` worth `d` written in exponent form with exponent `e` read as `d × 10^(e - |s| + 1)`. */
  lemma ReadExponentForm(s: string, d: nat, e: int, x: int)
    requires |s| > 0 && AllDigits(s) && DigitsValue(s) == d && x == e - (|s| - 1)
    ensures UnsignedDecimal(ExponentMantissa(s) + "e" + ExponentText(e)) == Some(Exact(d, x))
  {
    var m := ExponentMantissa(s);
    var tail := ExponentText(e);
    ExponentMantissaReads(s, d);
    ReadExponentText(e);
    ReadExponent(m, tail, e, d, |s| - 1, x);
  }

  // The four forms of Number::toString read back.

  /** Digits worth `d` followed by `x` zeros read as `d × 10^x`. */
  lemma {:induction false} TrailingZeros(s: string, d: nat, x: nat, e: int)
    requires AllDigits(s) && DigitsValue(s) == d && d > 0
    ensures AllDigits(s + Zeros(x)) && DigitsValue(s + Zeros(x)) > 0
    ensures Exact(DigitsValue(s + Zeros(x)), e) == Exact(d, e + x)
    decreases x
  {
    if x == 0 {
      assert s + Zeros(x) == s;
    } else {
      var t := s + Zeros(x - 1);
      TrailingZeros(s, d, x - 1, e + 1);
      assert s + Zeros(x) == t + "0";
      assert (t + "0")[..|t|] == t;
      ExactShift(DigitsValue(t), e);
    }
  }

  /** Plain digits: `s` and `n - k` zeros. */
  lemma DigitsTextWhole(d: nat, x: int)
    requires d > 0 && x >= 0 && |Decimal(d)| + x <= 21
    ensures UnsignedDecimal(DigitsText(d, x)) == Some(Exact(d, x))
  {
    var s := Decimal(d);
    var t := s + Zeros(x);
    assert DigitsText(d, x) == t;
    DecimalRoundTrip(d);
    TrailingZeros(s, d, x, 0);
    assert t[0] == s[0];
    UnsignedDigits(t);
  }

  /** A point inside the digits: `s[..n]`, `.`, `s[n..]`. */
  lemma DigitsTextPointed(d: nat, x: int)
    requires d > 0 && x < 0 && 0 < |Decimal(d)| + x <= 21
    ensures UnsignedDecimal(DigitsText(d, x)) == Some(Exact(d, x))
  {
    var s := Decimal(d);
    var n := |s| + x;
    assert DigitsText(d, x) == s[..n] + "." + s[n..];
    DecimalRoundTrip(d);
    assert s[..n] + s[n..] == s;
    ReadPointedValue(s[..n], s[n..], d, x);
  }

  /** A leading `0.` and `-n` zeros before the digits. */
  lemma DigitsTextSmall(d: nat, x: int)
    requires d > 0 && -6 < |Decimal(d)| + x <= 0
    ensures UnsignedDecimal(DigitsText(d, x)) == Some(Exact(d, x))
  {
    var s := Decimal(d);
    var z: nat := -(|s| + x);
    var f := Zeros(z) + s;
    SmallText(d, x, z);
    assert AllDigits(f) && DigitsValue("0" + f) == d by {
      DecimalRoundTrip(d);
      LeadingZeros(z, s);
    }
    ReadPointedValue("0", f, d, x);
  }

  lemma SmallText(d: nat, x: int, z: nat)
    requires d > 0 && -6 < |Decimal(d)| + x <= 0 && z == -(|Decimal(d)| + x)
    ensures DigitsText(d, x) == "0" + "." + (Zeros(z) + Decimal(d))
  {
    assert DigitsText(d, x) == "0." + Zeros(z) + Decimal(d);
  }

  lemma DigitsTextIsExponentForm(s: string, x: int, n: int)
    requires |s| > 0 && AllDigits(s) && n == |s| + x && (n > 21 || n <= -6)
    ensures PlaceDigits(s, x) == ExponentMantissa(s) + "e" + ExponentText(n - 1)
  {
  }

  /** The exponent form: the first digit, the others after a point, `e` and the signed exponent. */
  lemma DigitsTextExponent(d: nat, x: int)
    requires d > 0
    requires |Decimal(d)| + x > 21 || |Decimal(d)| + x <= -6
    ensures UnsignedDecimal(DigitsText(d, x)) == Some(Exact(d, x))
  {
    var s := Decimal(d);
    DecimalRoundTrip(d);
    PlacedExponentReads(s, d, x, |s| + x - 1);
  }

  lemma PlacedExponentReads(s: string, d: nat, x: int, e: int)
    requires |s| > 0 && AllDigits(s) && DigitsValue(s) == d
    requires e == |s| + x - 1 && (e >= 21 || e < -6)
    ensures UnsignedDecimal(PlaceDigits(s, x)) == Some(Exact(d, x))
  {
    DigitsTextIsExponentForm(s, x, e + 1);
    ReadExponentForm(s, d, e, x);
  }

  /** Reading back the text of `d × 10^x` gives `d × 10^x`. */
  lemma DigitsTextRoundTrip(d: nat, x: int)
    requires d > 0
    ensures UnsignedDecimal(DigitsText(d, x)) == Some(Exact(d, x))
  {
    var k := |Decimal(d)|;
    var n := k + x;
    if k <= n <= 21 {
      DigitsTextWhole(d, x);
    } else if 0 < n <= 21 {
      DigitsTextPointed(d, x);
    } else if -6 < n <= 0 {
      DigitsTextSmall(d, x);
    } else {
      DigitsTextExponent(d, x);
    }
  }

  // Whole texts.

  /** Text made of number characters has no white space, and no radix letter second. */
  lemma NumeralTextTrimmed(r: string)
    requires forall i :: 0 <= i < |r| ==> NumeralChar(r[i])
    ensures Trim(r) == r
    ensures |r| >= 2 ==> RadixOf(r[1]) == 0
  {
    assert forall i :: 0 <= i < |r| ==> !IsSpace(r[i]) by {
      forall i | 0 <= i < |r| ensures !IsSpace(r[i]) { assert NumeralChar(r[i]); }
    }
    TrimWithoutSpaces(r);
    if |r| >= 2 {
      assert NumeralChar(r[1]);
    }
  }

  /** Text that starts with a digit and has no radix letter second is an unsigned decimal literal. */
  lemma UnsignedLiteral(t: string)
    requires |t| > 0 && IsDigit(t[0]) && (|t| >= 2 ==> RadixOf(t[1]) == 0)
    ensures NumericLiteral(t) == UnsignedDecimal(t)
  {
  }

  /** Text that starts with `-` is the negation of the unsigned literal after it. */
  lemma NegativeLiteral(t: string)
    requires |t| > 0 && t[0] == '-'
    ensures NumericLiteral(t) == Negate(UnsignedDecimal(t[1..]))
  {
  }

  /** `Number(String(n)) == n` for every canonical number. */
  lemma NumberStringRoundTrip(n: Number)
    requires Canonical(n)
    ensures ToNumber(NumberString(n)) == Some(n)
  {
    match n
    case Infinite(negative) =>
      InfinityRoundTrip(negative);
    case Finite(m, e) =>
      FiniteRoundTrip(m, e);
  }

  lemma FiniteRoundTrip(m: int, e: int)
    requires Canonical(Finite(m, e))
    ensures ToNumber(NumberString(Finite(m, e))) == Some(Finite(m, e))
  {
    if m == 0 {
      ZeroReads();
    } else if m > 0 {
      PositiveStringReads(m, e);
    } else {
      NegatedDigit(m);
      NegativeNumberString(m, e);
      NegativeStringReads(m, e);
    }
  }

  /** A last digit other than 0 stays so under negation. */
  lemma NegatedDigit(m: int)
    requires m % 10 != 0
    ensures (-m) % 10 != 0
  {
  }

  lemma NegativeNumberString(m: int, e: int)
    requires m < 0
    ensures NumberString(Finite(m, e)) == "-" + DigitsText(-m, e)
  {
  }

  lemma ZeroReads()
    ensures ToNumber("0") == Some(Finite(0, 0))
  {
    ReadDigits("0");
  }

  /** The digits of a positive mantissa without a trailing zero read back as exactly it. */
  lemma CanonicalDigitsRead(k: nat, e: int)
    requires k > 0 && k % 10 != 0
    ensures UnsignedDecimal(DigitsText(k, e)) == Some(Finite(k, e))
  {
    DigitsTextRoundTrip(k, e);
    ExactCanonical(k, e);
  }

  /** The digits of a canonical positive number read back as it. */
  lemma PositiveStringReads(k: nat, e: int)
    requires k > 0 && k % 10 != 0
    ensures ToNumber(DigitsText(k, e)) == Some(Finite(k, e))
  {
    var p := DigitsText(k, e);
    calc {
      ToNumber(p);
      { DecimalTextReads(p); }
      UnsignedDecimal(p);
      { CanonicalDigitsRead(k, e); }
      Some(Finite(k, e));
    }
  }

  /** `-` and the digits of the magnitude of a canonical negative number read back as it. */
  lemma NegativeStringReads(m: int, e: int)
    requires m < 0 && (-m) % 10 != 0
    ensures ToNumber("-" + DigitsText(-m, e)) == Some(Finite(m, e))
  {
    CanonicalDigitsRead(-m, e);
    NegatedReads(DigitsText(-m, e), -m, m, e);
  }

  lemma NegatedReads(p: string, k: nat, m: int, e: int)
    requires |p| > 0 && forall i :: 0 <= i < |p| ==> NumeralChar(p[i])
    requires UnsignedDecimal(p) == Some(Finite(k, e)) && m + k == 0
    ensures ToNumber("-" + p) == Some(Finite(m, e))
  {
    calc {
      ToNumber("-" + p);
      { NegatedText(p); }
      Negate(UnsignedDecimal(p));
      Negate(Some(Finite(k, e)));
      Some(Finite(m, e));
    }
  }

  lemma InfinityRoundTrip(negative: bool)
    ensures ToNumber(NumberString(Infinite(negative))) == Some(Infinite(negative))
  {
    if negative {
      NegativeInfinityReads();
    } else {
      PositiveInfinityReads();
    }
  }

  lemma PositiveInfinityReads()
    ensures ToNumber("Infinity") == Some(Infinite(false))
  {
    InfinityWordReads("Infinity");
  }

  lemma InfinityWordReads(t: string)
    requires t == "Infinity"
    ensures ToNumber(t) == Some(Infinite(false))
  {
    TrimmedEnds(t);
    assert NumericLiteral(t) == UnsignedDecimal(t);
  }

  lemma NegativeInfinityReads()
    ensures ToNumber("-Infinity") == Some(Infinite(true))
  {
    NegativeInfinityWordReads("-Infinity");
  }

  lemma NegativeInfinityWordReads(t: string)
    requires t == "-Infinity"
    ensures ToNumber(t) == Some(Infinite(true))
  {
    TrimmedEnds(t);
    NegativeLiteral(t);
    assert t[1..] == "Infinity";
  }

  /** Text of number characters that starts with a digit reads as an unsigned decimal literal. */
  lemma DecimalTextReads(t: string)
    requires |t| > 0 && IsDigit(t[0]) && forall i :: 0 <= i < |t| ==> NumeralChar(t[i])
    ensures ToNumber(t) == UnsignedDecimal(t)
  {
    NumeralTextTrimmed(t);
    UnsignedLiteral(t);
  }

  /** `Number(String(x)) == x`: the text of every numeral reads back as the number it denotes. */
  lemma NumberTextRoundTrip(x: Numeral)
    ensures ToNumber(NumberText(x)) == Some(NumeralNumber(x))
  {
    ExactIsCanonical(x.mantissa, -(x.scale as int));
    NumberStringRoundTrip(NumeralNumber(x));
  }

  /** `-` before a positive text reads as the negation of what the text reads as. */
  lemma NegatedText(p: string)
    requires |p| > 0 && forall i :: 0 <= i < |p| ==> NumeralChar(p[i])
    ensures ToNumber("-" + p) == Negate(UnsignedDecimal(p))
  {
    var r := "-" + p;
    assert forall i :: 0 <= i < |r| ==> NumeralChar(r[i]) by {
      forall i | 0 <= i < |r| ensures NumeralChar(r[i]) { if i > 0 { assert r[i] == p[i - 1]; } }
    }
    NumeralTextTrimmed(r);
    NegativeLiteral(r);
    assert r[1..] == p;
  }

  /** Decimal digits read as their value. */
  lemma ReadDigits(w: string)
    requires |w| > 0 && AllDigits(w)
    ensures ToNumber(w) == Some(Exact(DigitsValue(w), 0))
  {
    assert forall i :: 0 <= i < |w| ==> NumeralChar(w[i]);
    NumeralTextTrimmed(w);
    UnsignedLiteral(w);
    UnsignedDigits(w);
  }

  lemma UnsignedDigits(w: string)
    requires |w| > 0 && AllDigits(w)
    ensures UnsignedDecimal(w) == Some(Exact(DigitsValue(w), 0))
  {
    assert NoExponentMark(w) by {
      forall i | 0 <= i < |w| ensures w[i] != 'e' && w[i] != 'E' { assert IsDigit(w[i]); }
    }
    assert w[0] != 'I' by { assert IsDigit(w[0]); }
    UnsignedDigitsValue(w, DigitsValue(w));
  }

  lemma UnsignedDigitsValue(w: string, v: nat)
    requires |w| > 0 && AllDigits(w) && v == DigitsValue(w) && w[0] != 'I' && NoExponentMark(w)
    ensures UnsignedDecimal(w) == Some(Exact(v, 0))
  {
    MantissaDigits(w);
    ReadPlain(w, v, 0, 0);
  }

  /** `Number(String(n)) == n` for a natural number. */
  lemma NumberOfDecimal(n: nat)
    ensures ToNumber(Decimal(n)) == Some(Exact(n, 0))
  {
    ReadDigits(Decimal(n));
    DecimalRoundTrip(n);
  }

  /** Every number `Number(text)` gives is canonical, so `String` of it reads back as it:
      `Number(String(Number(s))) == Number(s)`. */
  lemma ToNumberStable(s: string)
    ensures ToNumber(s).Some? ==> Canonical(ToNumber(s).value)
    ensures ToNumber(s).Some? ==> ToNumber(NumberString(ToNumber(s).value)) == ToNumber(s)
  {
    var t := Trim(s);
    if t != "" && ToNumber(s).Some? {
      if |t| >= 2 && t[0] == '0' && RadixOf(t[1]) > 0 {
        var d := t[2..];
        ExactIsCanonical(RadixValue(d, RadixOf(t[1])), 0);
      } else if t[0] == '-' {
        UnsignedCanonical(t[1..]);
        NegateCanonical(UnsignedDecimal(t[1..]).value);
      } else if t[0] == '+' {
        UnsignedCanonical(t[1..]);
      } else {
        UnsignedCanonical(t);
      }
    }
    if ToNumber(s).Some? {
      NumberStringRoundTrip(ToNumber(s).value);
    }
  }

  lemma UnsignedCanonical(u: string)
    ensures UnsignedDecimal(u).Some? ==> Canonical(UnsignedDecimal(u).value)
  {
    if u != "Infinity" {
      var i := FirstIn(u, {'e', 'E'});
      var exp := if i < |u| then SignedInteger(u[i + 1..]) else Some(0);
      var mant := ReadMantissa(u[..i]);
      if exp.Some? && mant.Some? {
        ExactIsCanonical(mant.value.0, exp.value - mant.value.1);
      }
    }
  }

  /** Illustrations of `Number(text)` on the forms a storefront SKU can take: a sign, a fraction,
      an exponent, a hexadecimal prefix, and a letter. */
  lemma SignedRead()
    ensures ToNumber("-3") == Some(Finite(-3, 0))
  {
    NumeralTextTrimmed("-3");
    NegativeLiteral("-3");
    assert "-3"[1..] == "3";
    UnsignedDigits("3");
  }

  lemma FractionRead()
    ensures ToNumber("1.5") == Some(Finite(15, -1))
  {
    DecimalTextReads("1.5");
    FractionValue();
  }

  lemma FractionValue()
    ensures UnsignedDecimal("1.5") == Some(Finite(15, -1))
  {
    assert DigitsValue("15") == 15 by { assert "15"[..1] == "1"; }
    assert "1" + "." + "5" == "1.5" && "1" + "5" == "15";
    ReadPointedValue("1", "5", 15, -1);
  }

  lemma ExponentRead()
    ensures ToNumber("1e3") == Some(Finite(1, 3))
  {
    DecimalTextReads("1e3");
    ExponentValue();
  }

  lemma ExponentValue()
    ensures UnsignedDecimal("1e3") == Some(Finite(1, 3))
  {
    MantissaDigits("1");
    assert "1" + "e" + "3" == "1e3";
    ReadExponent("1", "3", 3, 1, 0, 3);
  }

  lemma HexRead()
    ensures ToNumber("0x1A") == Some(Finite(26, 0))
  {
    TrimWithoutSpaces("0x1A");
    HexValue();
  }

  lemma HexValue()
    ensures NumericLiteral("0x1A") == Some(Finite(26, 0))
  {
    assert "0x1A"[2..] == "1A";
    assert RadixValue("1A", 16) == 26 by { assert "1A"[..1] == "1"; }
  }

  lemma LetterIsNaN()
    ensures ToNumber("A1") == None
  {
    TrimWithoutSpaces("A1");
    LetterValue();
  }

  lemma LetterValue()
    ensures NumericLiteral("A1") == None
  {
    assert "A1" != "Infinity";
    assert FirstIn("A1", {'e', 'E'}) == 2;
    assert FirstIn("A1", {'.'}) == 2;
    assert !AllDigits("A1") by { assert !IsDigit("A1"[0]); }
  }

  /** Illustrations of `String(x)`: the point where the scale puts it, and no trailing zeros. */
  lemma FractionText()
    ensures NumberText(Numeral(155, 1)) == "15.5"
  {
    assert Decimal(155) == "155" by { assert Decimal(15) == "15"; }
    assert Exact(155, -1) == Finite(155, -1);
  }

  lemma TrailingZerosDropped()
    ensures NumberText(Numeral(1500, 2)) == "15"
  {
    assert Exact(1500, -2) == Finite(15, 0) by {
      assert Exact(150, -1) == Finite(15, 0);
    }
    assert Decimal(15) == "15";
  }

  lemma SmallNegativeText()
    ensures NumberText(Numeral(-5, 3)) == "-0.005"
  {
    assert Exact(5, -3) == Finite(5, -3);
    assert Decimal(5) == "5";
    assert Zeros(2) == "00";
  }
}

=== FILE: jsstring.dfy ===
/** The JavaScript string primitives the source relies on, over `seq<char>`. */
module JsString {
  import opened Outcomes
  import opened Seqs

  /** ECMAScript WhiteSpace and LineTerminator code points: what `trim()` strips and what `\s` matches. */
  predicate IsSpace(c: char) {
    var n := c as int;
    n == 0x09 || n == 0x0A || n == 0x0B || n == 0x0C || n == 0x0D || n == 0x20 || n == 0xA0
    || n == 0x1680 || (0x2000 <= n <= 0x200A) || n == 0x2028 || n == 0x2029 || n == 0x202F
    || n == 0x205F || n == 0x3000 || n == 0xFEFF
  }

  predicate IsNotSpace(c: char) {
    !IsSpace(c)
  }

  /** `\w` in a regular expression without the `u` flag: `[A-Za-z0-9_]`, also under the `i` flag. */
  predicate IsWordChar(c: char) {
    ('a' <= c <= 'z') || ('A' <= c <= 'Z') || ('0' <= c <= '9') || c == '_'
  }

  predicate IsDigit(c: char) {
    '0' <= c <= '9'
  }

  /** Leading white space removed (first half of `trim()`). */
  function TrimStart(s: string): (r: string)
    ensures |r| <= |s| && r == s[|s| - |r|..]
    ensures forall i :: 0 <= i < |s| - |r| ==> IsSpace(s[i])
    ensures |r| > 0 ==> !IsSpace(r[0])
    decreases |s|
  {
    if |s| > 0 && IsSpace(s[0]) then
      var r := TrimStart(s[1..]);
      assert forall i :: 1 <= i < |s| - |r| ==> s[i] == s[1..][i - 1];
      r
    else s
  }

  /** Trailing white space removed (second half of `trim()`). */
  function TrimEnd(s: string): (r: string)
    ensures |r| <= |s| && r == s[..|r|]
    ensures forall i :: |r| <= i < |s| ==> IsSpace(s[i])
    ensures |r| > 0 ==> !IsSpace(r[|r| - 1])
    decreases |s|
  {
    if |s| > 0 && IsSpace(s[|s| - 1]) then TrimEnd(s[..|s| - 1]) else s
  }

  /** How many characters `trim()` removes from the front of `s`. */
  function TrimOffset(s: string): nat
  {
    |s| - |TrimStart(s)|
  }

  /** `String.prototype.trim`: `s` without its leading and trailing white space. */
  function Trim(s: string): (r: string)
    ensures TrimOffset(s) + |r| <= |s|
    ensures r == s[TrimOffset(s)..TrimOffset(s) + |r|]
    ensures forall i :: 0 <= i < TrimOffset(s) ==> IsSpace(s[i])
    ensures forall i :: TrimOffset(s) + |r| <= i < |s| ==> IsSpace(s[i])
    ensures |r| > 0 ==> !IsSpace(r[0]) && !IsSpace(r[|r| - 1])
  {
    var t := TrimStart(s);
    var r := TrimEnd(t);
    SuffixPrefix(s, |s| - |t|, t, r);
    r
  }

  /** A prefix `r` of the suffix `t` of `s` from `k` is the slice of `s` from `k`, and what `t`
      has after `r` is what `s` has after it. */
  lemma SuffixPrefix(s: string, k: nat, t: string, r: string)
    requires k <= |s| && t == s[k..] && |r| <= |t| && r == t[..|r|]
    requires forall i :: |r| <= i < |t| ==> IsSpace(t[i])
    ensures r == s[k..k + |r|]
    ensures forall i :: k + |r| <= i < |s| ==> IsSpace(s[i])
  {
    forall i | k + |r| <= i < |s| ensures IsSpace(s[i]) {
      assert s[i] == t[i - k];
    }
  }

  /** A string that neither starts nor ends with white space is its own trim. */
  lemma TrimmedEnds(s: string)
    requires |s| > 0 && !IsSpace(s[0]) && !IsSpace(s[|s| - 1])
    ensures Trim(s) == s
  {
  }

  /** A string without white space is its own trim. */
  lemma TrimWithoutSpaces(s: string)
    requires forall i :: 0 <= i < |s| ==> !IsSpace(s[i])
    ensures Trim(s) == s
  {
    assert TrimStart(s) == s;
  }

  /** `toLowerCase` on one character, for the ASCII letters. */
  function LowerChar(c: char): (r: char)
  {
    if 'A' <= c <= 'Z' then (c as int + 32) as char else c
  }

  /** `toLowerCase`, with case mapping modelled for the ASCII letters only. */
  function ToLower(s: string): (r: string)
    ensures |r| == |s|
    ensures forall i :: 0 <= i < |s| ==> r[i] == LowerChar(s[i])
  {
    seq(|s|, i requires 0 <= i < |s| => LowerChar(s[i]))
  }

  function DigitChar(d: nat): (c: char)
    requires d < 10
    ensures IsDigit(c) && c as int - '0' as int == d
  {
    "0123456789"[d]
  }

  /** `String(n)` for a natural number: its decimal digits, without leading zeros. */
  function Decimal(n: nat): (r: string)
    ensures |r| >= 1
    ensures forall i :: 0 <= i < |r| ==> IsDigit(r[i])
    decreases n
  {
    if n < 10 then [DigitChar(n)] else Decimal(n / 10) + [DigitChar(n % 10)]
  }

  /** The value of a string of decimal digits. */
  function DigitsValue(s: string): nat
    requires forall i :: 0 <= i < |s| ==> IsDigit(s[i])
    decreases |s|
  {
    if |s| == 0 then 0
    else
      assert IsDigit(s[|s| - 1]);
      DigitsValue(s[..|s| - 1]) * 10 + (s[|s| - 1] as int - '0' as int)
  }

  /** Reading back the decimal rendering of `n` gives `n`. */
  lemma {:induction false} DecimalRoundTrip(n: nat)
    ensures DigitsValue(Decimal(n)) == n
    decreases n
  {
    if n >= 10 {
      DecimalRoundTrip(n / 10);
      var d := Decimal(n);
      assert d[..|d| - 1] == Decimal(n / 10);
    }
  }

  /** `s.replace(/\D/g, '')`: only the decimal digits of `s`, in order. */
  function DigitsOnly(s: string): (r: string)
    ensures forall i :: 0 <= i < |r| ==> IsDigit(r[i])
    ensures SubsequenceOf(r, s)
  {
    FilterIsSubsequence(IsDigit, s);
    Filter(IsDigit, s)
  }

  /** `s.replace(c, '')` with a one-character string pattern: only the FIRST occurrence goes. */
  function RemoveFirst(s: string, c: char): (r: string)
    ensures c !in s ==> r == s
    ensures c in s ==> |r| == |s| - 1
    decreases |s|
  {
    if |s| == 0 then s
    else
      assert s == [s[0]] + s[1..];
      if s[0] == c then s[1..] else [s[0]] + RemoveFirst(s[1..], c)
  }

  /** The first `c` is the one removed: `a + [c] + b` with no `c` in `a` loses exactly that `c`. */
  lemma {:induction false} RemoveFirstSplits(a: string, b: string, c: char)
    requires c !in a
    ensures RemoveFirst(a + [c] + b, c) == a + b
    decreases |a|
  {
    if |a| > 0 {
      var x, a' := a[0], a[1..];
      ConsSplit(a, c, b);
      assert x != c && c !in a' by { assert a == [x] + a'; }
      RemoveFirstCons(x, a' + [c] + b, c);
      RemoveFirstSplits(a', b, c);
    } else {
      assert a + [c] + b == [c] + b;
      RemoveFirstCons(c, b, c);
    }
  }

  lemma ConsSplit(a: string, c: char, b: string)
    requires |a| > 0
    ensures a + [c] + b == [a[0]] + (a[1..] + [c] + b)
    ensures a + b == [a[0]] + (a[1..] + b)
  {
  }

  /** `RemoveFirst` on a string that starts with `x`. */
  lemma RemoveFirstCons(x: char, s: string, c: char)
    ensures RemoveFirst([x] + s, c) == if x == c then s else [x] + RemoveFirst(s, c)
  {
    assert ([x] + s)[1..] == s;
  }

  /** Every digit of `s` survives `DigitsOnly`, and nothing else does. */
  lemma DigitsOnlyKeepsDigits(s: string, ch: char)
    ensures ch in DigitsOnly(s) <==> ch in s && IsDigit(ch)
  {
    FilterMembership(IsDigit, s, ch);
  }

  /** JavaScript truthiness of an optional string: `undefined`, `null` and `''` are falsy. */
  predicate Truthy(s: Option<string>) {
    s.Some? && s.value != ""
  }

  /** `s || ''`: the text of an optional string, the empty string standing for a missing one. */
  function Text(s: Option<string>): (r: string)
    ensures Truthy(s) <==> r != ""
    ensures Truthy(s) ==> r == s.value
  {
    if s.Some? then s.value else ""
  }

  /** `a || b`: the first operand when it is truthy, otherwise the second, whatever it is. */
  function Or(a: Option<string>, b: Option<string>): (r: Option<string>)
    ensures Truthy(a) ==> r == a
    ensures !Truthy(a) ==> r == b
  {
    if Truthy(a) then a else b
  }
}

=== FILE: omnia_fetch.dfy ===
/** `OmniaService.fetchAllPagesConcurrent` (src/modules/omnia/omnia.service.ts): page 1 first, then
    pages `2..totalpages` in waves of `concurrency`, each later page retried on its own and
    contributing nothing once its attempts are used up. */
module OmniaFetch {
  import opened Outcomes
  import opened Seqs
  import RetryExecutor
  import BatchRunner

  const DefaultConcurrency: nat := 5
  const DefaultMaxRetries: int := 3
  /** The back-off before the retry that follows attempt `k` is `BackoffUnit * k` milliseconds. */
  const BackoffUnit: int := 1000

  /** The ERP's answer to a page request: the page's rows and `pagination.totalpages`. */
  datatype PageResponse<T> = PageResponse(data: seq<T>, totalpages: int)

  /** What became of one later page: the rows it contributed, the attempts made, the waits
      between them, and whether it gave up. */
  datatype PageRun<T> = PageRun(page: int, data: seq<T>, attempts: nat, delays: seq<int>, exhausted: bool)

  /** `fetchPage(page, attempt)` as written: retry while `attempt <= maxRetries`, else `[]`.
      `script(page, k)` is the ERP's answer to attempt `k` at that page. */
  function FetchPageFrom<T, E>(script: (int, nat) -> Outcome<seq<T>, E>, page: int, maxRetries: int, attempt: nat)
    : PageRun<T>
    requires attempt >= 1
    decreases if attempt <= maxRetries then maxRetries - attempt + 1 else 0
  {
    match script(page, attempt)
    case Ok(d) => PageRun(page, d, 1, [], false)
    case Err(_) =>
      if attempt <= maxRetries then
        var rest := FetchPageFrom(script, page, maxRetries, attempt + 1);
        PageRun(page, rest.data, rest.attempts + 1, [BackoffUnit * attempt] + rest.delays, rest.exhausted)
      else PageRun(page, [], 1, [], true)
  }

  /** Attempts a later page gets: `maxRetries + 1`, and never fewer than one. */
  function MaxAttempts(maxRetries: int): int {
    if maxRetries >= 0 then maxRetries + 1 else 1
  }

  /** The page fetch seen as a call of the retry executor. */
  function AsRetryCall<T, E>(script: (int, nat) -> Outcome<seq<T>, E>, page: int)
    : ((), nat) -> RetryExecutor.Step<(), seq<T>, E>
  {
    (s: (), k: nat) => RetryExecutor.Step(script(page, k), s)
  }

  /** A page run and a `retry` run agree: the same calls, the same waits, giving up exactly where
      `retry` rethrows, the value `retry` returns, and `[]` once the attempts are used up. */
  ghost predicate SameRun<T, E>(f: PageRun<T>, r: RetryExecutor.RetryRun<(), seq<T>, E>) {
    && f.attempts == r.calls
    && f.delays == r.delays
    && (f.exhausted <==> r.result.Threw?)
    && (r.result.Returned? ==> f.data == r.result.value)
    && (f.exhausted ==> f.data == [])
  }

  /** `fetchPage` makes the same calls, with the same waits, as `retry` given `MaxAttempts`
      attempts and a 1000 ms unit, and yields `[]` exactly where `retry` would rethrow. */
  lemma {:induction false} FetchPageIsRetry<T, E>(script: (int, nat) -> Outcome<seq<T>, E>, page: int,
                                                  maxRetries: int, attempt: nat)
    requires 1 <= attempt <= MaxAttempts(maxRetries)
    ensures SameRun(FetchPageFrom(script, page, maxRetries, attempt),
      RetryExecutor.Loop(AsRetryCall(script, page), (), (), MaxAttempts(maxRetries), BackoffUnit, attempt))
    decreases MaxAttempts(maxRetries) - attempt
  {
    if script(page, attempt).Err? && attempt <= maxRetries {
      FetchPageIsRetry(script, page, maxRetries, attempt + 1);
      RetriedAttempt(script, page, maxRetries, attempt);
    } else {
      SettledAttempt(script, page, maxRetries, attempt);
    }
  }

  /** An attempt that answers, or the last one, settles both runs the same way. */
  lemma SettledAttempt<T, E>(script: (int, nat) -> Outcome<seq<T>, E>, page: int, maxRetries: int, attempt: nat)
    requires 1 <= attempt <= MaxAttempts(maxRetries)
    requires script(page, attempt).Ok? || attempt > maxRetries
    ensures SameRun(FetchPageFrom(script, page, maxRetries, attempt),
      RetryExecutor.Loop(AsRetryCall(script, page), (), (), MaxAttempts(maxRetries), BackoffUnit, attempt))
  {
    var fn := AsRetryCall(script, page);
    assert fn((), attempt) == RetryExecutor.Step(script(page, attempt), ());
  }

  /** A failed attempt before the last adds one call and the same wait to both runs. */
  lemma RetriedAttempt<T, E>(script: (int, nat) -> Outcome<seq<T>, E>, page: int, maxRetries: int, attempt: nat)
    requires 1 <= attempt <= maxRetries && script(page, attempt).Err?
    requires SameRun(FetchPageFrom(script, page, maxRetries, attempt + 1),
      RetryExecutor.Loop(AsRetryCall(script, page), (), (), MaxAttempts(maxRetries), BackoffUnit, attempt + 1))
    ensures SameRun(FetchPageFrom(script, page, maxRetries, attempt),
      RetryExecutor.Loop(AsRetryCall(script, page), (), (), MaxAttempts(maxRetries), BackoffUnit, attempt))
  {
    var fn := AsRetryCall(script, page);
    assert fn((), attempt) == RetryExecutor.Step(script(page, attempt), ());
  }

  /** One later page, from its first attempt. */
  function FetchPage<T, E>(script: (int, nat) -> Outcome<seq<T>, E>, page: int, maxRetries: int): (r: PageRun<T>)
    ensures r.page == page
    ensures 1 <= r.attempts <= MaxAttempts(maxRetries)
    ensures |r.delays| == r.attempts - 1
    ensures forall i :: 0 <= i < |r.delays| ==> r.delays[i] == BackoffUnit * (i + 1)
    ensures forall k :: 1 <= k < r.attempts ==> script(page, k).Err?
    ensures !r.exhausted ==> script(page, r.attempts) == Ok(r.data)
    ensures r.exhausted ==> r.data == [] && r.attempts == MaxAttempts(maxRetries) && script(page, r.attempts).Err?
  {
    FetchPageIsRetry(script, page, maxRetries, 1);
    UnitCalls(script, page, MaxAttempts(maxRetries));
    FetchPageFrom(script, page, maxRetries, 1)
  }

  /** With a stateless call, call number `k` of the retry executor is the script's answer to attempt `k`. */
  lemma UnitCalls<T, E>(script: (int, nat) -> Outcome<seq<T>, E>, page: int, n: int)
    ensures forall k :: 1 <= k <= n ==> RetryExecutor.CallAt(AsRetryCall(script, page), (), k).outcome == script(page, k)
  {
  }

  /** The later pages of a wave, in page order (`Promise.all` keeps order). */
  function FetchWave<T, E>(script: (int, nat) -> Outcome<seq<T>, E>, wave: seq<int>, maxRetries: int)
    : (r: seq<PageRun<T>>)
    ensures |r| == |wave| && forall i :: 0 <= i < |wave| ==> r[i] == FetchPage(script, wave[i], maxRetries)
  {
    seq(|wave|, i requires 0 <= i < |wave| => FetchPage(script, wave[i], maxRetries))
  }

  /** The wave loop: wave `k + 1` is fetched only once wave `k` is done. */
  function RunWaves<T, E>(script: (int, nat) -> Outcome<seq<T>, E>, waves: seq<seq<int>>, maxRetries: int)
    : (r: seq<PageRun<T>>)
    ensures |r| == |Flatten(waves)|
    ensures forall i :: 0 <= i < |r| ==> r[i] == FetchPage(script, Flatten(waves)[i], maxRetries)
    decreases |waves|
  {
    if |waves| == 0 then []
    else
      var rest := RunWaves(script, waves[1..], maxRetries);
      assert Flatten(waves) == waves[0] + Flatten(waves[1..]);
      FetchWave(script, waves[0], maxRetries) + rest
  }

  /** The rows of the later pages, page after page. */
  function RowsOf<T>(runs: seq<PageRun<T>>): (r: seq<T>)
    ensures |r| == SumOfLengths(runs)
    decreases |runs|
  {
    if |runs| == 0 then [] else runs[0].data + RowsOf(runs[1..])
  }

  function SumOfLengths<T>(runs: seq<PageRun<T>>): nat
    decreases |runs|
  {
    if |runs| == 0 then 0 else |runs[0].data| + SumOfLengths(runs[1..])
  }

  /** The outcome of a complete fetch: all rows, the waves of page numbers, and each later page's run. */
  datatype FetchRun<T> = FetchRun(data: seq<T>, waves: seq<seq<int>>, runs: seq<PageRun<T>>)

  /** `fetchAllPagesConcurrent`; `first` is the answer to the page-1 request, which is not retried. */
  function FetchAllPagesConcurrent<T, E>(first: Outcome<PageResponse<T>, E>,
                                         script: (int, nat) -> Outcome<seq<T>, E>,
                                         concurrency: nat, maxRetries: int)
    : (r: Outcome<FetchRun<T>, E>)
    requires concurrency >= 1
    ensures first.Err? <==> r.Err?
    ensures first.Err? ==> r.error == first.error
    ensures first.Ok? ==>
      var total := first.value.totalpages;
      && Flatten(r.value.waves) == Range(2, total)
      && (forall k :: 0 <= k < |r.value.waves| ==> 1 <= |r.value.waves[k]| <= concurrency)
      && |r.value.runs| == |Range(2, total)|
      && (forall i :: 0 <= i < |r.value.runs| ==> r.value.runs[i] == FetchPage(script, 2 + i, maxRetries))
      && r.value.data == first.value.data + RowsOf(r.value.runs)
      && |r.value.data| == |first.value.data| + SumOfLengths(r.value.runs)
  {
    match first
    case Err(e) => Err(e)
    case Ok(resp) =>
      var pages := Range(2, resp.totalpages);
      var waves := BatchRunner.Chunks(pages, concurrency);
      var runs := RunWaves(script, waves, maxRetries);
      Ok(FetchRun(resp.data + RowsOf(runs), waves, runs))
  }

  /** `totalpages <= 1`: nothing beyond page 1 is requested and the result is page 1's rows. */
  lemma SinglePage<T, E>(data: seq<T>, total: int, script: (int, nat) -> Outcome<seq<T>, E>,
                         concurrency: nat, maxRetries: int)
    requires concurrency >= 1 && total <= 1
    ensures var r := FetchAllPagesConcurrent(Ok(PageResponse(data, total)), script, concurrency, maxRetries);
      r.Ok? && r.value.waves == [] && r.value.data == data
  {
    var r := FetchAllPagesConcurrent(Ok(PageResponse(data, total)), script, concurrency, maxRetries);
    assert |Flatten(r.value.waves)| == 0;
    assert data + [] == data;
  }

  /** With the defaults, a later page is tried at most four times, with waits of 1, 2 and 3 seconds. */
  lemma DefaultRetryBudget<T, E>(script: (int, nat) -> Outcome<seq<T>, E>, page: int)
    ensures FetchPage(script, page, DefaultMaxRetries).attempts <= 4
    ensures FetchPage(script, page, DefaultMaxRetries).exhausted ==>
      FetchPage(script, page, DefaultMaxRetries).delays == [1000, 2000, 3000]
  {
  }
}

=== FILE: orders.dfy ===
/** The storefront order as the service reads it (src/shared/interfaces/woocommerce-order.interface.ts),
    reduced to the fields the customer report and the webhook formatters use. A field the code
    tests for truthiness is optional; a field it only reads is plain text. */
module Orders {
  import opened Outcomes

  datatype Billing = Billing(
    firstName: string,
    lastName: string,
    company: Option<string>,
    address1: string,
    address2: string,
    number: string,
    neighborhood: string,
    city: string,
    state: string,
    postcode: string,
    country: string,
    email: Option<string>,
    phone: string,
    cellphone: string,
    persontype: string,
    cpf: string,
    cnpj: string)

  datatype LineItem = LineItem(name: string, sku: string, quantity: int, total: string)

  datatype Order = Order(
    number: string,
    dateCreated: string,
    total: string,
    shippingTax: string,
    customerId: Option<int>,
    billing: Option<Billing>,
    paymentMethod: string,
    paymentMethodTitle: string,
    lineItems: seq<LineItem>)
}

=== FILE: outcomes.dfy ===
/** Failure-carrying values shared by every module of the model. */
module Outcomes {

  /** A value that may be absent: JavaScript `undefined`/`null` versus a present value. */
  datatype Option<+T> = None | Some(value: T) {
    function GetOr(default: T): T {
      match this
      case Some(v) => v
      case None => default
    }
  }

  /** A settled promise: fulfilled with a value or rejected with an error. */
  datatype Outcome<+T, +E> = Ok(value: T) | Err(error: E)
}

=== FILE: payment.dfy ===
/** `proccessPaymentMethod` (src/shared/utils/proccessPaymentMethod.utils.ts): card brand name to
    the ERP's payment-form code, matched without regard to case. */
module PaymentMethod {
  import opened Outcomes
  import opened JsString

  /** The brands the table knows, lower-case, with their codes. */
  const Brands: seq<(string, string)> := [
    ("visa", "CCV"),
    ("mastercard", "CCM"),
    ("american express", "CCA"),
    ("elo", "CCE"),
    ("hipercard", "CCH"),
    ("diners club", "CCD")
  ]

  /** Reference reading of the table: the code listed for `key`, if any. */
  function Lookup(key: string, table: seq<(string, string)>): (r: Option<string>)
    ensures r.Some? <==> exists i :: 0 <= i < |table| && table[i].0 == key
    ensures r.Some? ==> exists i :: 0 <= i < |table| && table[i] == (key, r.value)
    decreases |table|
  {
    if |table| == 0 then None
    else if table[0].0 == key then Some(table[0].1)
    else
      var r := Lookup(key, table[1..]);
      assert forall i :: 1 <= i < |table| ==> table[i] == table[1..][i - 1];
      r
  }

  predicate IsKnownBrand(name: string) {
    exists i :: 0 <= i < |Brands| && Brands[i].0 == ToLower(name)
  }

  /** The `switch` of the source: a known brand gives its code, anything else comes back as given. */
  function ProcessPaymentMethod(name: string): (r: string)
    ensures r == Lookup(ToLower(name), Brands).GetOr(name)
    ensures !IsKnownBrand(name) ==> r == name
    ensures IsKnownBrand(name) ==> |r| == 3 && r[..2] == "CC"
  {
    match ToLower(name)
    case "visa" => "CCV"
    case "mastercard" => "CCM"
    case "american express" => "CCA"
    case "elo" => "CCE"
    case "hipercard" => "CCH"
    case "diners club" => "CCD"
    case _ => name
  }

  /** Each of the six brand names, as listed, yields its code. */
  lemma SixMappings()
    ensures forall i :: 0 <= i < |Brands| ==> ProcessPaymentMethod(Brands[i].0) == Brands[i].1
  {
    forall i | 0 <= i < |Brands| ensures ProcessPaymentMethod(Brands[i].0) == Brands[i].1 {
      LowerCaseUnchanged(Brands[i].0);
    }
  }

  lemma LowerCaseUnchanged(s: string)
    requires forall i :: 0 <= i < |s| ==> !('A' <= s[i] <= 'Z')
    ensures ToLower(s) == s
  {
  }

  /** Spellings that lower-case alike are treated alike. */
  lemma CaseInsensitive(a: string, b: string)
    requires ToLower(a) == ToLower(b) && IsKnownBrand(a)
    ensures ProcessPaymentMethod(a) == ProcessPaymentMethod(b)
  {
  }

  /** Upper-case brand names are recognised. */
  lemma UpperCaseVisa()
    ensures ProcessPaymentMethod("VISA") == "CCV"
  {
    assert ToLower("VISA") == "visa";
  }

  /** So are brand names in mixed case. */
  lemma MixedCaseDiners()
    ensures ProcessPaymentMethod("Diners Club") == "CCD"
  {
    var l := ToLower("Diners Club");
    assert l == "diners club";
    assert |l| == 11 && l[0] == 'd';
  }

  /** An unknown method keeps its original casing. */
  lemma UnknownKeepsCasing()
    ensures ProcessPaymentMethod("Pix") == "Pix"
  {
    var l := ToLower("Pix");
    assert l == "pix";
    assert |l| == 3;
  }
}

=== FILE: retry.dfy ===
/** `retry` (src/shared/utils/retry.utils.ts): calls `fn` up to `retries` times, waiting
    `delay * k` after the k-th failure unless it was the last one.

    A call of `fn` is modelled as a function of a threaded state and the attempt number, so that a
    caller whose attempts depend on what earlier attempts did (a cache, a call log) is covered. */
module RetryExecutor {
  import opened Outcomes
  import opened Seqs

  /** One call of `fn`: how it settled, and the state it leaves for the next call. */
  datatype Step<S, T, E> = Step(outcome: Outcome<T, E>, state: S)

  /** How `retry` settles: with the value of a call, by rethrowing the error of the last call,
      or, when the loop body never ran, with `undefined`. */
  datatype Settled<T, E> = Returned(value: T) | Threw(error: E) | Undefined

  /** The result, the number of calls made, the waits in order, and the final state. */
  datatype RetryRun<S, T, E> = RetryRun(result: Settled<T, E>, calls: nat, delays: seq<int>, state: S)

  /** The state that call number `k` (from 1) sees when the first call sees `s0`. */
  function StateBefore<S, T, E>(fn: (S, nat) -> Step<S, T, E>, s0: S, k: nat): S
    requires k >= 1
    decreases k
  {
    if k == 1 then s0 else fn(StateBefore(fn, s0, k - 1), k - 1).state
  }

  /** Call number `k` (from 1). */
  function CallAt<S, T, E>(fn: (S, nat) -> Step<S, T, E>, s0: S, k: nat): Step<S, T, E>
    requires k >= 1
  {
    fn(StateBefore(fn, s0, k), k)
  }

  /** The loop of `retry` from attempt `attempt` on; `s` is the state that attempt sees. */
  function Loop<S, T, E>(fn: (S, nat) -> Step<S, T, E>, s0: S, s: S, retries: int, delay: int, attempt: nat)
    : (r: RetryRun<S, T, E>)
    requires attempt >= 1 && s == StateBefore(fn, s0, attempt)
    ensures attempt > retries ==> r == RetryRun(Undefined, 0, [], s)
    ensures attempt <= retries ==> 1 <= r.calls <= retries - attempt + 1 && !r.result.Undefined?
    ensures forall k :: attempt <= k < attempt + r.calls - 1 ==> CallAt(fn, s0, k).outcome.Err?
    ensures r.result.Returned? ==> CallAt(fn, s0, attempt + r.calls - 1).outcome == Ok(r.result.value)
    ensures r.result.Threw? ==>
      attempt + r.calls - 1 == retries && CallAt(fn, s0, retries).outcome == Err(r.result.error)
    ensures r.calls >= 1 ==> |r.delays| == r.calls - 1 && r.state == CallAt(fn, s0, attempt + r.calls - 1).state
    ensures forall i :: 0 <= i < |r.delays| ==> r.delays[i] == delay * (attempt + i)
    decreases if attempt <= retries then retries - attempt + 1 else 0
  {
    if attempt > retries then RetryRun(Undefined, 0, [], s)
    else
      var step := fn(s, attempt);
      match step.outcome
      case Ok(v) => RetryRun(Returned(v), 1, [], step.state)
      case Err(e) =>
        if attempt == retries then RetryRun(Threw(e), 1, [], step.state)
        else
          var rest := Loop(fn, s0, step.state, retries, delay, attempt + 1);
          RetryRun(rest.result, rest.calls + 1, [delay * attempt] + rest.delays, rest.state)
  }

  /** `retry(fn, retries, delay)` started in state `s0`. */
  function Retry<S, T, E>(fn: (S, nat) -> Step<S, T, E>, s0: S, retries: int, delay: int): (r: RetryRun<S, T, E>)
    ensures r.result.Undefined? <==> retries < 1
    ensures retries < 1 ==> r.calls == 0 && r.delays == [] && r.state == s0
    ensures retries >= 1 ==> 1 <= r.calls <= retries
    ensures forall k :: 1 <= k < r.calls ==> CallAt(fn, s0, k).outcome.Err?
    ensures r.result.Returned? ==> CallAt(fn, s0, r.calls).outcome == Ok(r.result.value)
    ensures r.result.Threw? ==> r.calls == retries && CallAt(fn, s0, retries).outcome == Err(r.result.error)
    ensures r.calls >= 1 ==> |r.delays| == r.calls - 1 && r.state == CallAt(fn, s0, r.calls).state
    ensures forall i :: 0 <= i < |r.delays| ==> r.delays[i] == delay * (i + 1)
  {
    Loop(fn, s0, s0, retries, delay, 1)
  }

  /** The first successful call ends the loop with its value: calls after it never happen. */
  lemma FirstSuccessWins<S, T, E>(fn: (S, nat) -> Step<S, T, E>, s0: S, retries: int, delay: int, m: nat)
    requires 1 <= m <= retries
    requires CallAt(fn, s0, m).outcome.Ok?
    requires forall k :: 1 <= k < m ==> CallAt(fn, s0, k).outcome.Err?
    ensures Retry(fn, s0, retries, delay).result == Returned(CallAt(fn, s0, m).outcome.value)
    ensures Retry(fn, s0, retries, delay).calls == m
  {
  }

  /** When every call fails, the last call's error is rethrown after exactly `retries` calls. */
  lemma AllFailRethrowsLast<S, T, E>(fn: (S, nat) -> Step<S, T, E>, s0: S, retries: int, delay: int)
    requires retries >= 1
    requires forall k :: 1 <= k <= retries ==> CallAt(fn, s0, k).outcome.Err?
    ensures Retry(fn, s0, retries, delay).result == Threw(CallAt(fn, s0, retries).outcome.error)
    ensures Retry(fn, s0, retries, delay).calls == retries
  {
  }

  /** Waits `d, 2d, ..., n*d` add up to `d * n * (n + 1) / 2`. */
  lemma {:induction false} LinearWaitsTotal(delays: seq<int>, delay: int)
    requires forall i :: 0 <= i < |delays| ==> delays[i] == delay * (i + 1)
    ensures 2 * Sum(delays) == delay * |delays| * (|delays| + 1)
    decreases |delays|
  {
    var n := |delays|;
    if n > 0 {
      var init := delays[..n - 1];
      LinearWaitsTotal(init, delay);
      assert delays == init + [delays[n - 1]];
      SumConcat(init, [delays[n - 1]]);
      assert delay * (n - 1) * n + 2 * (delay * n) == delay * n * (n + 1) by {
        assert delay * (n - 1) * n == delay * n * n - delay * n;
        assert delay * n * (n + 1) == delay * n * n + delay * n;
      }
    }
  }

  /** If call `m` is the first to succeed, `retry` has waited `delay * m * (m - 1) / 2` in total. */
  lemma TotalWaitOnSuccess<S, T, E>(fn: (S, nat) -> Step<S, T, E>, s0: S, retries: int, delay: int, m: nat)
    requires 1 <= m <= retries
    requires CallAt(fn, s0, m).outcome.Ok?
    requires forall k :: 1 <= k < m ==> CallAt(fn, s0, k).outcome.Err?
    ensures 2 * Sum(Retry(fn, s0, retries, delay).delays) == delay * m * (m - 1)
  {
    FirstSuccessWins(fn, s0, retries, delay, m);
    var r := Retry(fn, s0, retries, delay);
    LinearWaitsTotal(r.delays, delay);
    assert |r.delays| == m - 1;
  }

  /** The appending step at one state (the state a call sees is boxed as a generic value). */
  lemma AppendsAt<T, U, E>(fn: (seq<T>, nat) -> Step<seq<T>, U, E>, w: seq<T>, s: seq<T>, k: nat)
    requires forall s, j :: fn(s, j).state == s + w
    ensures fn(s, k).state == s + w
  {
  }

  /** Every call sees the state the previous call left. */
  lemma {:induction false} StatesFollowSteps<T, U, E>(fn: (seq<T>, nat) -> Step<seq<T>, U, E>, s0: seq<T>, w: seq<T>, k: nat)
    requires k >= 1
    requires forall s, j :: fn(s, j).state == s + w
    ensures StateBefore(fn, s0, k) == s0 + Repeat(w, k - 1)
    decreases k
  {
    if k > 1 {
      StatesFollowSteps(fn, s0, w, k - 1);
      var prev := StateBefore(fn, s0, k - 1);
      AppendsAt(fn, w, prev, k - 1);
      assert Repeat(w, k - 1) == Repeat(w, k - 2) + w;
      assert (s0 + Repeat(w, k - 2)) + w == s0 + (Repeat(w, k - 2) + w);
    }
  }

  /** When every call appends the same entries `w` to a log, `retry` leaves the log it started
      with followed by one copy of `w` per call made. */
  lemma RetryAppends<T, U, E>(fn: (seq<T>, nat) -> Step<seq<T>, U, E>, s0: seq<T>, retries: int, delay: int, w: seq<T>)
    requires forall s, k :: fn(s, k).state == s + w
    ensures Retry(fn, s0, retries, delay).state == s0 + Repeat(w, Retry(fn, s0, retries, delay).calls)
  {
    var r := Retry(fn, s0, retries, delay);
    if r.calls >= 1 {
      StatesFollowSteps(fn, s0, w, r.calls);
      var prev := StateBefore(fn, s0, r.calls);
      AppendsAt(fn, w, prev, r.calls);
      assert Repeat(w, r.calls) == Repeat(w, r.calls - 1) + w;
      assert (s0 + Repeat(w, r.calls - 1)) + w == s0 + (Repeat(w, r.calls - 1) + w);
    }
  }

  /** A property of the state that every call preserves holds when every call is done. */
  lemma {:induction false} StatesKeep<S, T, E>(fn: (S, nat) -> Step<S, T, E>, s0: S, inv: S -> bool, k: nat)
    requires k >= 1
    requires inv(s0) && forall s, j :: inv(s) ==> inv(fn(s, j).state)
    ensures inv(StateBefore(fn, s0, k))
    decreases k
  {
    if k > 1 {
      StatesKeep(fn, s0, inv, k - 1);
    }
  }

  lemma RetryPreserves<S, T, E>(fn: (S, nat) -> Step<S, T, E>, s0: S, retries: int, delay: int, inv: S -> bool)
    requires inv(s0) && forall s, k :: inv(s) ==> inv(fn(s, k).state)
    ensures inv(Retry(fn, s0, retries, delay).state)
  {
    var r := Retry(fn, s0, retries, delay);
    if r.calls >= 1 {
      StatesKeep(fn, s0, inv, r.calls);
    }
  }
}

=== FILE: seqs.dfy ===
/** Generic sequence helpers: filtering, flattening, summing, subsequences. */
module Seqs {

  /** `a` can be obtained from `b` by deleting elements (order is kept). */
  ghost predicate SubsequenceOf<T>(a: seq<T>, b: seq<T>)
    decreases |b|
  {
    if |a| == 0 then true
    else if |b| == 0 then false
    else if a[0] == b[0] then SubsequenceOf(a[1..], b[1..])
    else SubsequenceOf(a, b[1..])
  }

  /** The elements of `s` satisfying `p`, in their original order (`Array.prototype.filter`). */
  function Filter<T>(p: T -> bool, s: seq<T>): (r: seq<T>)
    ensures |r| <= |s|
    ensures forall i :: 0 <= i < |r| ==> p(r[i])
    decreases |s|
  {
    if |s| == 0 then []
    else if p(s[0]) then [s[0]] + Filter(p, s[1..])
    else Filter(p, s[1..])
  }

  /** An element is kept exactly when it occurs in `s` and satisfies `p`. */
  lemma {:induction false} FilterMembership<T>(p: T -> bool, s: seq<T>, x: T)
    ensures x in Filter(p, s) <==> x in s && p(x)
    decreases |s|
  {
    if |s| > 0 {
      FilterMembership(p, s[1..], x);
      assert s == [s[0]] + s[1..];
    }
  }

  lemma {:induction false} FilterIsSubsequence<T>(p: T -> bool, s: seq<T>)
    ensures SubsequenceOf(Filter(p, s), s)
    decreases |s|
  {
    if |s| > 0 {
      FilterIsSubsequence(p, s[1..]);
      var f := Filter(p, s[1..]);
      if p(s[0]) {
        assert Filter(p, s) == [s[0]] + f;
        assert ([s[0]] + f)[1..] == f;
      } else {
        SubsequenceDropHead(f, s);
      }
    }
  }

  /** Skipping the head of `b` keeps a subsequence a subsequence. */
  lemma {:induction false} SubsequenceDropHead<T>(a: seq<T>, b: seq<T>)
    requires |b| > 0 && SubsequenceOf(a, b[1..])
    ensures SubsequenceOf(a, b)
    decreases |b|, |a|
  {
    if |a| > 0 && a[0] == b[0] {
      // a[1..] is a subsequence of b[1..] because a is.
      SubsequenceTail(a, b[1..]);
    }
  }

  lemma {:induction false} SubsequenceTail<T>(a: seq<T>, b: seq<T>)
    requires |a| > 0 && SubsequenceOf(a, b)
    ensures SubsequenceOf(a[1..], b)
    decreases |b|, |a|
  {
    assert |b| > 0;
    if a[0] == b[0] {
      SubsequenceDropHead(a[1..], b);
    } else {
      SubsequenceTail(a, b[1..]);
      SubsequenceDropHead(a[1..], b);
    }
  }

  lemma {:induction false} FilterConcat<T>(p: T -> bool, a: seq<T>, b: seq<T>)
    ensures Filter(p, a + b) == Filter(p, a) + Filter(p, b)
    decreases |a|
  {
    if |a| > 0 {
      assert (a + b)[0] == a[0];
      assert (a + b)[1..] == a[1..] + b;
      FilterConcat(p, a[1..], b);
    } else {
      assert a + b == b;
    }
  }

  /** Filtering keeps everything exactly when every element satisfies the predicate. */
  lemma {:induction false} FilterKeepsAll<T>(p: T -> bool, s: seq<T>)
    ensures Filter(p, s) == s <==> forall i :: 0 <= i < |s| ==> p(s[i])
    decreases |s|
  {
    if |s| > 0 {
      FilterKeepsAll(p, s[1..]);
      if !p(s[0]) {
        assert |Filter(p, s)| <= |s[1..]| < |s|;
      } else {
        assert forall i :: 1 <= i < |s| ==> s[i] == s[1..][i - 1];
      }
    }
  }

  lemma {:induction false} FilterDropsAll<T>(p: T -> bool, s: seq<T>)
    requires forall i :: 0 <= i < |s| ==> !p(s[i])
    ensures Filter(p, s) == []
    decreases |s|
  {
    if |s| > 0 {
      FilterDropsAll(p, s[1..]);
    }
  }

  /** Filtering by `p` and by its negation splits `s` into two parts that together hold every element. */
  lemma {:induction false} FilterSplit<T>(p: T -> bool, q: T -> bool, s: seq<T>)
    requires forall x :: q(x) == !p(x)
    ensures multiset(Filter(p, s)) + multiset(Filter(q, s)) == multiset(s)
    ensures |Filter(p, s)| + |Filter(q, s)| == |s|
    decreases |s|
  {
    if |s| > 0 {
      FilterSplit(p, q, s[1..]);
      assert s == [s[0]] + s[1..];
    }
  }

  /** Concatenation of a sequence of sequences (`flat()`). */
  function Flatten<T>(ss: seq<seq<T>>): seq<T>
    decreases |ss|
  {
    if |ss| == 0 then [] else ss[0] + Flatten(ss[1..])
  }

  lemma {:induction false} FlattenConcat<T>(a: seq<seq<T>>, b: seq<seq<T>>)
    ensures Flatten(a + b) == Flatten(a) + Flatten(b)
    decreases |a|
  {
    if |a| > 0 {
      assert (a + b)[0] == a[0];
      assert (a + b)[1..] == a[1..] + b;
      FlattenConcat(a[1..], b);
      assert Flatten(a + b) == a[0] + Flatten(a[1..] + b);
    } else {
      assert a + b == b;
    }
  }

  function Sum(s: seq<int>): int
    decreases |s|
  {
    if |s| == 0 then 0 else s[0] + Sum(s[1..])
  }

  lemma {:induction false} SumConcat(a: seq<int>, b: seq<int>)
    ensures Sum(a + b) == Sum(a) + Sum(b)
    decreases |a|
  {
    if |a| > 0 {
      assert (a + b)[0] == a[0];
      assert (a + b)[1..] == a[1..] + b;
      SumConcat(a[1..], b);
    } else {
      assert a + b == b;
    }
  }

  /** The integers `lo, lo+1, ..., hi` (empty when `hi < lo`). */
  function Range(lo: int, hi: int): (r: seq<int>)
    ensures |r| == if hi < lo then 0 else hi - lo + 1
    ensures forall i :: 0 <= i < |r| ==> r[i] == lo + i
    decreases hi - lo
  {
    if hi < lo then [] else [lo] + Range(lo + 1, hi)
  }

  /** `Array.prototype.slice`'s reading of a possibly negative index against a length. */
  function SliceIndex(i: int, len: nat): (r: nat)
    ensures r <= len
  {
    if i < 0 then (if len + i < 0 then 0 else len + i)
    else if i > len then len
    else i
  }

  /** `s.slice(start, end)`: negative indexes count from the end, out-of-range ones are clamped. */
  function JsSlice<T>(s: seq<T>, start: int, end: int): (r: seq<T>)
    ensures 0 <= start <= end ==> |r| <= end - start
    ensures 0 <= start ==> forall i :: 0 <= i < |r| ==> start + i < |s| && r[i] == s[start + i]
    ensures 0 <= start <= end <= |s| ==> r == s[start..end]
    ensures 0 <= start <= |s| <= end ==> r == s[start..]
  {
    var a := SliceIndex(start, |s|);
    var b := SliceIndex(end, |s|);
    if b <= a then [] else s[a..b]
  }

  /** The keys of a `Map` fed the keys `ids` in order: each key once, where it first appears. */
  function FirstAppearances<K(==,!new)>(ids: seq<K>): (r: seq<K>)
    ensures forall i, j :: 0 <= i < j < |r| ==> r[i] != r[j]
    ensures forall x :: x in r <==> x in ids
    decreases |ids|
  {
    if |ids| == 0 then []
    else
      var n := |ids| - 1;
      var r := FirstAppearances(ids[..n]);
      assert ids == ids[..n] + [ids[n]];
      if ids[n] in ids[..n] then r else r + [ids[n]]
  }

  /** `r` lists keys in the order they first occur in `ids`: wherever a later key of `r` occurs in
      `ids`, every earlier key of `r` has already occurred. */
  ghost predicate InFirstAppearanceOrder<K(!new)>(r: seq<K>, ids: seq<K>) {
    forall i, j, q :: 0 <= i < j < |r| && 0 <= q < |ids| && ids[q] == r[j] ==> r[i] in ids[..q]
  }

  /** Map keys come out in the order in which the ids first appear. */
  lemma {:induction false} FirstAppearanceOrder<K(!new)>(ids: seq<K>)
    ensures InFirstAppearanceOrder(FirstAppearances(ids), ids)
    decreases |ids|
  {
    if |ids| > 0 {
      var n := |ids| - 1;
      var p := ids[..n];
      FirstAppearanceOrder(p);
      var r := FirstAppearances(ids);
      var rp := FirstAppearances(p);
      assert ids == p + [ids[n]];
      forall i, j, q | 0 <= i < j < |r| && 0 <= q < |ids| && ids[q] == r[j] ensures r[i] in ids[..q] {
        if ids[n] in p {
          assert r == rp;
        } else {
          assert r == rp + [ids[n]];
        }
        assert r[i] == rp[i] && rp[i] in p;
        if q == n {
          assert ids[..q] == p;
        } else {
          assert ids[..q] == p[..q] && p[q] == ids[q];
          if j < |rp| {
            assert r[j] == rp[j] && p[q] == rp[j];
            assert InFirstAppearanceOrder(rp, p);
            assert rp[i] in p[..q];
          }
        }
      }
    }
  }

  /** `w` written `n` times in a row. */
  function Repeat<T>(w: seq<T>, n: nat): (r: seq<T>)
    ensures |r| == n * |w|
  {
    if n == 0 then [] else Repeat(w, n - 1) + w
  }
}

=== FILE: sku.dfy ===
/** `normalizeSku` (src/shared/utils/normalizeSku.utils.ts): the join key between storefront SKUs
    and ERP product codes in the normalised revision of the sync. */
module SkuNormalizer {
  import opened Outcomes
  import opened Seqs
  import opened JsString

  predicate IsWordOrSpace(c: char) {
    IsWordChar(c) || IsSpace(c)
  }

  /** The reference reading of a normalised SKU: the `\w` characters of `s`, in order. */
  function WordChars(s: string): string {
    Filter(IsWordChar, s)
  }

  /** `replace(/[^\w\s]/gi, '')`: every character that is neither a word character nor white space goes. */
  function StripSpecials(s: string): string {
    Filter(IsWordOrSpace, s)
  }

  /** `replace(/\s+/g, '')`: every run of white space, so every white-space character, goes. */
  function StripSpaces(s: string): string {
    Filter(IsNotSpace, s)
  }

  /** `normalizeSku`: falsy input gives `''`; otherwise trim, strip specials, strip white space.
      Its result is exactly the word characters of the input, in their original order. */
  function NormalizeSku(sku: Option<string>): (r: string)
    ensures !Truthy(sku) ==> r == ""
    ensures r == WordChars(Text(sku))
    ensures forall i :: 0 <= i < |r| ==> IsWordChar(r[i])
    ensures SubsequenceOf(r, Text(sku))
  {
    FilterIsSubsequence(IsWordChar, Text(sku));
    if !Truthy(sku) then ""
    else
      var t := Trim(sku.value);
      StripComposition(t);
      TrimKeepsWordChars(sku.value);
      StripSpaces(StripSpecials(t))
  }

  /** The two regular-expression passes together keep exactly the word characters. */
  lemma {:induction false} StripComposition(s: string)
    ensures StripSpaces(StripSpecials(s)) == WordChars(s)
    decreases |s|
  {
    if |s| > 0 {
      StripComposition(s[1..]);
      if IsWordOrSpace(s[0]) {
        assert StripSpecials(s) == [s[0]] + StripSpecials(s[1..]);
        assert ([s[0]] + StripSpecials(s[1..]))[1..] == StripSpecials(s[1..]);
      }
    }
  }

  /** Trimming removes only white space, which holds no word character. */
  lemma TrimKeepsWordChars(s: string)
    ensures WordChars(Trim(s)) == WordChars(s)
  {
    var k := TrimOffset(s);
    WordCharsIgnoreSpaces(s, k, k + |Trim(s)|);
  }

  /** White space around `s[lo..hi]` adds no word character. */
  lemma WordCharsIgnoreSpaces(s: string, lo: nat, hi: nat)
    requires lo <= hi <= |s|
    requires forall i :: 0 <= i < lo ==> IsSpace(s[i])
    requires forall i :: hi <= i < |s| ==> IsSpace(s[i])
    ensures WordChars(s) == WordChars(s[lo..hi])
  {
    var pre, t, post := s[..lo], s[lo..hi], s[hi..];
    assert s == pre + t + post;
    assert forall i :: 0 <= i < |post| ==> IsSpace(post[i]) by {
      forall i | 0 <= i < |post| ensures IsSpace(post[i]) {
        assert post[i] == s[hi + i];
      }
    }
    SpacesHaveNoWordChars(pre);
    SpacesHaveNoWordChars(post);
    FilterConcat(IsWordChar, pre + t, post);
    FilterConcat(IsWordChar, pre, t);
  }

  lemma SpacesHaveNoWordChars(s: string)
    requires forall i :: 0 <= i < |s| ==> IsSpace(s[i])
    ensures WordChars(s) == []
  {
    forall i | 0 <= i < |s| ensures !IsWordChar(s[i]) {
      SpaceIsNotWord(s[i]);
    }
    FilterDropsAll(IsWordChar, s);
  }

  lemma SpaceIsNotWord(c: char)
    ensures IsSpace(c) ==> !IsWordChar(c)
  {
  }

  /** Normalising twice is normalising once. */
  lemma Idempotent(sku: Option<string>)
    ensures NormalizeSku(Some(NormalizeSku(sku))) == NormalizeSku(sku)
  {
    var r := NormalizeSku(sku);
    FilterKeepsAll(IsWordChar, r);
  }

  /** A string is left unchanged exactly when it consists of word characters only. */
  lemma FixedPoint(s: string)
    ensures NormalizeSku(Some(s)) == s <==> forall i :: 0 <= i < |s| ==> IsWordChar(s[i])
  {
    FilterKeepsAll(IsWordChar, s);
  }

  /** The leading `trim` is redundant. */
  lemma TrimRedundant(s: string)
    ensures NormalizeSku(Some(Trim(s))) == NormalizeSku(Some(s))
  {
    TrimKeepsWordChars(s);
  }

  /** `String(codprod)` of a numeric product code is already normalised, and is its own trim. */
  lemma DecimalCodeIsNormal(n: nat)
    ensures NormalizeSku(Some(Decimal(n))) == Decimal(n)
    ensures Trim(Decimal(n)) == Decimal(n)
  {
    var d := Decimal(n);
    assert forall i :: 0 <= i < |d| ==> IsDigit(d[i]);
    DigitsAreNormal(d);
  }

  lemma DigitsAreNormal(s: string)
    requires forall i :: 0 <= i < |s| ==> IsDigit(s[i])
    ensures NormalizeSku(Some(s)) == s && Trim(s) == s
  {
    assert forall i :: 0 <= i < |s| ==> IsWordChar(s[i]) && !IsSpace(s[i]);
    FixedPoint(s);
    TrimWithoutSpaces(s);
  }

  /** Case is kept and the underscore survives: `"ab-C_1 "` normalises to `"abC_1"`. */
  lemma KeepsCaseAndUnderscore()
    ensures NormalizeSku(Some("ab-C_1 ")) == "abC_1"
  {
    assert WordChars(" ") == [];
    assert WordChars("1 ") == "1";
    assert WordChars("_1 ") == "_1";
    assert WordChars("C_1 ") == "C_1";
    assert WordChars("-C_1 ") == "C_1";
    assert WordChars("b-C_1 ") == "bC_1";
    assert WordChars("ab-C_1 ") == "abC_1";
  }

}

=== FILE: sync_common.dfy ===
/** What both revisions of the product sync (src/modules/sync/sync.service.ts and its compiled
    revision dist/modules/sync/sync.service.js) share: the storefront as seen by the pass, the
    calls the pass makes, the per-item record, and the delete batch, which is the same in both. */
module SyncCommon {
  import opened Outcomes
  import opened Seqs
  import opened Catalog
  import opened WooPayload
  import opened WooCatalog
  import opened RetryExecutor
  import opened BatchRunner

  /** The body of a failed storefront response: `response.data.code` and `response.data.unique_sku`. */
  datatype ApiError = ApiError(code: Option<string>, uniqueSku: Option<string>)

  /** A failed attempt: the storefront rejected a call, or the payload builder read the price of
      a missing price row before any call was made. */
  datatype SyncError = Rejected(error: ApiError) | TypeError

  /** A request the pass sends to the storefront. */
  datatype Call =
    | CreateCall(body: Payload)
    | UpdateCall(id: int, body: Payload)
    | DeleteCall(id: int)
    | LookupCall(sku: string)

  /** The storefront: its answer to a call, given every call the pass made before it. A write's
      answer carries no products; a lookup's answer is the product list. */
  type Storefront = (seq<Call>, Call) -> Outcome<seq<WcProduct>, ApiError>

  /** `retry(fn)` with its defaults, and `processBatch(items, fn)` with its default chunk size. */
  const Retries: int := 3
  const RetryDelay: int := 1000
  const ChunkSize: nat := 10

  /** What happened to one item of a batch: skipped before any call, or run under `retry` with
      this many attempts, these waits, and whether the last error was logged and dropped. */
  datatype Handled = Skipped | Ran(attempts: nat, delays: seq<int>, gaveUp: bool)

  /** The record of a `retry` run as an item's outcome. */
  function HandledBy<S, T>(r: RetryRun<S, T, SyncError>): (h: Handled)
    ensures h.Ran? && h.attempts == r.calls && h.delays == r.delays
    ensures h.gaveUp <==> r.result.Threw?
  {
    Ran(r.calls, r.delays, r.result.Threw?)
  }

  /** `log` extends `before` with calls that all satisfy `p`. */
  predicate ExtendsWith(log: seq<Call>, before: seq<Call>, p: Call -> bool) {
    |log| >= |before| && log[..|before|] == before && forall j :: |before| <= j < |log| ==> p(log[j])
  }

  /** One attempt of a handler whose only work is one storefront write `c`. */
  function WriteStep(store: Storefront, c: Call, log: seq<Call>): (s: Step<seq<Call>, (), SyncError>)
    ensures s.state == log + [c]
    ensures s.outcome.Ok? <==> store(log, c).Ok?
  {
    match store(log, c)
    case Ok(_) => Step(Ok(()), log + [c])
    case Err(e) => Step(Err(Rejected(e)), log + [c])
  }

  /** The log attempt `k` (from 1) of a repeated write `c` is answered against. */
  function SeenBy(log: seq<Call>, c: Call, k: nat): seq<Call>
    requires k >= 1
  {
    log + Repeat([c], k - 1)
  }

  /** `retry(() => write c)`: the write is repeated until the storefront accepts it, at most
      `Retries` times; attempt `k` is answered with the log holding `k - 1` earlier copies. */
  function WriteOne(store: Storefront, c: Call, log: seq<Call>): (r: RetryRun<seq<Call>, (), SyncError>)
    ensures 1 <= r.calls <= Retries && r.state == log + Repeat([c], r.calls)
    ensures forall k :: 1 <= k < r.calls ==> store(SeenBy(log, c, k), c).Err?
    ensures r.result.Returned? <==> store(SeenBy(log, c, r.calls), c).Ok?
    ensures r.result.Threw? ==> r.calls == Retries
    ensures |r.delays| == r.calls - 1 && forall i :: 0 <= i < |r.delays| ==> r.delays[i] == RetryDelay * (i + 1)
  {
    var fn := (s: seq<Call>, k: nat) => WriteStep(store, c, s);
    var r := Retry(fn, log, Retries, RetryDelay);
    RetryAppends(fn, log, Retries, RetryDelay, [c]);
    forall k | 1 <= k <= r.calls ensures fn(StateBefore(fn, log, k), k).outcome.Ok? <==> store(SeenBy(log, c, k), c).Ok? {
      StatesFollowSteps(fn, log, [c], k);
    }
    r
  }

  /** The calls that are writes of each kind. */
  predicate IsCreate(c: Call) { c.CreateCall? }
  predicate IsUpdate(c: Call) { c.UpdateCall? }
  predicate IsDelete(c: Call) { c.DeleteCall? }

  /** One attempt of the delete handler: `deleteProduct` swallows the storefront's answer. */
  function DeleteStep(store: Storefront, id: int, log: seq<Call>): (s: Step<seq<Call>, (), SyncError>)
    ensures s.outcome.Ok? && s.state == log + [DeleteCall(id)]
  {
    var answer := store(log, DeleteCall(id));
    match DeleteProduct(answer)
    case Ok(_) => Step(Ok(()), log + [DeleteCall(id)])
    case Err(e) => Step(Err(Rejected(e)), log + [DeleteCall(id)])
  }

  /** The delete handler for one storefront product: `retry(() => deleteProduct(product.id))`. */
  function DeleteOne(store: Storefront, p: WcProduct, log: seq<Call>): (r: RetryRun<seq<Call>, (), SyncError>)
    ensures r.result.Returned? && r.calls == 1 && r.delays == []
    ensures r.state == log + [DeleteCall(p.id)]
  {
    var fn := (s: seq<Call>, k: nat) => DeleteStep(store, p.id, s);
    var r := Retry(fn, log, Retries, RetryDelay);
    assert CallAt(fn, log, 1).outcome.Ok?;
    FirstSuccessWins(fn, log, Retries, RetryDelay, 1);
    r
  }

  /** `deleteProductsBatch`: one `DELETE` per product, in list order, none retried. */
  function DeleteBatch(store: Storefront, products: seq<WcProduct>, log: seq<Call>)
    : (r: (seq<Call>, seq<Handled>))
    ensures r.0 == log + DeleteCalls(products)
    ensures |r.1| == |products| && forall i :: 0 <= i < |r.1| ==> r.1[i] == Ran(1, [], false)
    decreases |products|
  {
    if |products| == 0 then (log, [])
    else
      var one := DeleteOne(store, products[0], log);
      var rest := DeleteBatch(store, products[1..], one.state);
      (rest.0, [HandledBy(one)] + rest.1)
  }

  /** Reference: the delete calls for `products`, one each, in order. */
  function DeleteCalls(products: seq<WcProduct>): (r: seq<Call>)
    ensures |r| == |products| && forall i :: 0 <= i < |r| ==> r[i] == DeleteCall(products[i].id)
  {
    seq(|products|, i requires 0 <= i < |products| => DeleteCall(products[i].id))
  }

  /** An item handler that never rejects lets `processBatch` hand every item to it, once each and
      in list order: the batch is the in-order run of the handler over the items. */
  lemma HandlerNeverRejects<T>(items: seq<T>, fn: T -> Outcome<(), SyncError>)
    requires forall x :: fn(x).Ok?
    ensures ProcessBatch(items, fn, ChunkSize) == BatchRun(items, Ok(()))
  {
    assert forall i :: 0 <= i < |items| ==> fn(items[i]).Ok?;
    var r := ProcessBatch(items, fn, ChunkSize);
    assert r.result.Ok? && r.invoked == items;
    var u: () := r.result.value;
    assert u == ();
  }

  /** Appending one more decided item keeps "item `i` ran exactly when `want` holds of it". */
  lemma RanExactlyAppend<T>(xs: seq<T>, hs: seq<Handled>, x: T, h: Handled, want: T -> bool)
    requires |hs| == |xs| && forall i :: 0 <= i < |xs| ==> (hs[i].Ran? <==> want(xs[i]))
    requires h.Ran? <==> want(x)
    ensures forall i :: 0 <= i <= |xs| ==> ((hs + [h])[i].Ran? <==> want((xs + [x])[i]))
  {
  }

  /** The lists `syncProducts` builds: ERP products to create, ERP products to update, storefront
      products to delete. */
  datatype Plan = Plan(create: seq<ErpProduct>, update: seq<ErpProduct>, delete: seq<WcProduct>)

  /** `omniaStockMap.get(sku) ?? 0`. */
  function StockFor(stock: map<string, real>, sku: string): real {
    if sku in stock then stock[sku] else 0.0
  }

  /** `omniaPriceMap.get(sku)`. */
  function PriceFor(prices: map<string, PriceRow>, sku: string): Option<PriceRow> {
    if sku in prices then Some(prices[sku]) else None
  }

  /** The state of a batch: the calls made so far, `seenSkus`, and what happened to each item. */
  datatype Pass = Pass(log: seq<Call>, seen: set<string>, handled: seq<Handled>)

  /** The phase a call belongs to: creations, then updates, then deletions. */
  function Phase(c: Call): nat {
    match c
    case CreateCall(_) => 0
    case UpdateCall(_, _) => 1
    case DeleteCall(_) => 2
    case LookupCall(_) => 3
  }

  /** The batches are awaited one after another: `calls` extends `log`, and in what was added no
      update comes before a creation and no deletion before an update or a creation. */
  predicate PhasesInOrder(log: seq<Call>, calls: seq<Call>) {
    |log| <= |calls| && calls[..|log|] == log &&
    forall i, j :: |log| <= i < j < |calls| ==> Phase(calls[i]) <= Phase(calls[j])
  }

  /** Creations, then updates, then deletions, appended to `log`, are in phase order. */
  lemma PhasedLog(log: seq<Call>, created: seq<Call>, updated: seq<Call>, deletes: seq<Call>)
    requires ExtendsWith(created, log, IsCreate) && ExtendsWith(updated, created, IsUpdate)
    requires forall j :: 0 <= j < |deletes| ==> deletes[j].DeleteCall?
    ensures PhasesInOrder(log, updated + deletes)
  {
    var calls := updated + deletes;
    var a := |created|;
    var b := |updated|;
    forall k | |log| <= k < |calls|
      ensures Phase(calls[k]) == (if k < a then 0 else if k < b then 1 else 2)
    {
      if k < a {
        assert calls[k] == updated[..a][k] == created[k];
      } else if k < b {
        assert calls[k] == updated[k];
      } else {
        assert calls[k] == deletes[k - b];
      }
    }
    assert calls[..|log|] == updated[..a][..|log|];
  }

  /** Copies of one call are that call. */
  lemma {:induction false} RepeatOnly(c: Call, n: nat)
    ensures forall j :: 0 <= j < |Repeat([c], n)| ==> Repeat([c], n)[j] == c
  {
    if n > 0 {
      RepeatOnly(c, n - 1);
    }
  }

  /** Appending one more call of the kind keeps an extension. */
  lemma ExtendsOne(a: seq<Call>, b: seq<Call>, c: Call, p: Call -> bool)
    requires ExtendsWith(b, a, p) && p(c)
    ensures ExtendsWith(b + [c], a, p)
  {
    assert (b + [c])[..|a|] == b[..|a|];
  }

  /** Extending an extension with the same kind of call is an extension. */
  lemma ExtendsTrans(a: seq<Call>, b: seq<Call>, c: seq<Call>, p: Call -> bool)
    requires ExtendsWith(a, b, p) && ExtendsWith(b, c, p)
    ensures ExtendsWith(a, c, p)
  {
    assert a[..|c|] == a[..|b|][..|c|];
  }

  /** Whether `updateProductsBatch` finds a change: the storefront's stock differs from the floored
      ERP stock, or its regular price from `pvenda` (both prices in cents, so `toFixed(2)` is the
      identity). The wholesale tier is not compared. */
  predicate NeedsUpdate(wc: WcProduct, qty: int, price: PriceRow) {
    wc.stockQuantity != qty || wc.regularPrice != price.pvenda
  }

  /** `Math.floor(omniaStockMap.get(sku) ?? 0)`. */
  function UpdateQty(stock: map<string, real>, sku: string): int {
    StockFor(stock, sku).Floor
  }

  /** The storefront product once an update body has been applied to it. */
  function Applied(wc: WcProduct, body: Payload): WcProduct {
    wc.(stockQuantity := body.stockQuantity, regularPrice := body.regularPrice)
  }

  /** The update body converges: applied to the product, it leaves nothing to update, and it
      changes the product exactly when a change was detected. */
  lemma UpdateConverges(wc: WcProduct, p: ErpProduct, qty: int, price: PriceRow)
    ensures var body := UpdatePayload(p, StockArg(Some(qty as real)), price);
      !NeedsUpdate(Applied(wc, body), qty, price) && (NeedsUpdate(wc, qty, price) <==> Applied(wc, body) != wc)
  {
  }
}

=== FILE: sync_dist.dfy ===
/** `SyncService.syncProducts` and its batches as compiled in dist/modules/sync/sync.service.js:
    keys go through `normalizeSku`, a creation the storefront refuses as a duplicate SKU is turned
    into an update, and SKUs that could not be resolved are remembered in `failedSkus`. */
module SyncDist {
  import opened Outcomes
  import opened Seqs
  import opened JsString
  import opened SkuNormalizer
  import opened Catalog
  import opened WooPayload
  import opened WooCatalog
  import opened RetryExecutor
  import opened SyncCommon

  /** `normalizeSku(p.sku)`: the storefront side's key. */
  function WcKey(p: WcProduct): string {
    NormalizeSku(p.sku)
  }

  /** `normalizeSku(String(p.codprod))`, and `String(p.codprod).trim()` in the update batch: a
      decimal rendering is already normalised and holds no white space, so both are the code
      itself (`ErpKeyIsNormalized`). */
  function ErpKey(p: ErpProduct): string {
    CodeKey(p.codprod)
  }

  lemma ErpKeyIsNormalized(p: ErpProduct)
    ensures ErpKey(p) == NormalizeSku(Some(CodeKey(p.codprod)))
    ensures ErpKey(p) == Trim(CodeKey(p.codprod))
  {
    DecimalCodeIsNormal(p.codprod);
  }

  /** `wcProductMap` as first built: the storefront products with a SKU, by normalised key, a later
      product replacing an earlier one. Its key set is `wcSkus`. */
  function WcMap(wc: seq<WcProduct>): (m: map<string, WcProduct>)
    ensures forall k :: k in m <==> k in KeysOf(Filter(HasSku, wc), WcKey)
  {
    LastWins(Filter(HasSku, wc), WcKey)
  }

  /** The tests of the categorisation step: an ERP product whose key is not, or is, a storefront
      key; a storefront product with a SKU whose key is no ERP key. */
  function IsNew(m: map<string, WcProduct>): ErpProduct -> bool {
    p => ErpKey(p) !in m
  }

  function IsKnown(m: map<string, WcProduct>): ErpProduct -> bool {
    p => ErpKey(p) in m
  }

  function Gone(codes: seq<string>): WcProduct -> bool {
    p => HasSku(p) && WcKey(p) !in codes
  }

  /** The categorisation step: ERP products whose key is a storefront key are updated, the others
      created; storefront products with a SKU that matches no ERP key are deleted. */
  function PlanSync(wc: seq<WcProduct>, erp: seq<ErpProduct>): (r: Plan)
    ensures forall i :: 0 <= i < |r.create| ==> ErpKey(r.create[i]) !in WcMap(wc)
    ensures forall i :: 0 <= i < |r.update| ==> ErpKey(r.update[i]) in WcMap(wc)
    ensures forall i :: 0 <= i < |r.delete| ==> HasSku(r.delete[i]) && WcKey(r.delete[i]) !in KeysOf(erp, ErpKey)
  {
    var m := WcMap(wc);
    var codes := KeysOf(erp, ErpKey);
    Plan(Filter(IsNew(m), erp), Filter(IsKnown(m), erp), Filter(Gone(codes), wc))
  }

  /** Every ERP product goes to creation exactly when its normalised key is no storefront key, and
      to update exactly when it is one; a storefront product is deleted exactly when it has a SKU
      whose normalised form is no ERP key. */
  lemma PlanMembership(wc: seq<WcProduct>, erp: seq<ErpProduct>, p: ErpProduct, q: WcProduct)
    ensures p in PlanSync(wc, erp).create <==> p in erp && ErpKey(p) !in WcMap(wc)
    ensures p in PlanSync(wc, erp).update <==> p in erp && ErpKey(p) in WcMap(wc)
    ensures q in PlanSync(wc, erp).delete <==> q in wc && HasSku(q) && WcKey(q) !in KeysOf(erp, ErpKey)
  {
    var m := WcMap(wc);
    var codes := KeysOf(erp, ErpKey);
    FilterMembership(IsNew(m), erp, p);
    FilterMembership(IsKnown(m), erp, p);
    FilterMembership(Gone(codes), wc, q);
  }

  /** Creation and update split the ERP products. */
  lemma PlanPartitions(wc: seq<WcProduct>, erp: seq<ErpProduct>)
    ensures var r := PlanSync(wc, erp);
      multiset(r.create) + multiset(r.update) == multiset(erp) && |r.create| + |r.update| == |erp|
  {
    var m := WcMap(wc);
    FilterSplit(IsNew(m), IsKnown(m), erp);
  }

  /** The two refusal codes the create handler treats as "this SKU already exists". */
  predicate IsConflict(e: ApiError) {
    e.code == Some("product_invalid_sku") || e.code == Some("woocommerce_rest_product_not_created")
  }

  /** What the attempts of one create handler share: the call log, `wcProductMap` (which a lookup
      fills in) and `failedSkus`. */
  datatype Attempt = Attempt(log: seq<Call>, cache: map<string, WcProduct>, failed: set<string>)

  /** `after` is `before` with at most `sku` added. */
  predicate CacheGrowsAt(before: map<string, WcProduct>, after: map<string, WcProduct>, sku: string) {
    && (forall k :: k in before ==> k in after && after[k] == before[k])
    && (forall k :: k in after ==> k in before || k == sku)
  }

  /** Neither a create call nor a lookup nor an update is a deletion. */
  predicate NotDelete(c: Call) { !c.DeleteCall? }

  /** Finding the existing product after a conflict: `wcProductMap.get(sku)`, else, when the error
      names a `unique_sku`, `getProductBySku(uniqueSku)`, whose product is cached under `sku`. */
  function Resolve(store: Storefront, sku: string, e: ApiError, s: Attempt): (r: (Option<WcProduct>, Attempt))
    ensures sku in s.cache ==> r == (Some(s.cache[sku]), s)
    ensures sku !in s.cache && !Truthy(e.uniqueSku) ==> r == (None, s)
    ensures sku !in s.cache && Truthy(e.uniqueSku) ==>
      r.1.log == s.log + [LookupCall(e.uniqueSku.value)] && r.1.failed == s.failed
    ensures sku !in s.cache && Truthy(e.uniqueSku) ==>
      (r.0.Some? <==> store(s.log, LookupCall(e.uniqueSku.value)).Ok? && |store(s.log, LookupCall(e.uniqueSku.value)).value| > 0)
    ensures sku !in s.cache && Truthy(e.uniqueSku) && r.0.Some? ==>
      r.0.value == store(s.log, LookupCall(e.uniqueSku.value)).value[0]
    ensures r.0.Some? ==> sku in r.1.cache && r.1.cache[sku] == r.0.value
    ensures CacheGrowsAt(s.cache, r.1.cache, sku)
    ensures ExtendsWith(r.1.log, s.log, NotDelete)
  {
    if sku in s.cache then (Some(s.cache[sku]), s)
    else if Truthy(e.uniqueSku) then
      var u := e.uniqueSku.value;
      var look := GetProductBySku(u, store(s.log, LookupCall(u)));
      var s1 := s.(log := s.log + [LookupCall(u)]);
      ExtendsOne(s.log, s.log, LookupCall(u), NotDelete);
      if look.found.Some? then (look.found, s1.(cache := s1.cache[sku := look.found.value])) else (None, s1)
    else (None, s)
  }

  /** One attempt of the create handler, which posts `c`: on a conflict it resolves the existing
      product and sends it the update body `upd` instead, or gives the SKU up as failed when the
      product cannot be found; any other refusal is rethrown to `retry`. */
  function CreateAttempt(store: Storefront, c: Call, upd: Payload, sku: string, s: Attempt)
    : (r: Step<Attempt, (), SyncError>)
    requires c.CreateCall?
    ensures |r.state.log| > |s.log| && r.state.log[..|s.log| + 1] == s.log + [c]
    ensures store(s.log, c).Ok? ==> r == Step(Ok(()), s.(log := s.log + [c]))
    ensures store(s.log, c).Err? && !IsConflict(store(s.log, c).error) ==>
      r == Step(Err(Rejected(store(s.log, c).error)), s.(log := s.log + [c]))
    ensures ExtendsWith(r.state.log, s.log, NotDelete)
    ensures CacheGrowsAt(s.cache, r.state.cache, sku)
    ensures r.state.failed == s.failed || r.state.failed == s.failed + {sku}
    ensures r.state.failed == s.failed + {sku} && sku !in s.failed ==> r.outcome.Ok?
    ensures store(s.log, c).Err? && IsConflict(store(s.log, c).error) ==>
      ConflictHandled(store, c, upd, sku, s, r)
  {
    var s1 := s.(log := s.log + [c]);
    ExtendsOne(s.log, s.log, c, NotDelete);
    match store(s.log, c)
    case Ok(_) => Step(Ok(()), s1)
    case Err(e) =>
      if !IsConflict(e) then Step(Err(Rejected(e)), s1)
      else
        assert Truthy(e.uniqueSku) ==>
          s1.log + [LookupCall(e.uniqueSku.value)] == s.log + [c, LookupCall(e.uniqueSku.value)];
        var res := Resolve(store, sku, e, s1);
        var s2 := res.1;
        assert s2.log[..|s.log| + 1] == s1.log;
        ExtendsTrans(s2.log, s1.log, s.log, NotDelete);
        if res.0.None? then Step(Ok(()), s2.(failed := s2.failed + {sku}))
        else
          var u := UpdateCall(res.0.value.id, upd);
          var s3 := s2.(log := s2.log + [u]);
          assert s3.log[..|s.log| + 1] == s1.log;
          ExtendsOne(s.log, s2.log, u, NotDelete);
          match store(s2.log, u)
          case Ok(_) => Step(Ok(()), s3)
          case Err(e2) => Step(Err(Rejected(e2)), s3)
  }

  /** What an attempt whose creation `c` was refused with a conflict code does, by where the
      existing product is found: in the cache, the creation is followed by its update; else, when the
      error names a `unique_sku`, by a lookup of it and, if the lookup lists a product, by the update
      of the first one listed, which is cached under `sku`; otherwise, with nothing found, the SKU is
      marked failed and the attempt succeeds. An update sent decides the attempt's outcome. */
  ghost predicate ConflictHandled(store: Storefront, c: Call, upd: Payload, sku: string, s: Attempt,
                                  r: Step<Attempt, (), SyncError>)
    requires store(s.log, c).Err?
  {
    var uniqueSku := store(s.log, c).error.uniqueSku;
    if sku in s.cache then
      var u := UpdateCall(s.cache[sku].id, upd);
      r.state.log == s.log + [c, u] && r.state.cache == s.cache && r.state.failed == s.failed
      && (r.outcome.Ok? <==> store(s.log + [c], u).Ok?)
    else if !Truthy(uniqueSku) then
      r.outcome.Ok? && r.state.failed == s.failed + {sku} && r.state.log == s.log + [c]
      && r.state.cache == s.cache
    else
      var l := LookupCall(uniqueSku.value);
      var look := store(s.log + [c], l);
      if look.Ok? && |look.value| > 0 then
        var u := UpdateCall(look.value[0].id, upd);
        r.state.log == s.log + [c, l, u] && r.state.cache == s.cache[sku := look.value[0]]
        && r.state.failed == s.failed && (r.outcome.Ok? <==> store(s.log + [c, l], u).Ok?)
      else
        r.outcome.Ok? && r.state.failed == s.failed + {sku} && r.state.log == s.log + [c, l]
        && r.state.cache == s.cache
  }

  /** A refused creation with a conflict code becomes an update of the product already there, on
      each of the three paths: the product is cached; it is found by looking up `unique_sku` (the
      path a first attempt takes, since a SKU in the storefront map is never created); or nothing
      is found, because there is no `unique_sku`, the lookup fails or it lists no product. */
  lemma ConflictRedirects(store: Storefront, c: Call, upd: Payload, sku: string, s: Attempt)
    requires c.CreateCall?
    requires store(s.log, c).Err? && IsConflict(store(s.log, c).error)
    ensures var r := CreateAttempt(store, c, upd, sku, s);
      sku in s.cache ==>
        var u := UpdateCall(s.cache[sku].id, upd);
        r.state.log == s.log + [c, u] && (r.outcome.Ok? <==> store(s.log + [c], u).Ok?)
    ensures var r := CreateAttempt(store, c, upd, sku, s);
      sku !in s.cache && !Truthy(store(s.log, c).error.uniqueSku) ==>
        r.outcome.Ok? && r.state.failed == s.failed + {sku} && r.state.log == s.log + [c]
    ensures var r := CreateAttempt(store, c, upd, sku, s);
      var uniqueSku := store(s.log, c).error.uniqueSku;
      sku !in s.cache && Truthy(uniqueSku) ==>
        var l := LookupCall(uniqueSku.value);
        var look := store(s.log + [c], l);
        if look.Ok? && |look.value| > 0 then
          var u := UpdateCall(look.value[0].id, upd);
          r.state.log == s.log + [c, l, u] && r.state.cache == s.cache[sku := look.value[0]]
          && (r.outcome.Ok? <==> store(s.log + [c, l], u).Ok?)
        else
          r.outcome.Ok? && r.state.failed == s.failed + {sku} && r.state.log == s.log + [c, l]
  {
    var r := CreateAttempt(store, c, upd, sku, s);
    assert ConflictHandled(store, c, upd, sku, s, r);
  }

  /** The per-call invariant of one create handler's attempts, relative to the state `s0` the
      handler started in. */
  predicate AttemptKeeps(s0: Attempt, sku: string, s: Attempt) {
    ExtendsWith(s.log, s0.log, NotDelete) && CacheGrowsAt(s0.cache, s.cache, sku) && s.failed <= s0.failed + {sku}
  }

  /** The calls one create handler may send: its creation `c`, a lookup, or an update carrying the
      update body `upd`. */
  function SentBy(c: Call, upd: Payload): Call -> bool {
    x => x == c || x.LookupCall? || (x.UpdateCall? && x.body == upd)
  }

  /** An attempt sends only its creation, a lookup and updates with the update body. */
  lemma AttemptSends(store: Storefront, c: Call, upd: Payload, sku: string, s: Attempt)
    requires c.CreateCall?
    ensures ExtendsWith(CreateAttempt(store, c, upd, sku, s).state.log, s.log, SentBy(c, upd))
  {
    var r := CreateAttempt(store, c, upd, sku, s);
    if store(s.log, c).Err? && IsConflict(store(s.log, c).error) {
      assert ConflictHandled(store, c, upd, sku, s, r);
    }
  }

  /** The attempts of one create handler, as the function `retry` is given. */
  function Attempts(store: Storefront, c: Call, upd: Payload, sku: string): (Attempt, nat) -> Step<Attempt, (), SyncError>
    requires c.CreateCall?
  {
    (st: Attempt, k: nat) => CreateAttempt(store, c, upd, sku, st)
  }

  /** What the handler's attempts keep relative to the state `s0` it started in: the invariant of
      `AttemptKeeps`, only its own calls sent, and the first call sent being the creation. */
  predicate RunKeeps(s0: Attempt, c: Call, upd: Payload, sku: string, st: Attempt) {
    && AttemptKeeps(s0, sku, st)
    && ExtendsWith(st.log, s0.log, SentBy(c, upd))
    && (|st.log| > |s0.log| ==> st.log[|s0.log|] == c)
  }

  /** `retry(async () => { try { create } catch { redirect or rethrow } })` for one product, whose
      creation call is `c` and whose update body, for the redirect, is `upd`: at most `Retries`
      attempts, a stop at the first attempt that returns, the last refusal rethrown, waits of 1000
      and 2000 ms, and only the creation, lookups and `upd` updates sent, the creation first. */
  function CreateRun(store: Storefront, c: Call, upd: Payload, sku: string, s: Attempt)
    : (r: RetryRun<Attempt, (), SyncError>)
    requires c.CreateCall?
    ensures 1 <= r.calls <= Retries
    ensures forall k :: 1 <= k < r.calls ==> CallAt(Attempts(store, c, upd, sku), s, k).outcome.Err?
    ensures r.result.Returned? <==> CallAt(Attempts(store, c, upd, sku), s, r.calls).outcome.Ok?
    ensures r.result.Threw? <==> !r.result.Returned?
    ensures r.result.Threw? ==>
      r.calls == Retries && r.result.error == CallAt(Attempts(store, c, upd, sku), s, Retries).outcome.error
    ensures r.state == CallAt(Attempts(store, c, upd, sku), s, r.calls).state
    ensures |r.delays| == r.calls - 1 && forall i :: 0 <= i < |r.delays| ==> r.delays[i] == RetryDelay * (i + 1)
    ensures AttemptKeeps(s, sku, r.state)
    ensures ExtendsWith(r.state.log, s.log, SentBy(c, upd))
    ensures |r.state.log| > |s.log| && r.state.log[|s.log|] == c
  {
    RunEndKeeps(store, c, upd, sku, s);
    Retry(Attempts(store, c, upd, sku), s, Retries, RetryDelay)
  }

  /** The state `retry` leaves keeps `RunKeeps` and holds at least the creation. */
  lemma RunEndKeeps(store: Storefront, c: Call, upd: Payload, sku: string, s: Attempt)
    requires c.CreateCall?
    ensures var r := Retry(Attempts(store, c, upd, sku), s, Retries, RetryDelay);
      RunKeeps(s, c, upd, sku, r.state) && |r.state.log| > |s.log|
  {
    var fn := Attempts(store, c, upd, sku);
    var inv := (st: Attempt) => RunKeeps(s, c, upd, sku, st);
    AttemptsKeep(store, c, upd, sku, s, inv);
    var r := Retry(fn, s, Retries, RetryDelay);
    StatesKeep(fn, s, inv, r.calls);
    var last := StateBefore(fn, s, r.calls);
    AttemptStepKeeps(store, c, upd, sku, s, last);
    assert r.state == CreateAttempt(store, c, upd, sku, last).state;
  }

  /** `RunKeeps`, as a predicate on states, holds at the start and is kept by every attempt. */
  lemma AttemptsKeep(store: Storefront, c: Call, upd: Payload, sku: string, s: Attempt, inv: Attempt -> bool)
    requires c.CreateCall? && forall st :: inv(st) == RunKeeps(s, c, upd, sku, st)
    ensures inv(s) && forall st, k :: inv(st) ==> inv(Attempts(store, c, upd, sku)(st, k).state)
  {
    assert s.log[..|s.log|] == s.log;
    forall st: Attempt, k: nat | inv(st) ensures inv(Attempts(store, c, upd, sku)(st, k).state) {
      AttemptStepKeeps(store, c, upd, sku, s, st);
    }
  }

  /** Every attempt keeps the handler's invariant and sends at least the creation. */
  lemma AttemptStepKeeps(store: Storefront, c: Call, upd: Payload, sku: string, s0: Attempt, s: Attempt)
    requires c.CreateCall? && RunKeeps(s0, c, upd, sku, s)
    ensures RunKeeps(s0, c, upd, sku, CreateAttempt(store, c, upd, sku, s).state)
    ensures |CreateAttempt(store, c, upd, sku, s).state.log| > |s0.log|
  {
    var next := CreateAttempt(store, c, upd, sku, s).state;
    ExtendsTrans(next.log, s.log, s0.log, NotDelete);
    AttemptSends(store, c, upd, sku, s);
    ExtendsTrans(next.log, s.log, s0.log, SentBy(c, upd));
    if |s.log| > |s0.log| {
      assert next.log[|s0.log|] == next.log[..|s.log| + 1][|s0.log|];
    } else {
      assert next.log[|s0.log|] == next.log[..|s.log| + 1][|s0.log|];
    }
  }

  /** An attempt that gives the SKU up, adding it to `failedSkus`, ends the run: the handler
      returns and is not retried. On a first attempt whose conflict finds no product, the run is
      that one attempt. */
  lemma FailedSkuEndsRun(store: Storefront, c: Call, upd: Payload, sku: string, s: Attempt, m: nat)
    requires c.CreateCall? && 1 <= m <= Retries
    requires forall k :: 1 <= k < m ==> CallAt(Attempts(store, c, upd, sku), s, k).outcome.Err?
    requires sku !in StateBefore(Attempts(store, c, upd, sku), s, m).failed
    requires sku in CallAt(Attempts(store, c, upd, sku), s, m).state.failed
    ensures var r := CreateRun(store, c, upd, sku, s);
      r.calls == m && r.result.Returned? && sku in r.state.failed
  {
    var fn := Attempts(store, c, upd, sku);
    FirstSuccessWins(fn, s, Retries, RetryDelay, m);
  }

  /** A first attempt whose creation is refused as a duplicate with no `unique_sku`, and no cached
      product, marks the SKU failed and is the whole run. */
  lemma UnresolvedConflictNotRetried(store: Storefront, c: Call, upd: Payload, sku: string, s: Attempt)
    requires c.CreateCall? && sku !in s.failed && sku !in s.cache
    requires store(s.log, c).Err? && IsConflict(store(s.log, c).error) && !Truthy(store(s.log, c).error.uniqueSku)
    ensures var r := CreateRun(store, c, upd, sku, s);
      r.calls == 1 && r.result.Returned? && r.state.failed == s.failed + {sku} && r.state.log == s.log + [c]
  {
    var fn := Attempts(store, c, upd, sku);
    assert StateBefore(fn, s, 1) == s;
    ConflictRedirects(store, c, upd, sku, s);
    FailedSkuEndsRun(store, c, upd, sku, s, 1);
  }

  /** The state of the dist create batch: the shared attempt state, `seenSkus`, and what happened
      to each item. */
  datatype DistPass = DistPass(at: Attempt, seen: set<string>, handled: seq<Handled>)

  /** One item of the dist `createProductsBatch`: skipped when its key is a storefront SKU, already
      seen or already failed; otherwise marked seen, and, when it has a price row, created under
      `retry`. */
  function CreateItem(store: Storefront, wcSkus: set<string>, stock: map<string, real>,
    prices: map<string, PriceRow>, prev: DistPass, p: ErpProduct): (r: DistPass)
    ensures |r.handled| == |prev.handled| + 1 && r.handled[..|prev.handled|] == prev.handled
    ensures r.handled[|prev.handled|].Ran? <==>
      ErpKey(p) !in wcSkus && ErpKey(p) !in prev.seen && ErpKey(p) !in prev.at.failed && ErpKey(p) in prices
    ensures r.handled[|prev.handled|].Ran? ==> 1 <= r.handled[|prev.handled|].attempts <= Retries
    ensures r.seen == if ErpKey(p) in wcSkus || ErpKey(p) in prev.seen || ErpKey(p) in prev.at.failed then prev.seen
      else prev.seen + {ErpKey(p)}
    ensures r.at.failed <= prev.at.failed + (r.seen - prev.seen)
    ensures ExtendsWith(r.at.log, prev.at.log, NotDelete)
    ensures CacheGrowsAt(prev.at.cache, r.at.cache, ErpKey(p))
    ensures ErpKey(p) in wcSkus ==> r.at.cache == prev.at.cache
  {
    var sku := ErpKey(p);
    if sku in wcSkus || sku in prev.seen || sku in prev.at.failed then
      var r := DistPass(prev.at, prev.seen, prev.handled + [Skipped]);
      SkipHandled(prev, sku, r);
      r
    else if sku !in prices then
      var r := DistPass(prev.at, prev.seen + {sku}, prev.handled + [Skipped]);
      SkipHandled(prev, sku, r);
      r
    else
      var r := RunItem(store, stock, prices[sku], prev, p);
      assert r.seen - prev.seen == {sku};
      r
  }

  /** A skipped item leaves the attempt state as it was and marks at most its own key seen. */
  lemma SkipHandled(prev: DistPass, sku: string, r: DistPass)
    requires r.at == prev.at && r.handled == prev.handled + [Skipped]
    requires r.seen == prev.seen || r.seen == prev.seen + {sku}
    ensures |r.handled| == |prev.handled| + 1 && r.handled[..|prev.handled|] == prev.handled
    ensures !r.handled[|prev.handled|].Ran?
    ensures r.at.failed <= prev.at.failed + (r.seen - prev.seen)
    ensures ExtendsWith(r.at.log, prev.at.log, NotDelete)
    ensures CacheGrowsAt(prev.at.cache, r.at.cache, sku)
  {
    assert r.at.log[..|prev.at.log|] == prev.at.log;
  }

  /** The stock argument the dist create batch passes for key `sku`: `omniaStockMap.get(sku) ?? 0`. */
  function StockArgFor(stock: map<string, real>, sku: string): StockArg {
    StockArg(Some(StockFor(stock, sku)))
  }

  /** The creation `createProducts(product, { estoque: stockQty }, price)` posts for `p`. */
  function CreationOf(stock: map<string, real>, price: PriceRow, p: ErpProduct): (c: Call)
    ensures c.CreateCall?
  {
    CreateCall(CreatePayload(p, StockArgFor(stock, ErpKey(p)), Some(price)).value)
  }

  /** An item that is created: marked seen, and run under `retry`, the record of the item holding
      the run's attempts and outcome. */
  function RunItem(store: Storefront, stock: map<string, real>, price: PriceRow, prev: DistPass, p: ErpProduct)
    : (r: DistPass)
    ensures |r.handled| == |prev.handled| + 1 && r.handled[..|prev.handled|] == prev.handled
    ensures r.handled[|prev.handled|].Ran? && 1 <= r.handled[|prev.handled|].attempts <= Retries
    ensures r.seen == prev.seen + {ErpKey(p)}
    ensures AttemptKeeps(prev.at, ErpKey(p), r.at)
    ensures ExtendsWith(r.at.log, prev.at.log,
      SentBy(CreationOf(stock, price, p), UpdatePayload(p, StockArgFor(stock, ErpKey(p)), price)))
    ensures |r.at.log| > |prev.at.log| && r.at.log[|prev.at.log|] == CreationOf(stock, price, p)
  {
    var run := CreateProduct(store, stock, price, p, prev.at);
    var h := HandledBy(run);
    DistPass(run.state, prev.seen + {ErpKey(p)}, prev.handled + [h])
  }

  /** The `retry` around creating `p`: its first call posts `CreatePayload` with the stock
      `omniaStockMap.get(sku) ?? 0` and the price row, and every later call is that creation again,
      a lookup, or an update carrying `UpdatePayload` with the same stock and price. */
  function CreateProduct(store: Storefront, stock: map<string, real>, price: PriceRow, p: ErpProduct, at: Attempt)
    : (r: RetryRun<Attempt, (), SyncError>)
    ensures 1 <= r.calls <= Retries
    ensures AttemptKeeps(at, ErpKey(p), r.state)
    ensures |r.state.log| > |at.log| && r.state.log[|at.log|] == CreationOf(stock, price, p)
    ensures r.state.log[|at.log|].body.sku == Some(ErpKey(p))
    ensures r.state.log[|at.log|].body.stockQuantity == StockQuantity(StockArgFor(stock, ErpKey(p)))
    ensures r.state.log[|at.log|].body.regularPrice == price.pvenda
    ensures ExtendsWith(r.state.log, at.log,
      SentBy(CreationOf(stock, price, p), UpdatePayload(p, StockArgFor(stock, ErpKey(p)), price)))
  {
    var sku := ErpKey(p);
    var q := StockArgFor(stock, sku);
    CreateRun(store, CreationOf(stock, price, p), UpdatePayload(p, q, price), sku, at)
  }

  /** The dist `createProductsBatch`: the items in order, each through `CreateItem`, starting from
      the storefront map, an empty `seenSkus` and an empty `failedSkus`. */
  function CreateBatch(store: Storefront, items: seq<ErpProduct>, m: map<string, WcProduct>,
    stock: map<string, real>, prices: map<string, PriceRow>, log: seq<Call>): (r: DistPass)
    ensures |r.handled| == |items|
    ensures ExtendsWith(r.at.log, log, NotDelete)
    decreases |items|
  {
    if |items| == 0 then DistPass(Attempt(log, m, {}), {}, [])
    else
      var n := |items| - 1;
      var prev := CreateBatch(store, items[..n], m, stock, prices, log);
      var r := CreateItem(store, m.Keys, stock, prices, prev, items[n]);
      ExtendsTrans(r.at.log, prev.at.log, log, NotDelete);
      r
  }

  /** What a dist create pass over items with keys `keys` decided: item `i` ran exactly when its
      key is no storefront SKU, no earlier item's key, and has a price row; `seenSkus` ends as the
      keys that are no storefront SKU; `failedSkus` stays inside `seenSkus`; and the map still holds
      every storefront product under its own key. */
  ghost predicate CreateDecisions(keys: seq<string>, m: map<string, WcProduct>, prices: map<string, PriceRow>, r: DistPass) {
    && |r.handled| == |keys|
    && (forall i :: 0 <= i < |keys| ==>
          (r.handled[i].Ran? <==> keys[i] !in m && keys[i] !in keys[..i] && keys[i] in prices))
    && (forall i :: 0 <= i < |keys| && r.handled[i].Ran? ==> 1 <= r.handled[i].attempts <= Retries)
    && (forall k :: k in r.seen <==> k in keys && k !in m)
    && r.at.failed <= r.seen
    && (forall k :: k in m ==> k in r.at.cache && r.at.cache[k] == m[k])
  }

  lemma {:induction false} CreateBatchDecides(store: Storefront, items: seq<ErpProduct>, m: map<string, WcProduct>,
    stock: map<string, real>, prices: map<string, PriceRow>, log: seq<Call>)
    ensures CreateDecisions(KeysOf(items, ErpKey), m, prices, CreateBatch(store, items, m, stock, prices, log))
    decreases |items|
  {
    if |items| > 0 {
      var n := |items| - 1;
      CreateBatchDecides(store, items[..n], m, stock, prices, log);
      DecidesStep(store, items, m, stock, prices, log);
    }
  }

  /** The last item extends the decisions over the ones before it. */
  lemma DecidesStep(store: Storefront, items: seq<ErpProduct>, m: map<string, WcProduct>,
    stock: map<string, real>, prices: map<string, PriceRow>, log: seq<Call>)
    requires |items| > 0
    requires CreateDecisions(KeysOf(items[..|items| - 1], ErpKey), m, prices,
      CreateBatch(store, items[..|items| - 1], m, stock, prices, log))
    ensures CreateDecisions(KeysOf(items, ErpKey), m, prices, CreateBatch(store, items, m, stock, prices, log))
  {
    var n := |items| - 1;
    var prev := CreateBatch(store, items[..n], m, stock, prices, log);
    ItemExtends(store, KeysOf(items[..n], ErpKey), m, stock, prices, prev, items[n]);
    KeysStep(items);
    BatchStep(store, items, m, stock, prices, log);
  }

  lemma BatchStep(store: Storefront, items: seq<ErpProduct>, m: map<string, WcProduct>,
    stock: map<string, real>, prices: map<string, PriceRow>, log: seq<Call>)
    requires |items| > 0
    ensures CreateBatch(store, items, m, stock, prices, log) ==
      CreateItem(store, m.Keys, stock, prices, CreateBatch(store, items[..|items| - 1], m, stock, prices, log), items[|items| - 1])
  {
  }

  lemma KeysStep(items: seq<ErpProduct>)
    requires |items| > 0
    ensures KeysOf(items, ErpKey) == KeysOf(items[..|items| - 1], ErpKey) + [ErpKey(items[|items| - 1])]
  {
    var n := |items| - 1;
    assert items == items[..n] + [items[n]];
    KeysOfAppend(items[..n], items[n], ErpKey);
  }

  /** One item through `CreateItem` extends the decisions by its key. */
  lemma ItemExtends(store: Storefront, keys: seq<string>, m: map<string, WcProduct>, stock: map<string, real>,
    prices: map<string, PriceRow>, prev: DistPass, p: ErpProduct)
    requires CreateDecisions(keys, m, prices, prev)
    ensures CreateDecisions(keys + [ErpKey(p)], m, prices, CreateItem(store, m.Keys, stock, prices, prev, p))
  {
    DecisionsExtend(keys, ErpKey(p), m, prices, prev, CreateItem(store, m.Keys, stock, prices, prev, p));
  }

  /** One more item handled as `CreateItem` handles it keeps `CreateDecisions`. */
  lemma DecisionsExtend(keys: seq<string>, key: string, m: map<string, WcProduct>, prices: map<string, PriceRow>,
    prev: DistPass, r: DistPass)
    requires CreateDecisions(keys, m, prices, prev)
    requires |r.handled| == |prev.handled| + 1 && r.handled[..|prev.handled|] == prev.handled
    requires r.handled[|prev.handled|].Ran? <==> key !in m && key !in prev.seen && key !in prev.at.failed && key in prices
    requires r.handled[|prev.handled|].Ran? ==> 1 <= r.handled[|prev.handled|].attempts <= Retries
    requires r.seen == if key in m || key in prev.seen || key in prev.at.failed then prev.seen else prev.seen + {key}
    requires r.at.failed <= prev.at.failed + (r.seen - prev.seen)
    requires CacheGrowsAt(prev.at.cache, r.at.cache, key)
    ensures CreateDecisions(keys + [key], m, prices, r)
  {
    var n := |keys|;
    var ks := keys + [key];
    forall i | 0 <= i < n
      ensures r.handled[i] == prev.handled[i] && ks[..i] == keys[..i] && ks[i] == keys[i]
    {
      assert r.handled[i] == r.handled[..n][i];
    }
    assert ks[..n] == keys;
  }

  /** `failedSkus` adds nothing to the skip test: a failed SKU has always been seen first. */
  lemma FailedAreSeen(store: Storefront, items: seq<ErpProduct>, m: map<string, WcProduct>,
    stock: map<string, real>, prices: map<string, PriceRow>, log: seq<Call>)
    ensures var r := CreateBatch(store, items, m, stock, prices, log); r.at.failed <= r.seen
  {
    CreateBatchDecides(store, items, m, stock, prices, log);
  }

  /** Whether the dist update batch sends an update, as written: the storefront's stock is compared
      with the ERP stock before flooring. */
  predicate NeedsUpdateAsWritten(wc: WcProduct, stock: real, price: PriceRow) {
    wc.stockQuantity as real != stock || wc.regularPrice != price.pvenda
  }

  /** As written, a fractional ERP stock never settles: the update stores the floored quantity,
      which differs from the unfloored stock the next pass compares with, so every pass updates
      the product again. */
  lemma FractionalStockNeverSettles(wc: WcProduct, p: ErpProduct, stock: real, price: PriceRow)
    requires stock.Floor as real != stock
    ensures var body := UpdatePayload(p, StockArg(Some(stock)), price);
      NeedsUpdateAsWritten(wc, stock, price) && NeedsUpdateAsWritten(Applied(wc, body), stock, price)
  {
  }

  /** A stock of 2.5 units: stored as 2, compared with 2.5 on every pass. */
  lemma HalfUnitStockUpdatesForever(wc: WcProduct, p: ErpProduct, price: PriceRow)
    ensures var body := UpdatePayload(p, StockArg(Some(2.5)), price);
      body.stockQuantity == 2 && NeedsUpdateAsWritten(Applied(wc, body), 2.5, price)
  {
  }

  /** The comparison the dist update batch evidently intends, and the src revision makes: the
      storefront's stock against the floored ERP stock. */
  predicate WantsUpdate(cache: map<string, WcProduct>, stock: map<string, real>, prices: map<string, PriceRow>,
    p: ErpProduct)
  {
    var sku := ErpKey(p);
    sku in cache && sku in prices && NeedsUpdate(cache[sku], StockFor(stock, sku).Floor, prices[sku])
  }

  /** With the floored comparison the dist update converges: once its body is applied there is
      nothing left to update, and it changes the product exactly when a change was detected. */
  lemma UpdateConvergesCorrected(wc: WcProduct, p: ErpProduct, stock: real, price: PriceRow)
    ensures var body := UpdatePayload(p, StockArg(Some(stock)), price);
      !NeedsUpdate(Applied(wc, body), stock.Floor, price) && (NeedsUpdate(wc, stock.Floor, price) <==> Applied(wc, body) != wc)
  {
  }

  /** The update an item gets when it gets one: the unfloored stock goes to `updateProduct`. */
  function UpdateCallFor(cache: map<string, WcProduct>, stock: map<string, real>, prices: map<string, PriceRow>,
    p: ErpProduct): Call
    requires ErpKey(p) in cache && ErpKey(p) in prices
  {
    var sku := ErpKey(p);
    UpdateCall(cache[sku].id, UpdatePayload(p, StockArg(Some(StockFor(stock, sku))), prices[sku]))
  }

  /** One item of the dist `updateProductsBatch`, with the floored comparison. */
  function UpdateItem(store: Storefront, cache: map<string, WcProduct>, stock: map<string, real>,
    prices: map<string, PriceRow>, log: seq<Call>, p: ErpProduct): (r: (seq<Call>, Handled))
    ensures r.1.Ran? <==> WantsUpdate(cache, stock, prices, p)
    ensures r.1.Skipped? ==> r.0 == log
    ensures r.1.Ran? ==> 1 <= r.1.attempts <= Retries
    ensures r.1.Ran? ==>
      r.0 == log + Repeat([UpdateCallFor(cache, stock, prices, p)], r.1.attempts)
    ensures ExtendsWith(r.0, log, IsUpdate)
  {
    if WantsUpdate(cache, stock, prices, p) then
      var run := WriteOne(store, UpdateCallFor(cache, stock, prices, p), log);
      RepeatOnly(UpdateCallFor(cache, stock, prices, p), run.calls);
      (run.state, HandledBy(run))
    else (log, Skipped)
  }

  /** The dist `updateProductsBatch`: the items in order, each through `UpdateItem`. */
  function UpdateBatch(store: Storefront, items: seq<ErpProduct>, cache: map<string, WcProduct>,
    stock: map<string, real>, prices: map<string, PriceRow>, log: seq<Call>): (r: (seq<Call>, seq<Handled>))
    ensures |r.1| == |items|
    ensures ExtendsWith(r.0, log, IsUpdate)
    decreases |items|
  {
    if |items| == 0 then (log, [])
    else
      var n := |items| - 1;
      var prev := UpdateBatch(store, items[..n], cache, stock, prices, log);
      var step := UpdateItem(store, cache, stock, prices, prev.0, items[n]);
      ExtendsTrans(step.0, prev.0, log, IsUpdate);
      (step.0, prev.1 + [step.1])
  }

  /** Item `i` of an update pass ran exactly when it wants an update. */
  lemma {:induction false} UpdateBatchDecides(store: Storefront, items: seq<ErpProduct>, cache: map<string, WcProduct>,
    stock: map<string, real>, prices: map<string, PriceRow>, log: seq<Call>)
    ensures var r := UpdateBatch(store, items, cache, stock, prices, log);
      forall i :: 0 <= i < |items| ==> (r.1[i].Ran? <==> WantsUpdate(cache, stock, prices, items[i]))
    decreases |items|
  {
    if |items| > 0 {
      var n := |items| - 1;
      var prev := UpdateBatch(store, items[..n], cache, stock, prices, log);
      UpdateBatchDecides(store, items[..n], cache, stock, prices, log);
      var step := UpdateItem(store, cache, stock, prices, prev.0, items[n]);
      assert items == items[..n] + [items[n]];
      RanExactlyAppend(items[..n], prev.1, items[n], step.1, p => WantsUpdate(cache, stock, prices, p));
    }
  }

  /** What one dist `syncProducts` pass did. */
  datatype SyncRun = SyncRun(plan: Plan, created: DistPass, updated: (seq<Call>, seq<Handled>), deleted: (seq<Call>, seq<Handled>))
  {
    function Log(): seq<Call> { deleted.0 }
  }

  /** The dist `syncProducts`: plan, then the create batch, the update batch (reading the map the
      create batch may have filled in) and the delete batch. The create batch may update products
      too, so only the deletions are guaranteed to come last. */
  function SyncProducts(store: Storefront, wc: seq<WcProduct>, erp: seq<ErpProduct>, stockRows: seq<StockRow>,
    priceRows: seq<PriceRow>, log: seq<Call>): (r: SyncRun)
    ensures |r.created.handled| == |r.plan.create| && |r.updated.1| == |r.plan.update| && |r.deleted.1| == |r.plan.delete|
    ensures ExtendsWith(r.created.at.log, log, NotDelete)
    ensures ExtendsWith(r.updated.0, r.created.at.log, IsUpdate)
    ensures r.Log() == r.updated.0 + DeleteCalls(r.plan.delete)
    ensures forall i :: 0 <= i < |r.plan.delete| ==> r.deleted.1[i] == Ran(1, [], false)
  {
    var plan := PlanSync(wc, erp);
    var m := WcMap(wc);
    var stock := StockMap(stockRows);
    var prices := PriceMap(priceRows);
    var created := CreateBatch(store, plan.create, m, stock, prices, log);
    var updated := UpdateBatch(store, plan.update, created.at.cache, stock, prices, created.at.log);
    var deleted := DeleteBatch(store, plan.delete, updated.0);
    SyncRun(plan, created, updated, deleted)
  }

  /** The update batch reads the map after the create batch, but for every product the plan sends
      to update that map still holds the storefront product the pass started from, so it decides
      as if it read the original map. */
  lemma UpdateSeesStorefrontMap(store: Storefront, wc: seq<WcProduct>, erp: seq<ErpProduct>, stockRows: seq<StockRow>,
    priceRows: seq<PriceRow>, log: seq<Call>)
    ensures var r := SyncProducts(store, wc, erp, stockRows, priceRows, log);
      forall i :: 0 <= i < |r.plan.update| ==>
        (r.updated.1[i].Ran? <==> WantsUpdate(WcMap(wc), StockMap(stockRows), PriceMap(priceRows), r.plan.update[i]))
  {
    var m := WcMap(wc);
    var stock := StockMap(stockRows);
    var prices := PriceMap(priceRows);
    var plan := PlanSync(wc, erp);
    CreateBatchDecides(store, plan.create, m, stock, prices, log);
    var created := CreateBatch(store, plan.create, m, stock, prices, log);
    UpdatesAsIfMap(store, plan.update, m, created.at.cache, stock, prices, created.at.log);
  }

  /** An update batch over storefront keys, reading a cache that holds the storefront map, decides
      every item as the map would. */
  lemma UpdatesAsIfMap(store: Storefront, items: seq<ErpProduct>, m: map<string, WcProduct>,
    cache: map<string, WcProduct>, stock: map<string, real>, prices: map<string, PriceRow>, log: seq<Call>)
    requires forall i :: 0 <= i < |items| ==> ErpKey(items[i]) in m
    requires forall k :: k in m ==> k in cache && cache[k] == m[k]
    ensures var u := UpdateBatch(store, items, cache, stock, prices, log);
      forall i :: 0 <= i < |items| ==> (u.1[i].Ran? <==> WantsUpdate(m, stock, prices, items[i]))
  {
    UpdateBatchDecides(store, items, cache, stock, prices, log);
    forall i | 0 <= i < |items|
      ensures WantsUpdate(cache, stock, prices, items[i]) <==> WantsUpdate(m, stock, prices, items[i])
    {
      CacheAgrees(m, cache, stock, prices, items[i]);
    }
  }

  /** A cache that holds the storefront map decides the update of a storefront key as the map does. */
  lemma CacheAgrees(m: map<string, WcProduct>, cache: map<string, WcProduct>, stock: map<string, real>,
    prices: map<string, PriceRow>, p: ErpProduct)
    requires ErpKey(p) in m && forall k :: k in m ==> k in cache && cache[k] == m[k]
    ensures WantsUpdate(cache, stock, prices, p) <==> WantsUpdate(m, stock, prices, p)
  {
  }
}

=== FILE: sync_src.dfy ===
/** `SyncService.syncProducts` and its three batches as written in src/modules/sync/sync.service.ts:
    storefront SKUs and ERP codes are matched after `trim()`. */
module SyncSrc {
  import opened Outcomes
  import opened Seqs
  import opened JsString
  import opened Catalog
  import opened WooPayload
  import opened RetryExecutor
  import opened SyncCommon

  /** `String(p.sku).trim()`: the storefront side's key. */
  function WcKey(p: WcProduct): string {
    Trim(Text(p.sku))
  }

  /** `String(p.codprod).trim()`: the ERP side's key in the partition and the batches. The code is
      a decimal rendering, which holds no white space, so the trim changes nothing
      (`ErpKeyIsTrimmed`). */
  function ErpKey(p: ErpProduct): string {
    CodeKey(p.codprod)
  }

  lemma ErpKeyIsTrimmed(p: ErpProduct)
    ensures ErpKey(p) == Trim(CodeKey(p.codprod))
  {
    TrimWithoutSpaces(CodeKey(p.codprod));
  }

  /** `String(p.codprod)`: the key of the ERP product map the delete list is checked against. */
  function CodeOf(p: ErpProduct): string {
    CodeKey(p.codprod)
  }

  /** `wcProductMap`: the storefront products with a SKU, by key, a later product replacing an
      earlier one with the same key. Its key set is `wcSkus`. */
  function WcMap(wc: seq<WcProduct>): (m: map<string, WcProduct>)
    ensures forall k :: k in m <==> k in KeysOf(Filter(HasSku, wc), WcKey)
  {
    LastWins(Filter(HasSku, wc), WcKey)
  }

  /** The tests of the categorisation step: an ERP product whose key is not, or is, a storefront
      key; a storefront product with a SKU whose key is no ERP key. */
  function IsNew(m: map<string, WcProduct>): ErpProduct -> bool {
    p => ErpKey(p) !in m
  }

  function IsKnown(m: map<string, WcProduct>): ErpProduct -> bool {
    p => ErpKey(p) in m
  }

  function Gone(codes: seq<string>): WcProduct -> bool {
    p => HasSku(p) && WcKey(p) !in codes
  }

  /** The categorisation step of `syncProducts`. */
  function PlanSync(wc: seq<WcProduct>, erp: seq<ErpProduct>): (r: Plan)
    ensures forall i :: 0 <= i < |r.create| ==> ErpKey(r.create[i]) !in WcMap(wc)
    ensures forall i :: 0 <= i < |r.update| ==> ErpKey(r.update[i]) in WcMap(wc)
    ensures forall i :: 0 <= i < |r.delete| ==> HasSku(r.delete[i]) && WcKey(r.delete[i]) !in KeysOf(erp, CodeOf)
  {
    var m := WcMap(wc);
    var codes := KeysOf(erp, CodeOf);
    Plan(Filter(IsNew(m), erp), Filter(IsKnown(m), erp), Filter(Gone(codes), wc))
  }

  /** Creation and update split the ERP products: every product lands in exactly one of them. */
  lemma PlanPartitions(wc: seq<WcProduct>, erp: seq<ErpProduct>)
    ensures var r := PlanSync(wc, erp);
      multiset(r.create) + multiset(r.update) == multiset(erp) && |r.create| + |r.update| == |erp|
  {
    var m := WcMap(wc);
    FilterSplit(IsNew(m), IsKnown(m), erp);
  }

  /** The three lists keep the order of the lists they are drawn from. */
  lemma PlanKeepsOrder(wc: seq<WcProduct>, erp: seq<ErpProduct>)
    ensures var r := PlanSync(wc, erp);
      SubsequenceOf(r.create, erp) && SubsequenceOf(r.update, erp) && SubsequenceOf(r.delete, wc)
  {
    var m := WcMap(wc);
    var codes := KeysOf(erp, CodeOf);
    FilterIsSubsequence(IsNew(m), erp);
    FilterIsSubsequence(IsKnown(m), erp);
    FilterIsSubsequence(Gone(codes), wc);
  }

  /** Every ERP product is planned for creation exactly when its key is not a storefront SKU,
      and for update exactly when it is. */
  lemma PlanMembership(wc: seq<WcProduct>, erp: seq<ErpProduct>, p: ErpProduct)
    ensures p in PlanSync(wc, erp).create <==> p in erp && ErpKey(p) !in WcMap(wc)
    ensures p in PlanSync(wc, erp).update <==> p in erp && ErpKey(p) in WcMap(wc)
  {
    var m := WcMap(wc);
    FilterMembership(IsNew(m), erp, p);
    FilterMembership(IsKnown(m), erp, p);
  }

  /** A storefront product is planned for deletion exactly when it has a SKU that is no ERP
      code; in particular one without a SKU never is. */
  lemma DeleteMembership(wc: seq<WcProduct>, erp: seq<ErpProduct>, q: WcProduct)
    ensures q in PlanSync(wc, erp).delete <==> q in wc && HasSku(q) && WcKey(q) !in KeysOf(erp, CodeOf)
  {
    var codes := KeysOf(erp, CodeOf);
    FilterMembership(Gone(codes), wc, q);
  }

  /** An attempt whose payload builder throws before any request. */
  function ThrowStep(log: seq<Call>): Step<seq<Call>, (), SyncError> {
    Step(Err(TypeError), log)
  }

  /** `retry(() => createProducts(product, { estoque }, price))` for one product. Each attempt
      builds the payload and posts it; without a price row the build throws, every time. */
  function CreateOne(store: Storefront, p: ErpProduct, stock: real, price: Option<PriceRow>, log: seq<Call>)
    : (r: RetryRun<seq<Call>, (), SyncError>)
    ensures 1 <= r.calls <= Retries
    ensures price.None? ==> r.result.Threw? && r.calls == Retries && r.state == log
    ensures price.None? ==> r.delays == [RetryDelay, 2 * RetryDelay]
    ensures price.Some? ==> r == WriteOne(store, CreateCall(CreatePayload(p, StockArg(Some(stock)), price).value), log)
  {
    match CreatePayload(p, StockArg(Some(stock)), price)
    case Err(_) =>
      var fn := (s: seq<Call>, k: nat) => ThrowStep(s);
      var r := Retry(fn, log, Retries, RetryDelay);
      var none: seq<Call> := [];
      RetryAppends(fn, log, Retries, RetryDelay, none);
      assert forall k :: 1 <= k <= Retries ==> CallAt(fn, log, k).outcome.Err?;
      AllFailRethrowsLast(fn, log, Retries, RetryDelay);
      assert |Repeat(none, r.calls)| == 0;
      r
    case Ok(body) => WriteOne(store, CreateCall(body), log)
  }

  /** Without a price row, creation never reaches the storefront: three local failures, waits of
      1000 and 2000 ms, and the log unchanged. */
  lemma MissingPriceNeverPosts(store: Storefront, p: ErpProduct, stock: real, log: seq<Call>)
    ensures CreateOne(store, p, stock, None, log).state == log
    ensures CreateOne(store, p, stock, None, log).calls == 3
  {
  }

  /** One item of `createProductsBatch`: skipped when its key is a storefront SKU or already in
      `seenSkus`, otherwise added to `seenSkus` and created under `retry`. */
  function CreateItem(store: Storefront, m: map<string, WcProduct>, stock: map<string, real>,
    prices: map<string, PriceRow>, prev: Pass, p: ErpProduct): (r: Pass)
    ensures |r.handled| == |prev.handled| + 1 && r.handled[..|prev.handled|] == prev.handled
    ensures r.handled[|prev.handled|].Ran? <==> ErpKey(p) !in m && ErpKey(p) !in prev.seen
    ensures r.handled[|prev.handled|].Ran? ==> 1 <= r.handled[|prev.handled|].attempts <= Retries
    ensures r.seen == if ErpKey(p) in m then prev.seen else prev.seen + {ErpKey(p)}
    ensures ExtendsWith(r.log, prev.log, IsCreate)
  {
    var sku := ErpKey(p);
    if sku in m || sku in prev.seen then
      Pass(prev.log, prev.seen, prev.handled + [Skipped])
    else
      var run := CreateOne(store, p, StockFor(stock, sku), PriceFor(prices, sku), prev.log);
      CreateOneLogsCreates(store, p, StockFor(stock, sku), PriceFor(prices, sku), prev.log);
      Pass(run.state, prev.seen + {sku}, prev.handled + [HandledBy(run)])
  }

  /** `createProductsBatch`: the items in order, each through `CreateItem`. Which items ran is
      stated by `CreateBatchDecides`. */
  function CreateBatch(store: Storefront, items: seq<ErpProduct>, m: map<string, WcProduct>,
    stock: map<string, real>, prices: map<string, PriceRow>, log: seq<Call>): (r: Pass)
    ensures |r.handled| == |items|
    ensures ExtendsWith(r.log, log, IsCreate)
    decreases |items|
  {
    if |items| == 0 then Pass(log, {}, [])
    else
      var n := |items| - 1;
      var prev := CreateBatch(store, items[..n], m, stock, prices, log);
      var r := CreateItem(store, m, stock, prices, prev, items[n]);
      ExtendsTrans(r.log, prev.log, log, IsCreate);
      r
  }

  /** What a create pass over items with keys `keys` decided: item `i` ran exactly when its key
      is no storefront SKU and no earlier item's key, it ran at most `Retries` times, and
      `seenSkus` ends as the keys that are no storefront SKU. */
  ghost predicate CreateDecisions(keys: seq<string>, m: map<string, WcProduct>, r: Pass) {
    && |r.handled| == |keys|
    && (forall i :: 0 <= i < |keys| ==> (r.handled[i].Ran? <==> keys[i] !in m && keys[i] !in keys[..i]))
    && (forall i :: 0 <= i < |keys| && r.handled[i].Ran? ==> 1 <= r.handled[i].attempts <= Retries)
    && (forall k :: k in r.seen <==> k in keys && k !in m)
  }

  lemma {:induction false} CreateBatchDecides(store: Storefront, items: seq<ErpProduct>, m: map<string, WcProduct>,
    stock: map<string, real>, prices: map<string, PriceRow>, log: seq<Call>)
    ensures CreateDecisions(KeysOf(items, ErpKey), m, CreateBatch(store, items, m, stock, prices, log))
    decreases |items|
  {
    if |items| > 0 {
      var n := |items| - 1;
      CreateBatchDecides(store, items[..n], m, stock, prices, log);
      DecidesStep(store, items, m, stock, prices, log);
    }
  }

  /** The last item extends the decisions over the ones before it. */
  lemma DecidesStep(store: Storefront, items: seq<ErpProduct>, m: map<string, WcProduct>,
    stock: map<string, real>, prices: map<string, PriceRow>, log: seq<Call>)
    requires |items| > 0
    requires CreateDecisions(KeysOf(items[..|items| - 1], ErpKey), m, CreateBatch(store, items[..|items| - 1], m, stock, prices, log))
    ensures CreateDecisions(KeysOf(items, ErpKey), m, CreateBatch(store, items, m, stock, prices, log))
  {
    var n := |items| - 1;
    var prev := CreateBatch(store, items[..n], m, stock, prices, log);
    ItemExtends(store, KeysOf(items[..n], ErpKey), m, stock, prices, prev, items[n]);
    CreateBatchStep(items);
    BatchStep(store, items, m, stock, prices, log);
  }

  lemma BatchStep(store: Storefront, items: seq<ErpProduct>, m: map<string, WcProduct>,
    stock: map<string, real>, prices: map<string, PriceRow>, log: seq<Call>)
    requires |items| > 0
    ensures CreateBatch(store, items, m, stock, prices, log) ==
      CreateItem(store, m, stock, prices, CreateBatch(store, items[..|items| - 1], m, stock, prices, log), items[|items| - 1])
  {
  }

  /** One item through `CreateItem` extends the decisions by its key. */
  lemma ItemExtends(store: Storefront, keys: seq<string>, m: map<string, WcProduct>, stock: map<string, real>,
    prices: map<string, PriceRow>, prev: Pass, p: ErpProduct)
    requires CreateDecisions(keys, m, prev)
    ensures CreateDecisions(keys + [ErpKey(p)], m, CreateItem(store, m, stock, prices, prev, p))
  {
    DecisionsExtend(keys, ErpKey(p), m, prev, CreateItem(store, m, stock, prices, prev, p));
  }

  /** One more item handled as `CreateItem` handles it keeps `CreateDecisions`. */
  lemma DecisionsExtend(keys: seq<string>, key: string, m: map<string, WcProduct>, prev: Pass, r: Pass)
    requires CreateDecisions(keys, m, prev)
    requires |r.handled| == |prev.handled| + 1 && r.handled[..|prev.handled|] == prev.handled
    requires r.handled[|prev.handled|].Ran? <==> key !in m && key !in prev.seen
    requires r.handled[|prev.handled|].Ran? ==> 1 <= r.handled[|prev.handled|].attempts <= Retries
    requires r.seen == if key in m then prev.seen else prev.seen + {key}
    ensures CreateDecisions(keys + [key], m, r)
  {
    var n := |keys|;
    var ks := keys + [key];
    forall i | 0 <= i < n
      ensures r.handled[i] == prev.handled[i] && ks[..i] == keys[..i] && ks[i] == keys[i]
    {
      assert r.handled[i] == r.handled[..n][i];
    }
    assert ks[..n] == keys;
  }

  /** `seenSkus` makes creation at most once per key: two items that both ran have different keys. */
  lemma CreatesEachKeyOnce(keys: seq<string>, m: map<string, WcProduct>, r: Pass)
    requires CreateDecisions(keys, m, r)
    ensures forall i, j :: 0 <= i < j < |keys| && r.handled[i].Ran? && r.handled[j].Ran? ==> keys[i] != keys[j]
  {
    forall i, j | 0 <= i < j < |keys| && r.handled[i].Ran? && r.handled[j].Ran?
      ensures keys[i] != keys[j]
    {
      assert keys[..j][i] == keys[i];
    }
  }

  /** The keys of a list are the keys of all but its last item, then the last key. */
  lemma CreateBatchStep(items: seq<ErpProduct>)
    requires |items| > 0
    ensures var n := |items| - 1; KeysOf(items, ErpKey) == KeysOf(items[..n], ErpKey) + [ErpKey(items[n])]
  {
    var n := |items| - 1;
    assert items == items[..n] + [items[n]];
    KeysOfAppend(items[..n], items[n], ErpKey);
  }

  /** The update an item gets when it gets one. */
  function UpdateCallFor(m: map<string, WcProduct>, stock: map<string, real>, prices: map<string, PriceRow>,
    p: ErpProduct): Call
    requires ErpKey(p) in m && ErpKey(p) in prices
  {
    var sku := ErpKey(p);
    UpdateCall(m[sku].id, UpdatePayload(p, StockArg(Some(UpdateQty(stock, sku) as real)), prices[sku]))
  }

  /** Whether `updateProductsBatch` sends an update for `p`: its key has a storefront product and a
      price row, and something changed. */
  predicate WantsUpdate(m: map<string, WcProduct>, stock: map<string, real>, prices: map<string, PriceRow>,
    p: ErpProduct)
  {
    var sku := ErpKey(p);
    sku in m && sku in prices && NeedsUpdate(m[sku], UpdateQty(stock, sku), prices[sku])
  }

  /** One item of `updateProductsBatch`: skipped without a storefront product, without a price row
      or without a change; otherwise updated under `retry`. */
  function UpdateItem(store: Storefront, m: map<string, WcProduct>, stock: map<string, real>,
    prices: map<string, PriceRow>, log: seq<Call>, p: ErpProduct): (r: (seq<Call>, Handled))
    ensures r.1.Ran? <==> WantsUpdate(m, stock, prices, p)
    ensures r.1.Skipped? ==> r.0 == log
    ensures r.1.Ran? ==> 1 <= r.1.attempts <= Retries
    ensures r.1.Ran? ==>
      r.0 == log + Repeat([UpdateCallFor(m, stock, prices, p)], r.1.attempts)
    ensures ExtendsWith(r.0, log, IsUpdate)
  {
    if WantsUpdate(m, stock, prices, p) then
      var run := WriteOne(store, UpdateCallFor(m, stock, prices, p), log);
      RepeatOnly(UpdateCallFor(m, stock, prices, p), run.calls);
      (run.state, HandledBy(run))
    else (log, Skipped)
  }

  /** `updateProductsBatch`: the items in order, each through `UpdateItem`; only update calls
      are made. Which items ran is stated by `UpdateBatchDecides`. */
  function UpdateBatch(store: Storefront, items: seq<ErpProduct>, m: map<string, WcProduct>,
    stock: map<string, real>, prices: map<string, PriceRow>, log: seq<Call>): (r: (seq<Call>, seq<Handled>))
    ensures |r.1| == |items|
    ensures ExtendsWith(r.0, log, IsUpdate)
    decreases |items|
  {
    if |items| == 0 then (log, [])
    else
      var n := |items| - 1;
      var prev := UpdateBatch(store, items[..n], m, stock, prices, log);
      var step := UpdateItem(store, m, stock, prices, prev.0, items[n]);
      ExtendsTrans(step.0, prev.0, log, IsUpdate);
      (step.0, prev.1 + [step.1])
  }

  /** Item `i` of an update pass ran exactly when it wants an update. */
  lemma {:induction false} UpdateBatchDecides(store: Storefront, items: seq<ErpProduct>, m: map<string, WcProduct>,
    stock: map<string, real>, prices: map<string, PriceRow>, log: seq<Call>)
    ensures var r := UpdateBatch(store, items, m, stock, prices, log);
      forall i :: 0 <= i < |items| ==> (r.1[i].Ran? <==> WantsUpdate(m, stock, prices, items[i]))
    decreases |items|
  {
    if |items| > 0 {
      var n := |items| - 1;
      var prev := UpdateBatch(store, items[..n], m, stock, prices, log);
      UpdateBatchDecides(store, items[..n], m, stock, prices, log);
      var step := UpdateItem(store, m, stock, prices, prev.0, items[n]);
      assert items == items[..n] + [items[n]];
      RanExactlyAppend(items[..n], prev.1, items[n], step.1, p => WantsUpdate(m, stock, prices, p));
    }
  }

  /** What one `syncProducts` pass did: its plan and the three batches, each continuing the call
      log where the previous one stopped. */
  datatype SyncRun = SyncRun(plan: Plan, created: Pass, updated: (seq<Call>, seq<Handled>), deleted: (seq<Call>, seq<Handled>))
  {
    function Log(): seq<Call> { deleted.0 }
  }

  /** `syncProducts`, given what the four loaders returned: plan, then create, update and delete
      batches one after another. */
  function SyncProducts(store: Storefront, wc: seq<WcProduct>, erp: seq<ErpProduct>, stockRows: seq<StockRow>,
    priceRows: seq<PriceRow>, log: seq<Call>): (r: SyncRun)
    ensures |r.created.handled| == |r.plan.create| && |r.updated.1| == |r.plan.update| && |r.deleted.1| == |r.plan.delete|
    ensures ExtendsWith(r.created.log, log, IsCreate)
    ensures ExtendsWith(r.updated.0, r.created.log, IsUpdate)
    ensures r.Log() == r.updated.0 + DeleteCalls(r.plan.delete)
    ensures forall i :: 0 <= i < |r.plan.delete| ==> r.deleted.1[i] == Ran(1, [], false)
    ensures PhasesInOrder(log, r.Log())
  {
    var plan := PlanSync(wc, erp);
    var m := WcMap(wc);
    var stock := StockMap(stockRows);
    var prices := PriceMap(priceRows);
    var created := CreateBatch(store, plan.create, m, stock, prices, log);
    var updated := UpdateBatch(store, plan.update, m, stock, prices, created.log);
    var deleted := DeleteBatch(store, plan.delete, updated.0);
    PhasedLog(log, created.log, updated.0, DeleteCalls(plan.delete));
    SyncRun(plan, created, updated, deleted)
  }

  /** A create run only appends create calls. */
  lemma CreateOneLogsCreates(store: Storefront, p: ErpProduct, stock: real, price: Option<PriceRow>, log: seq<Call>)
    ensures ExtendsWith(CreateOne(store, p, stock, price, log).state, log, IsCreate)
  {
    var r := CreateOne(store, p, stock, price, log);
    if price.Some? {
      var c := CreateCall(CreatePayload(p, StockArg(Some(stock)), price).value);
      RepeatOnly(c, r.calls);
      assert r.state == log + Repeat([c], r.calls);
    }
  }
}

=== FILE: webhook.dfy ===
/** The order webhook of the src revision (src/modules/sync/sync.service.ts): `processNewOrder`
    checks the request, and `formatClient` / `formatOrder` turn a storefront order into the ERP's
    customer and order records.

    The HMAC-SHA256 signature, `JSON.parse`, the city-code lookup by postcode and the ERP's client
    query are outside code; they enter as parameters. */
module Webhook {
  import opened Outcomes
  import opened JsString
  import opened JsNumber
  import opened Orders

  /** The ERP customer record `formatClient` builds. */
  datatype Client = Client(
    codfilial: string,
    cgcent: string,
    ieent: string,
    cliente: string,
    fantasia: string,
    emailnfe: Option<string>,
    codcidadeibge: Option<string>,
    enderent: string,
    numeroent: string,
    complementoent: string,
    bairroent: string,
    municent: string,
    estent: string,
    cepent: string,
    telent: string,
    telcelent: string)

  /** One line of the ERP order. `codprod` is `Number(item.sku)`; `None` stands for `NaN`. */
  datatype OrderItem = OrderItem(codprod: Option<Number>, nomeproduto: string, pvenda: string, pvendabase: string, qt: int, brinde: string)

  /** The payment entry; apart from the method and its title every field is a fixed value. */
  datatype Payment = Payment(adquirente: string, formapagamento: string, idpagamentopix: string,
    nomeformapagamento: string, nsucartao: string, parcelas: int, valorpago: real)

  /** The ERP order record `formatOrder` builds (without `vlprodutos`, a floating-point sum). */
  datatype ErpOrder = ErpOrder(
    codparceiro: string,
    numpedweb: string,
    data: string,
    condvenda: int,
    codfilial: string,
    cliente: string,
    fantasia: string,
    cnpj: string,
    ieent: string,
    rg: string,
    emailnfe: Option<string>,
    enderent: string,
    complementoent: string,
    numeroent: string,
    bairroent: string,
    cepent: string,
    estent: string,
    municent: string,
    codcidadeibge: Option<string>,
    telent: string,
    telcelent: string,
    fretedespacho: string,
    idtransportadora: string,
    vlfrete: string,
    vltotal: string,
    itens: seq<OrderItem>,
    pagamentos: seq<Payment>)

  /** The customer's tax document: the CPF for a natural person (`persontype === 'F'`), the CNPJ
      otherwise. Both the client record and the ERP client lookup use it. */
  function Document(b: Billing): (r: string)
    ensures b.persontype == "F" ==> r == b.cpf
    ensures b.persontype != "F" ==> r == b.cnpj
  {
    if b.persontype == "F" then b.cpf else b.cnpj
  }

  /** `${first_name} ${last_name}`. */
  function FullName(b: Billing): (r: string)
    ensures |r| == |b.firstName| + 1 + |b.lastName|
    ensures r[..|b.firstName|] == b.firstName && r[|b.firstName|] == ' ' && r[|b.firstName| + 1..] == b.lastName
  {
    b.firstName + " " + b.lastName
  }

  /** `postcode.replace('-', '')`: the first dash removed. */
  function Cep(b: Billing): (r: string)
    ensures '-' !in b.postcode ==> r == b.postcode
    ensures '-' in b.postcode ==> |r| == |b.postcode| - 1
  {
    RemoveFirst(b.postcode, '-')
  }

  /** `formatClient(order, ibgeCode)`: reads `order.billing`, so an order without billing data
      throws. Both telephone fields are the digits of `phone`. */
  function FormatClient(order: Order, ibgeCode: Option<string>): (r: Outcome<Client, ()>)
    ensures r.Err? <==> order.billing.None?
    ensures r.Ok? ==> r.value.cgcent == Document(order.billing.value)
    ensures r.Ok? ==> r.value.cliente == FullName(order.billing.value) && r.value.cepent == Cep(order.billing.value)
    ensures r.Ok? ==> r.value.fantasia == order.billing.value.company.GetOr("")
    ensures r.Ok? ==> r.value.telent == r.value.telcelent == DigitsOnly(order.billing.value.phone)
    ensures r.Ok? ==> r.value.codcidadeibge == ibgeCode && r.value.codfilial == "4" && r.value.ieent == "ISENTO"
  {
    match order.billing
    case None => Err(())
    case Some(b) =>
      Ok(Client(
        codfilial := "4",
        cgcent := Document(b),
        ieent := "ISENTO",
        cliente := FullName(b),
        fantasia := b.company.GetOr(""),
        emailnfe := b.email,
        codcidadeibge := ibgeCode,
        enderent := b.address1,
        numeroent := b.number,
        complementoent := b.address2,
        bairroent := b.neighborhood,
        municent := b.city,
        estent := b.state,
        cepent := Cep(b),
        telent := DigitsOnly(b.phone),
        telcelent := DigitsOnly(b.phone)))
  }

  /** `line_items.map(...)`: one ERP line per storefront line, in order. */
  function Items(lines: seq<LineItem>): (r: seq<OrderItem>)
    ensures |r| == |lines|
    ensures forall i :: 0 <= i < |lines| ==>
      r[i].codprod == ToNumber(lines[i].sku) && r[i].nomeproduto == lines[i].name && r[i].qt == lines[i].quantity
    ensures forall i :: 0 <= i < |lines| ==> r[i].pvenda == r[i].pvendabase == lines[i].total && r[i].brinde == "N"
  {
    seq(|lines|, i requires 0 <= i < |lines| =>
      OrderItem(ToNumber(lines[i].sku), lines[i].name, lines[i].total, lines[i].total, lines[i].quantity, "N"))
  }

  /** A line whose SKU is the decimal code the storefront product was created with carries that
      code back to the ERP: `Number(String(n))` is `n`. */
  lemma ItemCodesReadBack(lines: seq<LineItem>, codes: seq<nat>)
    requires |codes| == |lines|
    requires forall i :: 0 <= i < |lines| ==> lines[i].sku == Decimal(codes[i])
    ensures forall i :: 0 <= i < |lines| ==> Items(lines)[i].codprod == Some(Exact(codes[i], 0))
  {
    forall i | 0 <= i < |lines| ensures Items(lines)[i].codprod == Some(Exact(codes[i], 0)) {
      NumberOfDecimal(codes[i]);
    }
  }

  /** `formatOrder(order, ibgeCode)`. The cell phone field is the digits of `cellphone`; the
      payment's method is copied unprocessed. */
  function FormatOrder(order: Order, ibgeCode: Option<string>): (r: Outcome<ErpOrder, ()>)
    ensures r.Err? <==> order.billing.None?
    ensures r.Ok? ==> r.value.numpedweb == "PED-" + order.number
    ensures r.Ok? ==> r.value.itens == Items(order.lineItems)
    ensures r.Ok? ==> r.value.telcelent == DigitsOnly(order.billing.value.cellphone) && r.value.codcidadeibge == ibgeCode
    ensures r.Ok? ==> |r.value.pagamentos| == 1 && r.value.pagamentos[0].formapagamento == order.paymentMethod
    ensures r.Ok? ==> r.value.vltotal == order.total && r.value.vlfrete == order.shippingTax
    ensures r.Ok? ==> r.value.cnpj == order.billing.value.cnpj
  {
    match order.billing
    case None => Err(())
    case Some(b) =>
      Ok(ErpOrder(
        codparceiro := "MIT-TECH",
        numpedweb := "PED-" + order.number,
        data := order.dateCreated,
        condvenda := 1,
        codfilial := "4",
        cliente := FullName(b),
        fantasia := b.company.GetOr(""),
        cnpj := b.cnpj,
        ieent := "ISENTO",
        rg := "",
        emailnfe := b.email,
        enderent := b.address1,
        complementoent := b.address2,
        numeroent := b.number,
        bairroent := b.neighborhood,
        cepent := Cep(b),
        estent := b.state,
        municent := b.city,
        codcidadeibge := ibgeCode,
        telent := DigitsOnly(b.phone),
        telcelent := DigitsOnly(b.cellphone),
        fretedespacho := "C",
        idtransportadora := "CORREIOS SEDEX",
        vlfrete := order.shippingTax,
        vltotal := order.total,
        itens := Items(order.lineItems),
        pagamentos := [Payment("CIELO", order.paymentMethod, "", order.paymentMethodTitle, "102030", 3, 120.0)]))
  }

  /** The order number can be read back from `numpedweb`. */
  lemma OrderNumberRoundTrip(order: Order, ibgeCode: Option<string>)
    requires order.billing.Some?
    ensures var r := FormatOrder(order, ibgeCode).value;
      |r.numpedweb| == 4 + |order.number| && r.numpedweb[..4] == "PED-" && r.numpedweb[4..] == order.number
  {
  }

  /** The two records describe the same customer: name, trade name, e-mail, address, postcode
      and phone agree field by field. */
  lemma ClientAndOrderAgree(order: Order, ibgeCode: Option<string>)
    requires order.billing.Some?
    ensures var c := FormatClient(order, ibgeCode).value; var o := FormatOrder(order, ibgeCode).value;
      c.cliente == o.cliente && c.fantasia == o.fantasia && c.emailnfe == o.emailnfe && c.enderent == o.enderent
      && c.numeroent == o.numeroent && c.complementoent == o.complementoent && c.bairroent == o.bairroent
      && c.cepent == o.cepent && c.telent == o.telent && c.municent == o.municent && c.estent == o.estent
  {
  }

  /** A postcode written `a-b` reaches the ERP as `ab`: the only dash is removed and nothing else. */
  lemma DashedPostcode(b: Billing, a: string, rest: string)
    requires '-' !in a && b.postcode == a + "-" + rest
    ensures Cep(b) == a + rest
  {
    RemoveFirstSplits(a, rest, '-');
  }

  /** The telephone fields hold exactly the digits of the number they are taken from. */
  lemma PhoneDigits(b: Billing, ch: char)
    ensures ch in DigitsOnly(b.phone) <==> ch in b.phone && IsDigit(ch)
    ensures ch in DigitsOnly(b.cellphone) <==> ch in b.cellphone && IsDigit(ch)
  {
    DigitsOnlyKeepsDigits(b.phone, ch);
    DigitsOnlyKeepsDigits(b.cellphone, ch);
  }

  /** `omniaService.getClientByCpfOrCnpj(document)`: an empty document throws before any request;
      otherwise `request` is the token fetch and the GET together, giving the number of ERP clients
      registered under the document or the failing request's message, which comes back prefixed. */
  function ClientLookup(document: string, request: string -> Outcome<nat, string>): (r: Outcome<nat, string>)
    ensures document == "" ==> r == Err("CPF/CNPJ não informado")
    ensures document != "" ==> (r.Ok? <==> request(document).Ok?)
    ensures r.Ok? ==> r.value == request(document).value
    ensures document != "" && request(document).Err? ==> r == Err("Falha ao buscar cliente: " + request(document).error)
  {
    if document == "" then Err("CPF/CNPJ não informado")
    else match request(document)
      case Ok(n) => Ok(n)
      case Err(m) => Err("Falha ao buscar cliente: " + m)
  }

  /** Why `processNewOrder` rejects a request. `Unparsable` is `JSON.parse` throwing, `NoBilling`
      reading `billing` of an order without it, and `LookupFailed` the ERP client lookup's error. */
  datatype WebhookError = BadRequest(message: string) | Unauthorized(message: string) | Unparsable | NoBilling
    | LookupFailed(message: string)

  /** What a processed order produced: the customer record, the order record, the document the
      ERP was asked for, and whether the ERP had no client under it (the "creating" warning). */
  datatype Processed = Processed(client: Client, order: ErpOrder, document: string, newClient: bool)

  /** `processNewOrder(rawBody, signature)`. `sign` is the base64 HMAC-SHA256 of the body under the
      webhook secret, `parse` is `JSON.parse` (`None` when it throws), `ibge` the city-code lookup
      by postcode, `request` the ERP's client query as in `ClientLookup`. The checks run in order:
      body present, signature present, signature matches; the client lookup comes last and its
      rejection is not caught. */
  function ProcessNewOrder(rawBody: Option<seq<bv8>>, signature: Option<string>, sign: seq<bv8> -> string,
    parse: seq<bv8> -> Option<Order>, ibge: string -> Option<string>, request: string -> Outcome<nat, string>)
    : (r: Outcome<Processed, WebhookError>)
    ensures rawBody.None? ==> r == Err(BadRequest("RawBody ausente"))
    ensures rawBody.Some? && !Truthy(signature) ==> r == Err(BadRequest("Assinatura do webhook ausente"))
    ensures rawBody.Some? && Truthy(signature) && sign(rawBody.value) != signature.value ==>
      r == Err(Unauthorized("Assinatura inválida"))
    ensures r.Ok? <==>
      && rawBody.Some? && Truthy(signature) && sign(rawBody.value) == signature.value
      && parse(rawBody.value).Some? && parse(rawBody.value).value.billing.Some?
      && Document(parse(rawBody.value).value.billing.value) != ""
      && request(Document(parse(rawBody.value).value.billing.value)).Ok?
    ensures r.Err? && r.error.LookupFailed? ==>
      && rawBody.Some? && Truthy(signature) && sign(rawBody.value) == signature.value
      && parse(rawBody.value).Some? && parse(rawBody.value).value.billing.Some?
      && r.error.message == ClientLookup(Document(parse(rawBody.value).value.billing.value), request).error
    ensures r.Ok? ==> var b := parse(rawBody.value).value.billing.value;
      && r.value.document == Document(b) && r.value.client.cgcent == r.value.document
      && (r.value.newClient <==> request(Document(b)).value == 0)
    ensures r.Ok? ==> r.value.client.codcidadeibge.None?
    ensures r.Ok? ==> r.value.order.codcidadeibge == ibge(Cep(parse(rawBody.value).value.billing.value))
  {
    if rawBody.None? then Err(BadRequest("RawBody ausente"))
    else if !Truthy(signature) then Err(BadRequest("Assinatura do webhook ausente"))
    else if sign(rawBody.value) != signature.value then Err(Unauthorized("Assinatura inválida"))
    else match parse(rawBody.value)
      case None => Err(Unparsable)
      case Some(order) =>
        match order.billing
        case None => Err(NoBilling)
        case Some(b) =>
          var code := ibge(Cep(b));
          match ClientLookup(Document(b), request)
          case Err(m) => Err(LookupFailed(m))
          case Ok(n) => Ok(Processed(FormatClient(order, None).value, FormatOrder(order, code).value, Document(b), n == 0))
  }

  /** A natural person who left the CPF empty is rejected by the client lookup, with the lookup's own
      message, whatever the ERP would answer. */
  lemma EmptyDocumentRejected(rawBody: seq<bv8>, signature: string, sign: seq<bv8> -> string,
    parse: seq<bv8> -> Option<Order>, ibge: string -> Option<string>, request: string -> Outcome<nat, string>)
    requires signature != "" && sign(rawBody) == signature
    requires parse(rawBody).Some? && parse(rawBody).value.billing.Some?
    requires Document(parse(rawBody).value.billing.value) == ""
    ensures ProcessNewOrder(Some(rawBody), Some(signature), sign, parse, ibge, request)
      == Err(LookupFailed("CPF/CNPJ não informado"))
  {
  }

  /** A request is judged on its signature before its content: with a wrong signature, the same
      rejection comes back whatever the body would parse to. */
  lemma SignatureCheckedBeforeParsing(rawBody: seq<bv8>, signature: string, sign: seq<bv8> -> string,
    parse1: seq<bv8> -> Option<Order>, parse2: seq<bv8> -> Option<Order>, ibge: string -> Option<string>,
    request1: string -> Outcome<nat, string>, request2: string -> Outcome<nat, string>)
    requires signature != "" && sign(rawBody) != signature
    ensures ProcessNewOrder(Some(rawBody), Some(signature), sign, parse1, ibge, request1)
      == ProcessNewOrder(Some(rawBody), Some(signature), sign, parse2, ibge, request2)
      == Err(Unauthorized("Assinatura inválida"))
  {
  }
}

=== FILE: woo_catalog.dfy ===
/** The storefront catalogue calls of `WoocommerceService`
    (src/modules/woocommerce/woocommerce.service.ts): fetch of every product with id
    de-duplication, lookup of one product by SKU, and the two delete variants. */
module WooCatalog {
  import opened Outcomes
  import opened Seqs
  import opened Catalog

  /** The first page of the product listing: its products and `parseInt(x-wp-totalpages, 10)`,
      `None` standing for NaN (header missing or not a number). */
  datatype FirstPage = FirstPage(data: seq<WcProduct>, totalPagesHeader: Option<int>)

  /** `parseInt(...) || 1`: NaN and 0 are falsy and give 1; any other number is kept. */
  function TotalPages(header: Option<int>): (r: int)
    ensures r == 1 <==> header.None? || header.value == 0 || header.value == 1
    ensures header.Some? && header.value != 0 ==> r == header.value
  {
    if header.None? || header.value == 0 then 1 else header.value
  }

  function IdOf(p: WcProduct): int {
    p.id
  }

  /** The products the id map holds, read in the key order `order`. */
  function Pick(m: map<int, WcProduct>, order: seq<int>): (r: seq<WcProduct>)
    requires forall i :: 0 <= i < |order| ==> order[i] in m
    ensures |r| == |order| && forall i :: 0 <= i < |r| ==> r[i] == m[order[i]]
  {
    seq(|order|, i requires 0 <= i < |order| => m[order[i]])
  }

  /** Every product of the map sits under its own id. */
  lemma PickIds(products: seq<WcProduct>, order: seq<int>)
    requires forall i :: 0 <= i < |order| ==> order[i] in KeysOf(products, IdOf)
    ensures var r := Pick(LastWins(products, IdOf), order);
      forall i :: 0 <= i < |r| ==> r[i].id == order[i]
  {
    forall i | 0 <= i < |order| ensures LastWins(products, IdOf)[order[i]].id == order[i] {
      LastWinsHoldsKey(products, order[i]);
    }
  }

  /** An id is represented in the result exactly when some product carries it. */
  lemma PickCovers(r: seq<WcProduct>, order: seq<int>, ids: seq<int>)
    requires |r| == |order| && forall i :: 0 <= i < |r| ==> r[i].id == order[i]
    requires forall x :: x in order <==> x in ids
    ensures forall x :: (exists i :: 0 <= i < |r| && r[i].id == x) <==> x in ids
  {
    forall x ensures (exists i :: 0 <= i < |r| && r[i].id == x) <==> x in ids {
      if x in ids {
        var i :| 0 <= i < |order| && order[i] == x;
        assert r[i].id == x;
      }
    }
  }

  /** The first-appearance order of the keys carries over to the products picked by them. */
  lemma PickOrder(products: seq<WcProduct>, r: seq<WcProduct>, order: seq<int>)
    requires order == FirstAppearances(KeysOf(products, IdOf))
    requires |r| == |order| && forall i :: 0 <= i < |r| ==> r[i].id == order[i]
    ensures forall i, j, q :: 0 <= i < j < |r| && 0 <= q < |products| && products[q].id == r[j].id ==>
      r[i].id in KeysOf(products[..q], IdOf)
  {
    var ids := KeysOf(products, IdOf);
    FirstAppearanceOrder(ids);
    forall i, j, q | 0 <= i < j < |r| && 0 <= q < |products| && products[q].id == r[j].id
      ensures r[i].id in KeysOf(products[..q], IdOf) {
      assert ids[q] == order[j];
      assert KeysOf(products[..q], IdOf) == ids[..q];
    }
  }

  /** `new Map(products.map(p => [p.id, p])).values()`: one product per id, in the order the ids
      first appear, each holding the last product seen with that id. */
  function DedupById(products: seq<WcProduct>): (r: seq<WcProduct>)
    ensures forall i, j :: 0 <= i < j < |r| ==> r[i].id != r[j].id
    ensures forall x :: (exists i :: 0 <= i < |r| && r[i].id == x) <==> x in KeysOf(products, IdOf)
    ensures forall i, j :: 0 <= i < |r| && 0 <= j < |products| && products[j].id == r[i].id ==>
      (forall k :: j < k < |products| ==> products[k].id != products[j].id) ==> r[i] == products[j]
    ensures forall i, j, q :: 0 <= i < j < |r| && 0 <= q < |products| && products[q].id == r[j].id ==>
      r[i].id in KeysOf(products[..q], IdOf)
  {
    var ids := KeysOf(products, IdOf);
    var order := FirstAppearances(ids);
    var m := LastWins(products, IdOf);
    var r := Pick(m, order);
    PickIds(products, order);
    PickCovers(r, order, ids);
    PickOrder(products, r, order);
    r
  }

  /** The element a key holds in the id map carries that id. */
  lemma LastWinsHoldsKey(products: seq<WcProduct>, x: int)
    requires x in KeysOf(products, IdOf)
    ensures x in LastWins(products, IdOf) && LastWins(products, IdOf)[x].id == x
  {
    var ids := KeysOf(products, IdOf);
    var j := LastIndex(ids, x);
    assert products[j].id == x;
  }

  /** The position of the last `x` in `ids`. */
  function LastIndex(ids: seq<int>, x: int): (j: nat)
    requires x in ids
    ensures j < |ids| && ids[j] == x && forall k :: j < k < |ids| ==> ids[k] != x
    decreases |ids|
  {
    var n := |ids| - 1;
    if ids[n] == x then n
    else
      assert ids == ids[..n] + [ids[n]];
      var j := LastIndex(ids[..n], x);
      assert ids[j] == ids[..n][j];
      j
  }

  /** The products of the later pages that were fulfilled, in page order; rejected ones are dropped
      (`Promise.allSettled` filtered on `fulfilled`). */
  function FulfilledRows<E>(later: int -> Outcome<seq<WcProduct>, E>, pages: seq<int>): (r: seq<WcProduct>)
    ensures forall p :: p in r ==> exists i :: 0 <= i < |pages| && later(pages[i]).Ok? && p in later(pages[i]).value
    ensures forall i, p :: 0 <= i < |pages| && later(pages[i]).Ok? && p in later(pages[i]).value ==> p in r
    decreases |pages|
  {
    if |pages| == 0 then []
    else
      var rest := FulfilledRows(later, pages[1..]);
      assert forall i :: 1 <= i < |pages| ==> pages[i] == pages[1..][i - 1];
      match later(pages[0])
      case Ok(d) => d + rest
      case Err(_) => rest
  }

  /** What a settled request contributes: its products when fulfilled, nothing when rejected. */
  function SettledRows<E>(o: Outcome<seq<WcProduct>, E>): seq<WcProduct> {
    if o.Ok? then o.value else []
  }

  /** The kept products are exactly `results.filter(fulfilled).flatMap(r => r.value.data)`: each
      page's settled products, concatenated in the order the pages were requested. */
  lemma {:induction false} FulfilledRowsInPageOrder<E>(later: int -> Outcome<seq<WcProduct>, E>, pages: seq<int>)
    ensures FulfilledRows(later, pages) ==
      Flatten(seq(|pages|, i requires 0 <= i < |pages| => SettledRows(later(pages[i]))))
    decreases |pages|
  {
    var ss := seq(|pages|, i requires 0 <= i < |pages| => SettledRows(later(pages[i])));
    if |pages| > 0 {
      FulfilledRowsInPageOrder(later, pages[1..]);
      assert ss[1..] == seq(|pages[1..]|, i requires 0 <= i < |pages[1..]| => SettledRows(later(pages[1..][i])));
    }
  }

  /** What a full fetch did: the later pages it requested, and the de-duplicated products. */
  datatype ProductsRun = ProductsRun(requested: seq<int>, products: seq<WcProduct>)

  /** `getAllProductsConcurrent`: page 1 (its failure propagates), then pages `2..totalPages`
      each requested once, failed ones dropped, everything de-duplicated by id.
      `later(p)` is the storefront's answer for page `p`. */
  function GetAllProductsConcurrent<E>(first: Outcome<FirstPage, E>, later: int -> Outcome<seq<WcProduct>, E>)
    : (r: Outcome<ProductsRun, E>)
    ensures first.Err? <==> r.Err?
    ensures first.Err? ==> r.error == first.error
    ensures first.Ok? ==> r.value.requested == Range(2, TotalPages(first.value.totalPagesHeader))
    ensures first.Ok? ==>
      r.value.products == DedupById(first.value.data + FulfilledRows(later, r.value.requested))
    ensures first.Ok? ==>
      var pages := r.value.requested;
      r.value.products == DedupById(first.value.data +
        Flatten(seq(|pages|, i requires 0 <= i < |pages| => SettledRows(later(pages[i])))))
  {
    match first
    case Err(e) => Err(e)
    case Ok(page1) =>
      var pages := Range(2, TotalPages(page1.totalPagesHeader));
      FulfilledRowsInPageOrder(later, pages);
      Ok(ProductsRun(pages, DedupById(page1.data + FulfilledRows(later, pages))))
  }

  /** A product listed twice, on page 1 and again on page 2, is kept once, with its page-2 version. */
  lemma OverlappingPagesKeepOne(a: WcProduct, b: WcProduct)
    requires a.id == b.id
    ensures DedupById([a, b]) == [b]
  {
    var ps := [a, b];
    var ids := KeysOf(ps, IdOf);
    assert ids == [a.id, a.id];
    assert ids[..1] == [a.id];
    assert FirstAppearances([a.id]) == [a.id] by {
      assert [a.id][..0] == [];
    }
    assert FirstAppearances(ids) == [a.id];
    assert LastWins(ps, IdOf)[IdOf(ps[1])] == b;
  }

  /** What a SKU lookup did: whether a request was made, and the product found. */
  datatype SkuLookup = SkuLookup(requested: bool, found: Option<WcProduct>)

  /** `getProductBySku(sku)`: `null` for a falsy SKU without a request, `null` when the request
      fails or lists nothing, otherwise the first product listed. */
  function GetProductBySku<E>(sku: string, response: Outcome<seq<WcProduct>, E>): (r: SkuLookup)
    ensures r.requested <==> sku != ""
    ensures r.found.Some? <==> sku != "" && response.Ok? && |response.value| > 0
    ensures r.found.Some? ==> r.found.value == response.value[0]
  {
    if sku == "" then SkuLookup(false, None)
    else match response
      case Err(_) => SkuLookup(true, None)
      case Ok(products) => SkuLookup(true, if |products| > 0 then Some(products[0]) else None)
  }

  /** `deleteProduct(id)`: a failed request is logged and swallowed, so it never rejects. */
  function DeleteProduct<T, E>(response: Outcome<T, E>): (r: Outcome<(), E>)
    ensures r.Ok?
  {
    match response
    case Ok(_) => Ok(())
    case Err(_) => Ok(())
  }

  /** `deleteProductPermanently(id)`: a failed request is logged and rethrown. */
  function DeleteProductPermanently<T, E>(response: Outcome<T, E>): (r: Outcome<(), E>)
    ensures r.Err? <==> response.Err?
  {
    match response
    case Ok(_) => Ok(())
    case Err(e) => Err(e)
  }
}

=== FILE: woo_customers.dfy ===
/** `WoocommerceService.getAllCustomersFromOrders` (src/modules/woocommerce/woocommerce.service.ts):
    a customer report built by scanning order pages, one entry per billing e-mail of a registered
    customer, followed by an in-memory page window. Order totals (`total_spent`) are not modelled. */
module WooCustomers {
  import opened Outcomes
  import opened Seqs
  import opened JsString
  import opened Orders

  /** One entry of the report: the profile of the customer's first qualifying order and the
      number of qualifying orders with that e-mail. */
  datatype Customer = Customer(
    firstName: string,
    lastName: string,
    email: string,
    phone: string,
    city: string,
    country: string,
    totalOrders: nat,
    registeredDate: string)

  /** An order counts when it has billing data with a non-empty e-mail and a positive customer id. */
  predicate Qualifies(o: Order) {
    o.billing.Some? && Truthy(o.billing.value.email) && o.customerId.Some? && o.customerId.value > 0
  }

  function EmailOf(o: Order): string {
    if o.billing.Some? then Text(o.billing.value.email) else ""
  }

  /** The entry a first qualifying order creates. */
  function Profile(o: Order): (c: Customer)
    requires Qualifies(o)
    ensures c.email == EmailOf(o) && c.totalOrders == 1
  {
    var b := o.billing.value;
    Customer(b.firstName, b.lastName, b.email.value, b.phone, b.city, b.country, 1, o.dateCreated)
  }

  /** The e-mails of the qualifying orders, one per order, in order. */
  function QualifiedEmails(os: seq<Order>): (r: seq<string>)
    ensures forall e :: e in r ==> e != ""
    decreases |os|
  {
    if |os| == 0 then []
    else
      var n := |os| - 1;
      QualifiedEmails(os[..n]) + (if Qualifies(os[n]) then [EmailOf(os[n])] else [])
  }

  /** Reference count: the qualifying orders carrying e-mail `e`. */
  function OrdersOf(os: seq<Order>, e: string): (r: nat)
    ensures r > 0 <==> e in QualifiedEmails(os)
    decreases |os|
  {
    if |os| == 0 then 0
    else
      var n := |os| - 1;
      OrdersOf(os[..n], e) + (if Qualifies(os[n]) && EmailOf(os[n]) == e then 1 else 0)
  }

  /** Reference profile source: the first qualifying order carrying e-mail `e`. */
  function FirstOrderOf(os: seq<Order>, e: string): (r: Option<Order>)
    ensures r.Some? <==> e in QualifiedEmails(os)
    ensures r.Some? ==> Qualifies(r.value) && EmailOf(r.value) == e && r.value in os
    decreases |os|
  {
    if |os| == 0 then None
    else
      var n := |os| - 1;
      var earlier := FirstOrderOf(os[..n], e);
      if earlier.Some? then earlier
      else if Qualifies(os[n]) && EmailOf(os[n]) == e then Some(os[n])
      else None
  }

  /** The position of the entry for `e`, if there is one (`customersMap.has`). */
  function IndexOfEmail(cs: seq<Customer>, e: string): (r: Option<nat>)
    ensures r.Some? ==> r.value < |cs| && cs[r.value].email == e
    ensures r.None? ==> forall i :: 0 <= i < |cs| ==> cs[i].email != e
    decreases |cs|
  {
    if |cs| == 0 then None
    else if cs[0].email == e then Some(0)
    else
      var r := IndexOfEmail(cs[1..], e);
      if r.Some? then Some(r.value + 1) else None
  }

  /** One turn of the order loop: skip, count one more order, or open a new entry. */
  function AddOrder(cs: seq<Customer>, o: Order): seq<Customer> {
    if !Qualifies(o) then cs
    else match IndexOfEmail(cs, EmailOf(o))
      case Some(i) => cs[i := cs[i].(totalOrders := cs[i].totalOrders + 1)]
      case None => cs + [Profile(o)]
  }

  /** The entries after the loop has seen the orders `os`, in `Map` insertion order. */
  ghost predicate Summarises(cs: seq<Customer>, os: seq<Order>) {
    var emails := FirstAppearances(QualifiedEmails(os));
    |cs| == |emails| &&
    (forall i :: 0 <= i < |cs| ==> cs[i].email == emails[i]) &&
    (forall i :: 0 <= i < |cs| ==> Entry(cs[i], os))
  }

  /** One entry as the orders `os` determine it: the count of its e-mail's qualifying orders and
      the profile of the first of them. */
  ghost predicate Entry(c: Customer, os: seq<Order>) {
    c.totalOrders == OrdersOf(os, c.email) &&
    FirstOrderOf(os, c.email).Some? &&
    c == Profile(FirstOrderOf(os, c.email).value).(totalOrders := c.totalOrders)
  }

  /** The report entries for the orders `os`, scanned in order. What they hold is stated by
      `CustomersSummarise`. */
  function Customers(os: seq<Order>): seq<Customer>
    decreases |os|
  {
    if |os| == 0 then [] else AddOrder(Customers(os[..|os| - 1]), os[|os| - 1])
  }

  /** The report has one entry per e-mail of a qualifying order, in the order the e-mails first
      appear, each with the profile of its first qualifying order and the count of its
      qualifying orders. */
  lemma {:induction false} CustomersSummarise(os: seq<Order>)
    ensures Summarises(Customers(os), os)
    decreases |os|
  {
    if |os| > 0 {
      var n := |os| - 1;
      CustomersSummarise(os[..n]);
      AddOrderStep(Customers(os[..n]), os[..n], os[n]);
      assert os[..n] + [os[n]] == os;
    }
  }

  /** One more order keeps the report a summary of the orders read. */
  lemma AddOrderStep(cs: seq<Customer>, os: seq<Order>, o: Order)
    requires Summarises(cs, os)
    ensures Summarises(AddOrder(cs, o), os + [o])
  {
    if !Qualifies(o) {
      AddSkipped(cs, os, o);
    } else {
      match IndexOfEmail(cs, EmailOf(o))
      case Some(i) => AddRepeat(cs, os, o, i);
      case None => AddNew(cs, os, o);
    }
  }

  /** How the reference definitions grow by one order. */
  lemma ReferenceSnoc(os: seq<Order>, o: Order, e: string)
    ensures QualifiedEmails(os + [o]) == QualifiedEmails(os) + (if Qualifies(o) then [EmailOf(o)] else [])
    ensures OrdersOf(os + [o], e) == OrdersOf(os, e) + (if Qualifies(o) && EmailOf(o) == e then 1 else 0)
    ensures FirstOrderOf(os + [o], e) ==
      if FirstOrderOf(os, e).Some? then FirstOrderOf(os, e)
      else if Qualifies(o) && EmailOf(o) == e then Some(o) else None
  {
    assert (os + [o])[..|os|] == os;
  }

  lemma FirstAppearancesSnoc(ids: seq<string>, x: string)
    ensures FirstAppearances(ids + [x]) == if x in ids then FirstAppearances(ids) else FirstAppearances(ids) + [x]
  {
    assert (ids + [x])[..|ids|] == ids;
  }

  lemma AddSkipped(cs: seq<Customer>, os: seq<Order>, o: Order)
    requires Summarises(cs, os) && !Qualifies(o)
    ensures Summarises(cs, os + [o])
  {
    ReferenceSnoc(os, o, "");
    assert QualifiedEmails(os + [o]) == QualifiedEmails(os) + [] == QualifiedEmails(os);
    forall i | 0 <= i < |cs| ensures Entry(cs[i], os + [o]) {
      EntryKept(cs[i], os, o);
    }
  }

  lemma AddRepeat(cs: seq<Customer>, os: seq<Order>, o: Order, i: nat)
    requires Summarises(cs, os) && Qualifies(o) && i < |cs| && cs[i].email == EmailOf(o)
    ensures Summarises(cs[i := cs[i].(totalOrders := cs[i].totalOrders + 1)], os + [o])
  {
    var e := EmailOf(o);
    var emails := FirstAppearances(QualifiedEmails(os));
    assert FirstAppearances(QualifiedEmails(os + [o])) == emails by {
      ReferenceSnoc(os, o, e);
      assert e in emails by { assert emails[i] == e; }
      FirstAppearancesSnoc(QualifiedEmails(os), e);
    }
    var r := cs[i := cs[i].(totalOrders := cs[i].totalOrders + 1)];
    forall j | 0 <= j < |r| ensures r[j].email == emails[j] && Entry(r[j], os + [o]) {
      if j == i {
        EntryCounted(cs[i], os, o);
      } else {
        assert cs[j].email == emails[j] != emails[i] == e;
        EntryKept(cs[j], os, o);
      }
    }
  }

  lemma AddNew(cs: seq<Customer>, os: seq<Order>, o: Order)
    requires Summarises(cs, os) && Qualifies(o) && forall i :: 0 <= i < |cs| ==> cs[i].email != EmailOf(o)
    ensures Summarises(cs + [Profile(o)], os + [o])
  {
    var e := EmailOf(o);
    var emails := FirstAppearances(QualifiedEmails(os));
    assert e !in emails by {
      forall j | 0 <= j < |emails| ensures emails[j] != e { assert cs[j].email == emails[j]; }
    }
    assert FirstAppearances(QualifiedEmails(os + [o])) == emails + [e] by {
      ReferenceSnoc(os, o, e);
      FirstAppearancesSnoc(QualifiedEmails(os), e);
    }
    var r := cs + [Profile(o)];
    forall j | 0 <= j < |r| ensures r[j].email == (emails + [e])[j] && Entry(r[j], os + [o]) {
      if j < |cs| {
        assert r[j] == cs[j];
        EntryKept(cs[j], os, o);
      } else {
        EntryNew(os, o);
      }
    }
  }

  /** An entry for another e-mail is untouched by the order. */
  lemma EntryKept(c: Customer, os: seq<Order>, o: Order)
    requires Entry(c, os) && (!Qualifies(o) || c.email != EmailOf(o))
    ensures Entry(c, os + [o])
  {
    ReferenceSnoc(os, o, c.email);
  }

  /** The entry for the order's e-mail counts it. */
  lemma EntryCounted(c: Customer, os: seq<Order>, o: Order)
    requires Entry(c, os) && Qualifies(o) && c.email == EmailOf(o)
    ensures Entry(c.(totalOrders := c.totalOrders + 1), os + [o])
  {
    ReferenceSnoc(os, o, c.email);
  }

  /** A first order with a new e-mail opens its entry. */
  lemma EntryNew(os: seq<Order>, o: Order)
    requires Qualifies(o) && EmailOf(o) !in QualifiedEmails(os)
    ensures Entry(Profile(o), os + [o])
  {
    ReferenceSnoc(os, o, EmailOf(o));
    var p := Profile(o);
    assert p == p.(totalOrders := 1);
  }

  /** One response of the order listing: its orders and `Number(x-wp-totalpages)`, `None`
      standing for NaN. */
  datatype OrderPage = OrderPage(orders: seq<Order>, totalPagesHeader: Option<int>)

  /** The answer for page `k` (from 1); past the last scripted page the listing is empty. */
  function PageAt<E>(responses: seq<Outcome<OrderPage, E>>, k: int): (r: Outcome<OrderPage, E>)
    ensures (k < 1 || k > |responses|) ==> r == Ok(OrderPage([], None))
  {
    if 1 <= k <= |responses| then responses[k - 1] else Ok(OrderPage([], None))
  }

  /** The orders of pages `lo .. hi-1`, in page order (a failed page contributes nothing). */
  function OrdersBetween<E>(responses: seq<Outcome<OrderPage, E>>, lo: int, hi: int): seq<Order>
    decreases hi - lo
  {
    if lo >= hi then [] else PageOrders(responses, lo) + OrdersBetween(responses, lo + 1, hi)
  }

  /** The orders page `k` contributes: none when its request failed. */
  function PageOrders<E>(responses: seq<Outcome<OrderPage, E>>, k: int): seq<Order> {
    var here := PageAt(responses, k);
    if here.Ok? then here.value.orders else []
  }

  /** The loop goes on after page `k`: the page had orders, fewer than `want` customers are known,
      and the next page number does not exceed the header (a NaN header never stops it). */
  predicate Continues(page: OrderPage, k: int, known: nat, want: int) {
    |page.orders| > 0 && known < want &&
    !(page.totalPagesHeader.Some? && k + 1 > page.totalPagesHeader.value)
  }

  /** Where the loop stopped: every order it read, and the last page it requested. */
  datatype Scan = Scan(scanned: seq<Order>, lastPage: int)

  /** The loop went on after every page `current .. last-1`: each was answered and let it continue. */
  ghost predicate WentOnThrough<E>(responses: seq<Outcome<OrderPage, E>>, want: int, current: int, last: int)
  {
    forall k :: current <= k < last ==>
      PageAt(responses, k).Ok? &&
      Continues(PageAt(responses, k).value, k, |Customers(OrdersBetween(responses, 1, k + 1))|, want)
  }

  /** What a scan from page `current` has done when it returns `r`: it requested the pages
      `current .. lastPage`, all answered, and has read every order of pages `1 .. lastPage`; it
      went on after every page before the last and stopped at the last. A failure is the answer
      to the first page it requested that failed: it went on after every page before that one. */
  ghost predicate ScanAccounts<E>(responses: seq<Outcome<OrderPage, E>>, want: int, current: int, r: Outcome<Scan, E>)
  {
    match r
    case Ok(s) =>
      current <= s.lastPage <= |responses| + 1 &&
      PageAt(responses, s.lastPage).Ok? &&
      s.scanned == OrdersBetween(responses, 1, s.lastPage + 1) &&
      WentOnThrough(responses, want, current, s.lastPage) &&
      !Continues(PageAt(responses, s.lastPage).value, s.lastPage, |Customers(s.scanned)|, want)
    case Err(e) =>
      exists k :: current <= k <= |responses| && PageAt(responses, k) == Err(e) &&
        WentOnThrough(responses, want, current, k)
  }

  /** The `while (true)` loop from page `current` on, `seen` being the orders of the pages before
      it and `want` being `page * perPage`. A failed request rejects the whole call. */
  function ScanFrom<E>(responses: seq<Outcome<OrderPage, E>>, want: int, current: int, seen: seq<Order>)
    : (r: Outcome<Scan, E>)
    requires 1 <= current <= |responses| + 1 && seen == OrdersBetween(responses, 1, current)
    ensures ScanAccounts(responses, want, current, r)
    decreases |responses| + 1 - current
  {
    match PageAt(responses, current)
    case Err(e) => Err(e)
    case Ok(pg) =>
      var seen' := seen + pg.orders;
      OrdersSnoc(responses, 1, current);
      if |pg.orders| == 0 then
        assert seen' == seen;
        Ok(Scan(seen, current))
      else if !Continues(pg, current, |Customers(seen')|, want) then
        Ok(Scan(seen', current))
      else
        var rest := ScanFrom(responses, want, current + 1, seen');
        ScanStep(responses, want, current, rest);
        rest
  }

  /** A scan that went on past page `current` accounts for that page too. */
  lemma ScanStep<E>(responses: seq<Outcome<OrderPage, E>>, want: int, current: int, rest: Outcome<Scan, E>)
    requires 1 <= current && PageAt(responses, current).Ok?
    requires Continues(PageAt(responses, current).value, current, |Customers(OrdersBetween(responses, 1, current + 1))|, want)
    requires ScanAccounts(responses, want, current + 1, rest)
    ensures ScanAccounts(responses, want, current, rest)
  {
  }

  /** The orders of pages `lo .. hi` are those of pages `lo .. hi-1`, then those of page `hi`. */
  lemma {:induction false} OrdersSnoc<E>(responses: seq<Outcome<OrderPage, E>>, lo: int, hi: int)
    requires lo <= hi
    ensures OrdersBetween(responses, lo, hi + 1) == OrdersBetween(responses, lo, hi) + PageOrders(responses, hi)
    decreases hi - lo
  {
    var last := PageOrders(responses, hi);
    if lo < hi {
      OrdersSnoc(responses, lo + 1, hi);
      var a := PageOrders(responses, lo);
      var mid := OrdersBetween(responses, lo + 1, hi);
      assert OrdersBetween(responses, lo, hi + 1) == a + (mid + last);
      assert a + (mid + last) == (a + mid) + last;
    } else {
      assert OrdersBetween(responses, lo + 1, hi + 1) == [];
      assert OrdersBetween(responses, lo, hi + 1) == last + [];
    }
  }

  datatype Pagination = Pagination(
    currentPage: int,
    pageSize: int,
    totalRecords: nat,
    totalPages: nat,
    hasNextPage: bool,
    hasPrevPage: bool)

  datatype CustomerReport = CustomerReport(pagination: Pagination, data: seq<Customer>)

  /** `Math.ceil(total / perPage)`. */
  function PageCount(total: nat, perPage: int): (r: nat)
    requires perPage >= 1
    ensures total == 0 ==> r == 0
    ensures total > 0 ==> (r - 1) * perPage < total <= r * perPage
  {
    var r := (total + perPage - 1) / perPage;
    assert r * perPage <= total + perPage - 1 < (r + 1) * perPage;
    r
  }

  /** `getAllCustomersFromOrders(page, perPage)`: scan from page 1, build the report entries from
      every order read, and cut the window `[(page-1)*perPage, page*perPage)` out of them. */
  function GetAllCustomersFromOrders<E>(responses: seq<Outcome<OrderPage, E>>, page: int, perPage: int)
    : (r: Outcome<CustomerReport, E>)
    requires perPage >= 1
    ensures r.Err? <==> ScanFrom(responses, page * perPage, 1, []).Err?
    ensures r.Ok? ==> var all := Customers(ScanFrom(responses, page * perPage, 1, []).value.scanned);
      r.value.pagination.totalRecords == |all| &&
      r.value.pagination.totalPages == PageCount(|all|, perPage) &&
      r.value.pagination.currentPage == page && r.value.pagination.pageSize == perPage &&
      r.value.data == JsSlice(all, (page - 1) * perPage, page * perPage) &&
      (r.value.pagination.hasNextPage <==> page < r.value.pagination.totalPages) &&
      (r.value.pagination.hasPrevPage <==> page > 1)
    ensures r.Ok? && page >= 1 ==> |r.value.data| <= perPage
    ensures r.Ok? && page >= 1 && |r.value.data| > 0 ==>
      (page - 1) * perPage + |r.value.data| <= r.value.pagination.totalRecords
  {
    match ScanFrom(responses, page * perPage, 1, [])
    case Err(e) => Err(e)
    case Ok(s) =>
      var all := Customers(s.scanned);
      var pages := PageCount(|all|, perPage);
      WindowBounds(page, perPage);
      Ok(CustomerReport(
        Pagination(page, perPage, |all|, pages, page < pages, page > 1),
        JsSlice(all, (page - 1) * perPage, page * perPage)))
  }

  /** The window of page `page` starts at a non-negative index and spans `perPage` entries. */
  lemma WindowBounds(page: int, perPage: int)
    requires perPage >= 1
    ensures page * perPage == (page - 1) * perPage + perPage
    ensures page >= 1 ==> 0 <= (page - 1) * perPage
  {
  }

  /** When the scan stops because enough customers are known for the requested page, that page
      of the report is full. */
  lemma EarlyStopFillsWindow<E>(responses: seq<Outcome<OrderPage, E>>, page: int, perPage: int)
    requires perPage >= 1 && page >= 1
    requires var s := ScanFrom(responses, page * perPage, 1, []);
      s.Ok? && |Customers(s.value.scanned)| >= page * perPage
    ensures |GetAllCustomersFromOrders(responses, page, perPage).value.data| == perPage
  {
    WindowBounds(page, perPage);
  }

  /** An order without billing e-mail or without a positive customer id leaves the report as it was. */
  lemma UnregisteredOrderIgnored(os: seq<Order>, o: Order)
    requires !Qualifies(o)
    ensures Customers(os + [o]) == Customers(os)
  {
    assert (os + [o])[..|os|] == os;
  }

  /** A second order with a known e-mail adds no entry and counts one more order for it. */
  lemma RepeatOrderCounts(os: seq<Order>, o: Order)
    requires Qualifies(o) && EmailOf(o) in QualifiedEmails(os)
    ensures |Customers(os + [o])| == |Customers(os)|
    ensures forall c :: c in Customers(os + [o]) && c.email == EmailOf(o) ==> c.totalOrders == OrdersOf(os, EmailOf(o)) + 1
  {
    var os' := os + [o];
    assert os'[..|os|] == os;
    CustomersSummarise(os);
    CustomersSummarise(os');
    assert QualifiedEmails(os') == QualifiedEmails(os) + [EmailOf(o)];
    assert QualifiedEmails(os')[..|QualifiedEmails(os)|] == QualifiedEmails(os);
  }
}

=== FILE: woo_payload.dfy ===
/** The bodies `WoocommerceService.createProducts` and `updateProduct`
    (src/modules/woocommerce/woocommerce.service.ts) send to the storefront. Prices are integer
    cents, so the two-decimal price text is the cents value; the product weight is not modelled. */
module WooPayload {
  import opened Outcomes
  import opened JsString
  import opened JsNumber
  import opened Catalog

  /** The stock argument the sync passes: `{ estoque }`, possibly without a quantity. */
  datatype StockArg = StockArg(estoque: Option<real>)

  /** `length`, `width`, `height` as decimal strings; an absent key is `None`. */
  datatype Dimensions = Dimensions(length: Option<string>, width: Option<string>, height: Option<string>)

  /** A product body. `sku` and `dimensions` are only sent on creation. `fixedPriceRules` is the
      `_fixed_price_rules` meta value: minimum quantity (as text) to wholesale unit price in cents. */
  datatype Payload = Payload(
    name: Option<string>,
    description: string,
    shortDescription: string,
    sku: Option<string>,
    regularPrice: int,
    manageStock: bool,
    stockQuantity: int,
    inStock: bool,
    dimensions: Option<Dimensions>,
    productType: string,
    status: string,
    priceRulesType: string,
    fixedPriceRules: map<string, int>)

  /** Creation fails before any request when no price row is passed (`price.pvenda` of `undefined`). */
  datatype BuildError = MissingPrice

  /** One dimension: present, as `String(Number(v))`, only when the value is strictly positive;
      the text reads back as the value itself. */
  function Dimension(cm: Numeral): (r: Option<string>)
    ensures r.Some? <==> cm.mantissa > 0
    ensures r.Some? ==> ToNumber(r.value) == Some(NumeralNumber(cm))
  {
    if cm.mantissa > 0 then NumberTextRoundTrip(cm); Some(NumberText(cm)) else None
  }

  /** A length of 15.5 cm is sent as `"15.5"`; a zero or negative one is left out. */
  lemma FractionalDimension()
    ensures Dimension(Numeral(155, 1)) == Some("15.5")
    ensures Dimension(Numeral(-3, 0)) == None
  {
    FractionText();
  }

  /** The dimensions of a product, or `undefined` when none of the three is positive. */
  function DimensionsOf(p: ErpProduct): (r: Option<Dimensions>)
    ensures r.None? <==> p.comprimentoCm.mantissa <= 0 && p.larguraCm.mantissa <= 0 && p.alturaCm.mantissa <= 0
    ensures r.Some? ==> r.value == Dimensions(Dimension(p.comprimentoCm), Dimension(p.larguraCm), Dimension(p.alturaCm))
  {
    var d := Dimensions(Dimension(p.comprimentoCm), Dimension(p.larguraCm), Dimension(p.alturaCm));
    if d.length.None? && d.width.None? && d.height.None? then None else Some(d)
  }

  /** `Math.floor(Number(estoque ?? 0))`. */
  function StockQuantity(s: StockArg): (r: int)
    ensures s.estoque.None? ==> r == 0
    ensures s.estoque.Some? ==> r as real <= s.estoque.value < r as real + 1.0
  {
    if s.estoque.Some? then s.estoque.value.Floor else 0
  }

  /** `Number(estoque) > 0`; a missing quantity is NaN and compares false. */
  predicate InStock(s: StockArg) {
    s.estoque.Some? && s.estoque.value > 0.0
  }

  /** `price.qtminimaatacado > 1`: the minimum quantity, a decimal `m / 10^scale`, exceeds 1. */
  predicate HasWholesaleTier(price: PriceRow) {
    price.qtminimaatacado.mantissa > Pow10(price.qtminimaatacado.scale)
  }

  /** The wholesale tier: one rule keyed by `qtminimaatacado.toString()` when the minimum exceeds 1,
      none otherwise. */
  function PriceRules(price: PriceRow): (r: map<string, int>)
    ensures !HasWholesaleTier(price) ==> r == map[]
    ensures HasWholesaleTier(price) ==> |r| == 1
    ensures forall k :: k in r ==>
      ToNumber(k) == Some(NumeralNumber(price.qtminimaatacado)) && r[k] == price.pvendaatacado
  {
    if HasWholesaleTier(price) then
      NumberTextRoundTrip(price.qtminimaatacado);
      map[NumberText(price.qtminimaatacado) := price.pvendaatacado]
    else map[]
  }

  /** The fields creation and update share. */
  function CommonFields(p: ErpProduct, s: StockArg, price: PriceRow): Payload {
    Payload(
      name := Or(p.nomeecommerce, p.descricao),
      description := Text(p.descricaolonga),
      shortDescription := Text(p.descricaocurta),
      sku := None,
      regularPrice := price.pvenda,
      manageStock := true,
      stockQuantity := StockQuantity(s),
      inStock := InStock(s),
      dimensions := None,
      productType := "simple",
      status := "publish",
      priceRulesType := "fixed",
      fixedPriceRules := PriceRules(price))
  }

  /** The body `createProducts` posts, or the error it throws before posting. */
  function CreatePayload(p: ErpProduct, s: StockArg, price: Option<PriceRow>): (r: Outcome<Payload, BuildError>)
    ensures r.Err? <==> price.None?
    ensures r.Ok? ==> r.value.sku == Some(CodeKey(p.codprod)) && ToNumber(r.value.sku.value) == Some(Exact(p.codprod, 0))
    ensures r.Ok? ==> r.value.dimensions == DimensionsOf(p)
    ensures r.Ok? ==> r.value.regularPrice == price.value.pvenda
    ensures r.Ok? ==> r.value.stockQuantity == StockQuantity(s) && (r.value.inStock <==> InStock(s))
    ensures r.Ok? && Truthy(p.nomeecommerce) ==> r.value.name == p.nomeecommerce
    ensures r.Ok? && !Truthy(p.nomeecommerce) ==> r.value.name == p.descricao
    ensures r.Ok? ==> r.value.description == Text(p.descricaolonga) && r.value.shortDescription == Text(p.descricaocurta)
    ensures r.Ok? ==> r.value.manageStock && r.value.productType == "simple" && r.value.status == "publish"
    ensures r.Ok? ==> r.value.priceRulesType == "fixed" && r.value.fixedPriceRules == PriceRules(price.value)
  {
    match price
    case None => Err(MissingPrice)
    case Some(pr) =>
      NumberOfDecimal(p.codprod);
      Ok(CommonFields(p, s, pr).(sku := Some(CodeKey(p.codprod)), dimensions := DimensionsOf(p)))
  }

  /** The body `updateProduct` puts: no SKU, no dimensions. */
  function UpdatePayload(p: ErpProduct, s: StockArg, price: PriceRow): (r: Payload)
    ensures r.sku.None? && r.dimensions.None?
    ensures r.regularPrice == price.pvenda
    ensures r.stockQuantity == StockQuantity(s) && (r.inStock <==> InStock(s))
    ensures r.manageStock && r.productType == "simple" && r.status == "publish"
    ensures Truthy(p.nomeecommerce) ==> r.name == p.nomeecommerce
    ensures !Truthy(p.nomeecommerce) ==> r.name == p.descricao
    ensures r.description == Text(p.descricaolonga) && r.shortDescription == Text(p.descricaocurta)
    ensures r.priceRulesType == "fixed" && r.fixedPriceRules == PriceRules(price)
  {
    CommonFields(p, s, price)
  }

  /** Creation and update send the same body apart from the SKU and the dimensions. */
  lemma CreateAndUpdateAgree(p: ErpProduct, s: StockArg, price: PriceRow)
    ensures var c := CreatePayload(p, s, Some(price));
      c.Ok? && c.value.(sku := None, dimensions := None) == UpdatePayload(p, s, price)
  {
  }

  /** Every body keeps stock managed, the stock non-negative for a non-negative quantity, and
      `instock` with a zero quantity only for a fractional quantity below 1. */
  lemma StockFields(s: StockArg)
    ensures s.estoque.Some? && s.estoque.value >= 0.0 ==> StockQuantity(s) >= 0
    ensures InStock(s) && StockQuantity(s) == 0 <==> s.estoque.Some? && 0.0 < s.estoque.value < 1.0
  {
  }

  /** A quantity of 1/2 is advertised in stock with quantity 0. */
  lemma HalfUnitInStockWithNone()
    ensures var s := StockArg(Some(0.5)); InStock(s) && StockQuantity(s) == 0
  {
  }

  /** The price rule map is a faithful encoding of the wholesale tier: reading it back gives the
      tier exactly when the tier's minimum quantity exceeds 1. */
  lemma PriceRulesRoundTrip(price: PriceRow)
    ensures HasWholesaleTier(price) <==>
      exists k :: k in PriceRules(price) && ToNumber(k) == Some(NumeralNumber(price.qtminimaatacado))
  {
    if HasWholesaleTier(price) {
      assert NumberText(price.qtminimaatacado) in PriceRules(price);
    }
  }

  /** A fractional minimum of 1.5 units is a tier, keyed `"1.5"`; a minimum of exactly 1, written
      `1.0`, is none. */
  lemma FractionalWholesaleMinimum(b: nat, pv: int, pa: int)
    ensures PriceRules(PriceRow(b, pv, Numeral(15, 1), pa)) == map["1.5" := pa]
    ensures PriceRules(PriceRow(b, pv, Numeral(10, 1), pa)) == map[]
  {
    assert NumberText(Numeral(15, 1)) == "1.5" by {
      assert Decimal(15) == "15" by { assert Decimal(1) == "1"; }
      assert Exact(15, -1) == Finite(15, -1);
    }
  }
}
